=== FILE: README.md ===
# Shop backend: carts, orders and payments

A Dafny model of the cart → order → payment path of a NestJS shop backend
that keeps its data in MongoDB through Mongoose. It covers these parts:

- the cart-items repository and service: one cart per user, lines of
  product id and quantity;
- the product lookups the order service needs;
- the orders repository, its mapper and the orders service: orders priced
  from a cart, custom orders, cancellation;
- the payments repository, its mapper and the payment service: cash
  payments, ZaloPay payments with the gateway callback, and status changes.

Each collection is a sequence in collection (natural) order. "The first
document that matches" is therefore well defined, as it is for `findOne`.
An operation that writes returns the new collection next to its result.
Where the source can write before it fails (the lazy creation of a cart
ahead of a "Cart is empty" error), the result is a pair
`(collections after, Result)`.

Errors are `NotFound` and `BadRequest`, the framework's HTTP exceptions,
and `Unhandled`. `Unhandled` stands for any plain `Error`, `TypeError` or
driver error, for example the cast of a malformed ObjectId.

Ids are strings. Where the source converts one (`new Types.ObjectId(s)`, a
schema cast), the model checks that it is valid (24 hexadecimal
characters) and stores the lower-case printed form. Some inputs come from
outside the code and are parameters of the model:

- the id the database assigns;
- `Date.now()`;
- the digits drawn from `Math.random()`;
- the environment's configuration;
- the database's case-insensitive regular-expression test.

Files:

| file | contents |
|---|---|
| `common.dfy` | `Option`, `Error`, `Result`, first-match and filter helpers, JavaScript truthiness |
| `text.dfy` | ASCII case mapping, decimal rendering, join and split |
| `objectids.dfy` | ObjectId validity, printed form and parsing |
| `sorting.dfy` | sort stages built from sort options |
| `pagination.dfy` | skip/limit paging and the controllers' limit clamp |
| `products.dfy` | the product repository's lookups, listing and update |
| `carts.dfy` | the cart-items repository |
| `cart_service.dfy` | the cart-items service |
| `orders_domain.dfy`, `orders_mapper.dfy`, `orders_repo.dfy`, `orders_service.dfy` | orders |
| `payments_domain.dfy`, `payments_mapper.dfy`, `payments_repo.dfy`, `payment_service.dfy` | payments |
| `database.dfy` | all collections together |

## Model

| member | source | states |
|---|---|---|
| ObjectIds.Parse | src/cart-items/infrastructure/persistence/document/repositories/cart-items.repository.ts:22 | casting a string to an ObjectId succeeds exactly for 24 hex characters, yields the lower-case printed form, and otherwise throws |
| ObjectIds.ParsePrinted | src/order/infrastructure/persistence/document/mappers/orders.mapper.ts:44-45 | casting an id that is already in printed form gives the same id back |
| ObjectIds.CanonicalEqualIff | src/cart-items/cart-items.service.ts:29-31 | two valid ids name the same ObjectId exactly when they agree up to the case of their hex letters |
| ObjectIds.ParseGiven | src/order/infrastructure/persistence/document/repositories/orders.repository.ts:75-81 | an optional id filter adds a constraint only when it is truthy, and throws when it is truthy and malformed |
| Sorting.Assign | src/products/infrastructure/persistence/document/repositories/products.repository.ts:94-99 | assigning a property keeps an existing key's position and appends a new key last, with distinct fields kept distinct |
| Sorting.StageFromOptions | src/cart-items/infrastructure/persistence/document/repositories/cart-items.repository.ts:81-91 | the stage names each field once, in order of first mention, with the direction the last option naming it asked for |
| Sorting.OrderStageDirections | src/order/infrastructure/persistence/document/repositories/orders.repository.ts:106-115 | in an order or cart stage a field is ascending exactly when its last option upper-cases to "ASC" |
| Sorting.UpperCaseDirectionAscending | src/order/infrastructure/persistence/document/repositories/orders.repository.ts:106-115 | ascending exactly for the eight ASCII mixed-case spellings of "asc" |
| Sorting.ProductStageDirections | src/products/infrastructure/persistence/document/repositories/products.repository.ts:94-99 | in a product stage a field is descending exactly when its last option is exactly "desc" |
| Pagination.Paginate | src/order/infrastructure/persistence/document/repositories/orders.repository.ts:116-117 | a page holds at most `limit` documents, those at positions `(page-1)*limit` onward, and is empty past the end |
| Pagination.PagesArePrefix | src/cart-items/infrastructure/persistence/document/repositories/cart-items.repository.ts:94-97 | pages 1..n together are exactly the first n*limit documents: no overlap, no gap |
| Pagination.ClampLimit | src/order/orders.controller.ts:102-104 | the page size never exceeds 50 and is unchanged at or below 50 |
| Pagination.RequestedLimit | src/cart-items/cart-items.controller.ts:60-63 | a missing limit is 10, and a given one is clamped to 50 |
| Pagination.RequestedPage | src/order/orders.controller.ts:100 | a missing page is 1 |
| ProductsRepo.CategoryCondition | src/products/infrastructure/persistence/document/repositories/products.repository.ts:45-47 | a truthy category id is cast (throwing when malformed), and a falsy one adds no condition |
| ProductsRepo.FindManyWithPagination | src/products/infrastructure/persistence/document/repositories/products.repository.ts:33-109 | fails (Unhandled) exactly on a malformed category id; otherwise returns the product sort stage and, as items, exactly the requested page of the products meeting every truthy filter entry, in collection order |
| ProductsRepo.VacuousFilterKeepsAll | src/products/infrastructure/persistence/document/repositories/products.repository.ts:45-99 | with only falsy filter entries the listing pages over the whole collection |
| ProductsRepo.NumberEntriesAreEquality | src/products/infrastructure/persistence/document/repositories/products.repository.ts:53-55 | a truthy price, rating or stock filter matches only that exact value; the range for rating and stock is `$gte` and `$lte` of the same number |
| ProductsRepo.FindById | src/products/infrastructure/persistence/document/repositories/products.repository.ts:111-114 | a malformed id throws; otherwise the stored product with that id, or none when there is no such product |
| ProductsRepo.FindByIds | src/products/infrastructure/persistence/document/repositories/products.repository.ts:116-122 | throws if any id is malformed; otherwise returns exactly the stored products whose id is among the requested ones |
| ProductsRepo.ApplyPatch | src/products/infrastructure/persistence/document/repositories/products.repository.ts:124-132 | name, description, price, brand, country of manufacture, rating and stock each take the patch's value when it is given and keep the stored one otherwise; the category is the cast one; the id and creation time stay; the update time is now |
| ProductsRepo.Update | src/products/infrastructure/persistence/document/repositories/products.repository.ts:124-132 | fails (Unhandled) exactly when the id or a given category id is malformed, whether or not the product exists; a missing product leaves the collection unchanged and gives none; otherwise the first product with that id is replaced by the patched product, which is returned |
| ProductsRepo.CastCategory | src/products/infrastructure/persistence/document/repositories/products.repository.ts:124-132 | the patch's category id is cast when the patch sets it, and a malformed one throws |
| CartsRepo.FindByUserId | src/cart-items/infrastructure/persistence/document/repositories/cart-items.repository.ts:20-25 | throws on a malformed user id; otherwise returns the user's first cart, or none when the user has no cart |
| CartsRepo.FindById | src/cart-items/infrastructure/persistence/document/repositories/cart-items.repository.ts:27-30 | throws on a malformed id; otherwise returns the cart with that id, or none |
| CartsRepo.Create | src/cart-items/infrastructure/persistence/document/repositories/cart-items.repository.ts:103-108 | appends an active, empty cart owned by the user |
| CartsRepo.AddProduct | src/cart-items/infrastructure/persistence/document/repositories/cart-items.repository.ts:110-127 | the upsert `$push`: the line goes at the end of the user's cart, or a new cart holding only that line is appended |
| CartsRepo.UpdateProductQuantity | src/cart-items/infrastructure/persistence/document/repositories/cart-items.repository.ts:129-146 | NotFound exactly when no cart of the user holds the product; otherwise the first line for the product takes the new quantity and nothing else changes |
| CartsRepo.PullProduct | src/cart-items/infrastructure/persistence/document/repositories/cart-items.repository.ts:152 | `$pull` keeps exactly the lines for other products, in their order, and leaves none for the product |
| CartsRepo.RemoveProduct | src/cart-items/infrastructure/persistence/document/repositories/cart-items.repository.ts:148-157 | with no cart, nothing changes and the result is none; otherwise every line for the product leaves the user's cart |
| CartsRepo.Clear | src/cart-items/infrastructure/persistence/document/repositories/cart-items.repository.ts:159-166 | empties the user's cart and nothing else, and does not create one |
| CartsRepo.ClearIdempotent | src/cart-items/infrastructure/persistence/document/repositories/cart-items.repository.ts:159-166 | clearing twice is clearing once |
| CartsRepo.FindManyWithPagination | src/cart-items/infrastructure/persistence/document/repositories/cart-items.repository.ts:37-101 | fails exactly on a malformed user or product id filter; otherwise the items are exactly the requested page of the carts meeting the user, product and item-count filters, in collection order |
| CartsRepo.ListingSelectsExactly | src/cart-items/infrastructure/persistence/document/repositories/cart-items.repository.ts:48-78 | a stored cart passes the match stage if and only if it meets every given filter entry |
| CartService.GetCart | src/cart-items/cart-items.service.ts:10-17 | returns the user's cart; when there is none, creates an empty one first |
| CartService.GetCartTwice | src/cart-items/cart-items.service.ts:10-17 | a second getCart creates nothing and returns the same cart |
| CartService.AddItemToCartAsWritten | src/cart-items/cart-items.service.ts:23-46 | the service as written, comparing the raw product id with the stored printed form |
| CartService.AddItemToCartAsWrittenDuplicates | src/cart-items/cart-items.service.ts:29-31 | an upper-case spelling of a product already in the cart appends a second line for that product |
| CartService.AddItemToCartAsWrittenAgrees | src/cart-items/cart-items.service.ts:23-46 | with a product id in printed form, the service as written and the corrected lookup give the same result |
| CartService.AddItemToCart | src/cart-items/cart-items.service.ts:23-46 | fails exactly on a malformed id; the returned cart belongs to the user and replaces the user's cart where it stood, or is appended when the user had none |
| CartService.AddItemToCartLines | src/cart-items/cart-items.service.ts:23-46 | the resulting lines are the user's former lines with the product's line raised by the quantity, or a new line at the end |
| CartService.AddItemToCartMerges | src/cart-items/cart-items.service.ts:23-46 | in a cart with one line per product, the product's quantity becomes the held one plus the added one, other products keep theirs, and lines stay one per product |
| CartService.PullProductEffect | src/cart-items/infrastructure/persistence/document/repositories/cart-items.repository.ts:148-157 | after a removal the product has no quantity, every other product keeps its quantity, and one line per product is kept |
| CartService.RemoveItemFromCart | src/cart-items/cart-items.service.ts:64-66 | fails exactly on a malformed id; with no cart nothing changes; otherwise the stored cart no longer holds the product |
| CartService.UpdateCartItem | src/cart-items/cart-items.service.ts:48-62 | a quantity of zero or less is a removal; a positive one succeeds exactly when both ids are valid and a cart of the user holds the product, and is NotFound exactly when no such cart exists |
| CartService.UpdateCartItemSets | src/cart-items/cart-items.service.ts:48-62 | a positive update rewrites the first cart of the user holding the product, a non-positive one the user's first cart, and no other cart; in it the product's quantity is the requested one (or the product is gone) and every other product keeps its quantity |
| CartService.ClearCart | src/cart-items/cart-items.service.ts:68-71 | afterwards the user has a stored empty cart; an existing cart is emptied, otherwise an empty one is created |
| OrdersMapper.ItemToPersistence | src/order/infrastructure/persistence/document/mappers/orders.mapper.ts:35-43 | a truthy product id is cast, throwing when malformed, and a falsy one is dropped; the other fields are copied |
| OrdersMapper.ItemsToPersistence | src/order/infrastructure/persistence/document/mappers/orders.mapper.ts:35-43 | every line converted in order, or the error |
| OrdersMapper.ToPersistence | src/order/infrastructure/persistence/document/mappers/orders.mapper.ts:33-53 | throws when items are missing or an id is malformed; otherwise ids are printed form and a missing cart id is a freshly generated one |
| OrdersMapper.Store | src/order/infrastructure/persistence/document/repositories/orders.repository.ts:18-24 | `save()` succeeds exactly when total and status are present and every line has a non-empty product name (the schema's required check); Unhandled otherwise; it stores the document under the assigned id |
| OrdersMapper.ToDomain | src/order/infrastructure/persistence/document/mappers/orders.mapper.ts:20-22 | a stored cart id is printed, and a missing one becomes a freshly generated id |
| OrdersMapper.ShapeRoundTrip | src/order/infrastructure/persistence/document/mappers/orders.mapper.ts:6-53 | writing an order and reading it back keeps every line, the total, status, notes and ids, with ids in printed form |
| OrdersMapper.DocumentRoundTrip | src/order/infrastructure/persistence/document/mappers/orders.mapper.ts:6-53 | reading a stored document and writing it back gives the same document |
| OrdersRepo.Create | src/order/infrastructure/persistence/document/repositories/orders.repository.ts:18-24 | succeeds exactly when the draft's ids convert and every line has a non-empty product name; then appends one document and returns it read back: assigned id, printed ids, the draft's status, total and notes |
| OrdersRepo.CreatedLines | src/order/infrastructure/persistence/document/repositories/orders.repository.ts:18-24 | the created order's lines are the draft's, with product ids in printed form |
| OrdersRepo.FindByIdAsWritten | src/order/infrastructure/persistence/document/repositories/orders.repository.ts:49-57 | as written, a missing order throws a plain Error instead of returning null |
| OrdersRepo.FindByIdAsWrittenAgrees | src/order/infrastructure/persistence/document/repositories/orders.repository.ts:49-57 | the as-written lookup differs from the corrected one only by raising Unhandled where the corrected one returns none |
| OrdersRepo.FindById | src/order/infrastructure/persistence/document/repositories/orders.repository.ts:49-57 | throws on a malformed id; otherwise the order with that id, or none when there is none |
| OrdersRepo.UpdateAsWritten | src/order/infrastructure/persistence/document/repositories/orders.repository.ts:26-43 | as written, every update throws, because the mapper reads `items` of a partial order |
| OrdersRepo.Patched | src/order/infrastructure/persistence/document/repositories/orders.repository.ts:26-43 | a patch changes the status (when given), the cart id (when given), the owner and the update time, and nothing else |
| OrdersRepo.Update | src/order/infrastructure/persistence/document/repositories/orders.repository.ts:26-43 | succeeds exactly when the ids are valid and an order has that id; a missing order fails (Unhandled) like the repository's thrown `Error`; otherwise only that order's slot is patched, under the caller's user id |
| OrdersRepo.UpdateStatusByOwner | src/order/infrastructure/persistence/document/repositories/orders.repository.ts:26-43 | the owner's status update changes exactly the status and the update time |
| OrdersRepo.FindByUserId | src/order/infrastructure/persistence/document/repositories/orders.repository.ts:123-126 | throws on a malformed id; otherwise exactly the user's orders, in collection order, each mapped to the domain |
| OrdersRepo.FindManyWithPagination | src/order/infrastructure/persistence/document/repositories/orders.repository.ts:64-121 | fails exactly on a malformed user or cart id filter; otherwise the items are exactly the requested page of the stored orders meeting the user, cart, status, total and notes filters, in collection order, mapped to the domain |
| OrdersRepo.ListingSelectsExactly | src/order/infrastructure/persistence/document/repositories/orders.repository.ts:75-102 | a stored order passes the filter if and only if it meets every given entry, including the notes search |
| OrdersService.PriceLine | src/order/orders.service.ts:53-69 | a line's product is looked up: a malformed id throws, a missing product is NotFound, otherwise the line carries the product's name and price and the cart's quantity |
| OrdersService.PriceLines | src/order/orders.service.ts:53-69 | every cart line priced in order, or the first error |
| OrdersService.NonEmptyCart | src/order/orders.service.ts:47-50 | BadRequest exactly when the cart is missing or empty; a malformed cart id throws |
| OrdersService.Create | src/order/orders.service.ts:45-81 | succeeds exactly when the cart exists and is non-empty, every line's product exists with a non-empty name and the user id is valid; BadRequest exactly for a missing or empty cart; on success the order is appended as Pending for the caller, and nothing else changes |
| OrdersService.CreatePricesCart | src/order/orders.service.ts:45-81 | the created order has one line per cart line at the catalogue price, and its total is the sum of price times quantity |
| OrdersService.CartDraftNames | src/order/infrastructure/persistence/document/entities/orders.schema.ts:15-16 | a draft priced from cart lines names every line exactly when every line's product has a non-empty name |
| OrdersService.ChosenLine | src/order/orders.service.ts:103-125 | a product not in the cart is a BadRequest; otherwise its first cart line is priced |
| OrdersService.ChosenLines | src/order/orders.service.ts:97-126 | every chosen product is in the cart and priced, in the order asked for |
| OrdersService.CreateCustomOrder | src/order/orders.service.ts:83-141 | succeeds exactly when the cart exists and is non-empty, the selection is non-empty, every selected product is in the cart and the catalogue with a non-empty name, and the user id is valid; BadRequest on a missing or empty cart or an empty selection; otherwise one priced line per selected product, appended as Pending with the notes |
| OrdersService.CustomOrderPricesChosen | src/order/orders.service.ts:97-141 | the custom order has one line per requested product, in request order, priced from the catalogue with the quantity of the cart line holding it, and its total is the sum of price times quantity |
| OrdersService.CustomLine | src/order/orders.service.ts:176-207 | a custom line without a product id is taken as given; with one, a malformed id throws, a valid id that no product has is a NotFound, and otherwise the product's name and price fill in the line's falsy ones |
| OrdersService.CartDraft | src/order/orders.service.ts:153-219 | cart lines priced first, then custom lines; the total is the sum over both runs |
| OrdersService.PlaceFromCart | src/order/orders.service.ts:209-221 | succeeds exactly when every cart line and custom line resolves, every resulting line has a non-empty product name and the user and cart ids are valid; the draft is then stored as a Pending order of the user for the cart |
| OrdersService.PlaceFromCartTotal | src/order/orders.service.ts:153-221 | the stored order has the cart's lines then the custom lines, and its total is their sum |
| OrdersService.Checkout | src/order/orders.service.ts:221-224 | succeeds exactly when placing the order succeeds; then the order is stored and the user's cart is emptied; on failure nothing changes |
| OrdersService.CreateCustomOrderFromCart | src/order/orders.service.ts:143-227 | succeeds exactly when the user id is valid and the user's cart exists, is non-empty, has a valid id, all its lines and the custom lines resolve and every resulting line has a non-empty product name; BadRequest exactly when the cart is empty (a lazily created cart may remain); on success a Pending order is added and the cart is emptied |
| OrdersService.CustomOrderFromCartLines | src/order/orders.service.ts:153-207 | the order holds the cart's priced lines followed by the custom lines |
| OrdersService.CreateFromCart | src/order/orders.service.ts:246-286 | succeeds exactly when the user id is valid, the user's cart exists, is non-empty and has a valid id, and every line's product exists with a non-empty name; BadRequest exactly when the cart is empty; on success one order, under the assigned id and for the user, is appended, the user's cart is emptied, and products and payments are unchanged |
| OrdersService.CreateFromCartPricesCart | src/order/orders.service.ts:246-286 | the order made from the whole cart has one line per cart line at the catalogue price, and its total is the sum of its lines |
| OrdersService.FindOne | src/order/orders.service.ts:37-43 | NotFound exactly when no order has the id; a malformed id throws |
| OrdersService.Update | src/order/orders.service.ts:229-240 | succeeds exactly when the ids, and a given cart id, are valid and the order exists; a missing order is Unhandled, because the repository throws before the service's NotFound check; only the addressed order changes: its owner and cart id; status, items and total stay |
| OrdersService.UpdateKeepsOrder | src/order/orders.service.ts:229-240 | the updated order keeps its id, lines, total, status and creation time, belongs to the caller and was updated now |
| OrdersService.CancelOrder | src/order/orders.service.ts:288-304 | NotFound for a missing order; BadRequest exactly when it is already Cancelled or Confirmed; succeeds exactly when both ids are valid and the order is open; then only that order changes: its status becomes Cancelled, its update time now, and its owner the caller |
| OrdersService.CancelOrderTakesOver | src/order/orders.service.ts:288-304 | with no ownership check, cancelling another user's open order succeeds and stores the order under the caller's id |
| OrdersService.CancelOrderTwice | src/order/orders.service.ts:293-295 | cancelling a cancelled order is a BadRequest |
| PaymentsMapper.ToPersistence | src/payment/infrastructure/persistence/document/mappers/payments.mapper.ts:27-50 | casts both ids, throwing when malformed, and copies the id only when it is non-empty |
| PaymentsMapper.ToDomain | src/payment/infrastructure/persistence/document/mappers/payments.mapper.ts:6-25 | the domain payment keeps the stored id |
| PaymentsMapper.PaymentRoundTrip | src/payment/infrastructure/persistence/document/mappers/payments.mapper.ts:6-50 | mapping a payment out and back gives it with its ids in printed form |
| PaymentsMapper.CanonicalPaymentRoundTrip | src/payment/infrastructure/persistence/document/mappers/payments.mapper.ts:6-50 | a payment whose ids are in printed form maps out and back to itself |
| PaymentsMapper.PayloadRoundTrip | src/payment/infrastructure/persistence/document/mappers/payments.mapper.ts:6-50 | a stored document maps in and back out to itself |
| PaymentsRepo.SaveNew | src/payment/infrastructure/persistence/document/entities/payments.schema.ts:23-30 | `save()` of a new payment rejects a negative amount, an empty transaction id, or one already in use; otherwise it appends and keeps transaction ids unique |
| PaymentsRepo.SaveAt | src/payment/infrastructure/persistence/document/entities/payments.schema.ts:29-30 | re-saving a payment is rejected when another payment holds its transaction id, and keeps transaction ids unique |
| PaymentsRepo.Insert | src/payment/infrastructure/persistence/document/repositories/payments.repository.ts:19-30 | the stored document carries the given id or the assigned one, and is appended |
| PaymentsRepo.Create | src/payment/infrastructure/persistence/document/repositories/payments.repository.ts:19-30 | succeeds exactly for valid ids, a non-negative amount and an unused non-empty transaction id, and appends exactly the drafted payment |
| PaymentsRepo.FindById | src/payment/infrastructure/persistence/document/repositories/payments.repository.ts:37-44 | a malformed id finds nothing; otherwise the stored payment with that id, or none |
| PaymentsRepo.FindByOrderId | src/payment/infrastructure/persistence/document/repositories/payments.repository.ts:46-55 | exactly the order's payments, and nothing for a malformed id |
| PaymentsRepo.FindByUserId | src/payment/infrastructure/persistence/document/repositories/payments.repository.ts:57-66 | exactly the user's payments, and nothing for a malformed id |
| PaymentsRepo.FindByTransactionId | src/payment/infrastructure/persistence/document/repositories/payments.repository.ts:68-73 | a payment with that transaction id, and none exactly when there is none |
| PaymentsRepo.FindByZaloPayOrderId | src/payment/infrastructure/persistence/document/repositories/payments.repository.ts:75-80 | a payment with that gateway order id, and none exactly when there is none |
| PaymentsRepo.FindManyWithPagination | src/payment/infrastructure/persistence/document/repositories/payments.repository.ts:82-94 | exactly the requested page of the whole collection: min(limit, what remains) payments starting at the page's offset, or none past the end |
| PaymentsRepo.Merge | src/payment/infrastructure/persistence/document/repositories/payments.repository.ts:101-117 | the patch's fields override, absent ones keep the stored values, the id and creation time stay (timestamps make `createdAt` immutable) and the update time is now |
| PaymentsRepo.MergeEmpty | src/payment/infrastructure/persistence/document/repositories/payments.repository.ts:101-117 | an empty patch changes only the update time |
| PaymentsRepo.Update | src/payment/infrastructure/persistence/document/repositories/payments.repository.ts:96-122 | a malformed or unknown id changes nothing; otherwise only that payment is replaced by the merge, unless the ids or the unique index reject it |
| PaymentsRepo.UpdateKeepsUnique | src/payment/infrastructure/persistence/document/entities/payments.schema.ts:29-30 | an update keeps transaction ids unique |
| PaymentsRepo.UpdateKeepsIds | src/payment/infrastructure/persistence/document/repositories/payments.repository.ts:96-122 | an update keeps every payment's id and creation time and changes no other payment |
| PaymentsRepo.Remove | src/payment/infrastructure/persistence/document/repositories/payments.repository.ts:124-132 | removes exactly the first payment with the id, if any |
| PaymentService.TransactionId | src/payment/payment.service.ts:284-288 | a transaction id has no lower-case letter and its length is prefix, timestamp and random part |
| PaymentService.TransactionIdShape | src/payment/payment.service.ts:284-288 | a transaction id is "PAY_", the timestamp's digits (which read back as the timestamp), "_" and the upper-cased random part |
| PaymentService.CreatePayment | src/payment/payment.service.ts:68-105 | succeeds exactly when both ids are valid, the order has no Paid or Pending payment, the amount is not negative and the new transaction id is not in use; BadRequest exactly for a malformed id or an open payment of the order; otherwise a Pending payment is appended with transaction ids kept unique |
| PaymentService.CreatePaymentBlocksSecond | src/payment/payment.service.ts:80-87 | once a payment is created, a second one for the same order is a BadRequest |
| PaymentService.GetOrderAmount | src/payment/payment.service.ts:290-304 | the order's total, and NotFound exactly when the id is malformed or there is no such order |
| PaymentService.UpdatePaymentStatus | src/payment/payment.service.ts:196-215 | BadRequest on a malformed id, NotFound on an unknown one; otherwise only the status and update time of that payment change |
| PaymentService.CancelPayment | src/payment/payment.service.ts:217-219 | BadRequest for a malformed id and NotFound for an unknown one; otherwise that payment becomes Cancelled with the current update time, and no other payment changes |
| PaymentService.CashPayment | src/payment/payment.service.ts:128-141 | succeeds exactly when the order is found, the payment of its total can be created and the assigned id is valid and finds a payment afterwards; a cash payment of the order's total is then stored already Paid, with the default description when none is given |
| PaymentService.AppendedIdFound | src/payment/payment.service.ts:128-141 | after a payment is appended, an id finds a payment exactly when it did before or is the new payment's id |
| PaymentService.PayByCash | src/payment/payment.service.ts:107-142 | lookup errors pass through; another user's order or an already paid order is a BadRequest; an own, unpaid order gets exactly the cash payment |
| PaymentService.PayByCashOnce | src/payment/payment.service.ts:118-126 | once paid by cash, paying the same order again is a BadRequest |
| PaymentService.GatewayOrderFor | src/payment/payment.service.ts:238-251 | the gateway order carries the payment's transaction id, user and amount, and the configured or default app id and callback URL |
| PaymentService.MacInputFields | src/payment/payment.service.ts:254 | the MAC input is the seven fields joined by '\|', from which each field can be read back |
| PaymentService.ZaloPayOrder | src/payment/payment.service.ts:262-265 | the gateway stand-in returns the mock URL ending in the transaction id, and that id as the gateway order id |
| PaymentService.PayByZaloPay | src/payment/payment.service.ts:144-173 | a failed order lookup is a NotFound; otherwise it succeeds exactly when creating the payment does, with the same error otherwise, and a Pending ZaloPay payment of the order's total, for the order and the caller under the assigned id, is appended with its payment URL and gateway order id |
| PaymentService.CallbackStatus | src/payment/payment.service.ts:188-189 | the callback's status 1 means Paid, and anything else Failed |
| PaymentService.HandleZaloPayCallback | src/payment/payment.service.ts:175-194 | NotFound exactly when no payment has the gateway order id; otherwise that payment takes the status and transaction id, with the update time refreshed only when one of them changes; an empty transaction id fails validation, and the unique index can reject only a write that changes something |
| PaymentService.Settled | src/payment/payment.service.ts:188-193 | the payment after a callback has the callback's status and transaction id, keeps every other field, and keeps its update time when nothing changed |
| PaymentService.CallbackReplay | src/payment/payment.service.ts:175-194 | replaying a successful callback succeeds and leaves the payments and the returned payment exactly as the first delivery did |
| PaymentService.ZaloPayThenCallback | src/payment/payment.service.ts:144-194 | a successful callback for a fresh ZaloPay payment marks exactly that payment Paid with the gateway's transaction id |

## Left out

- Pagination.Paginate: requires `page >= 1` and `limit >= 1`. A negative skip or a zero limit behaves as the database decides, which is not modelled.
- ProductsRepo.FindManyWithPagination, CartsRepo.FindManyWithPagination, OrdersRepo.FindManyWithPagination: the ordering a non-empty sort stage imposes is not modelled; only the stage handed to the database is. The page is taken over the matches in collection order, which is what the database returns only when the sort stage is empty. With a sort, the real page can hold different documents.
- Regular-expression matching is a parameter. The case mapping is ASCII only.
- The ZaloPay request body's JSON encoding of `embed_data` and `item`, and the HMAC-SHA256 digest over the MAC input, are not modelled. `MacInput` is the string that would be signed.
- `Date.now()`, `Math.random()`, `process.env` and the ids the database assigns are parameters.
- Concurrency is not modelled. The duplicate-payment guard in `createPayment` is a check followed by a write, and the model runs the two atomically.
- The `100000` fallback in `getOrderAmount` runs only when the order service or its `findOne` is not injected. The model always has the order service.
- Prices, totals and amounts are unbounded integers. The source holds them as JavaScript numbers (doubles), so rounding of large or fractional values is not modelled.
- OrdersService.FindOne: built on the corrected `OrdersRepo.FindById`. As written, a valid id that no order has throws a plain Error (HTTP 500), not a NotFound.
- OrdersService.Update: built on the corrected `OrdersRepo.Update`. As written, every update fails with a TypeError in the mapper. The corrected repository keeps the thrown `Error` for a missing order, so the service's NotFound (orders.service.ts:238) is never reached.
- OrdersService.CancelOrder: built on the corrected `OrdersRepo.FindById` and `OrdersRepo.Update`. As written, a missing order is an HTTP 500, and every cancellation fails with a TypeError.
- OrdersService.CancelOrder: no guard restricting cancellation to the order's owner is modelled, because the code has none. A caller who cancels another user's open order becomes its owner, as `CancelOrderTakesOver` states.
- PaymentService.GetOrderAmount: built on the corrected `OrdersRepo.FindById`. As written the outcome is the same, because any failure becomes a NotFound.
- PaymentService.PayByCash: built on the corrected `OrdersRepo.FindById`. As written, a valid id that no order has is an HTTP 500, not a NotFound.
- With several carts per user, a positive `updateCartItem` rewrites the first cart of the user that holds the product, while a removal rewrites the user's first cart. Both follow the queries the repository sends.
- Some operations are not modelled, each a plain query or delete with no logic of its own:
  - the payment service's `findOne`, `findByOrderId` and `findByUserId`;
  - the orders repository's `delete` and `findAll`;
  - the orders service's `delete`, `findAll` and `myOrders`;
  - the product repository's `create` and `remove`;
  - the cart repository's `findAll`.
- DTO validation by decorators is not modelled. A payload field that holds `undefined` is modelled as absent.
- order-status.enum.ts is not part of this model. Statuses other than Pending, Confirmed and Cancelled are `Other`.
- The payment module registers the schema of src/payment/domain/payment.schema.ts. The model follows the repository's schema, payments.schema.ts, which the repository and mapper are written against.
- Re-saving a payment document (`SaveAt`) re-checks only the transaction id's requiredness and uniqueness. Cart timestamps are not modelled.
- PaymentService.CashPayment: the exact stored payment is stated only when the assigned id is fresh. Otherwise the status update may address an older payment with the same id.
- PaymentService.PayByCash: states the result only through `CashPayment`, whose exact form needs a fresh assigned id.
- PaymentService.ZaloPayThenCallback: assumes no earlier payment holds the same gateway order id. The callback settles the first such payment.
- OrdersService.CreateCustomOrder: the error kind is stated for a missing cart and an empty selection. For a product missing from the cart it is stated only as "an error".

## Findings

| source | as written | input that shows it | evidently intended | confidence | as-written member | corrected member |
|---|---|---|---|---|---|---|
| src/order/infrastructure/persistence/document/repositories/orders.repository.ts:49-57 | `findById` throws a plain `Error` when the order does not exist, so the callers' `if (!order) throw new NotFoundException` never runs and the client sees a 500 | a valid order id that no stored order has | return `null`, so that the callers raise NotFound | not executed | OrdersRepo.FindByIdAsWrittenAgrees | OrdersRepo.FindById |
| src/order/infrastructure/persistence/document/repositories/orders.repository.ts:31-35 | `update` passes a partial order to the mapper, and the mapper reads `items.map`, so every update, including a cancellation, throws a `TypeError` | any update, e.g. cancelling a Pending order | write only the patched fields | not executed | OrdersRepo.UpdateAsWritten | OrdersRepo.UpdateStatusByOwner |
| src/cart-items/cart-items.service.ts:29-31 | `addItemToCart` compares the raw product id with the stored printed form, so an upper-case spelling of a product already in the cart is not recognised and a second line is pushed | a cart holding product `aaaaaaaaaaaaaaaaaaaaaaaa` and a request for `AAAAAAAAAAAAAAAAAAAAAAAA` | compare ObjectIds, so that the quantity is raised | not executed | CartService.AddItemToCartAsWrittenDuplicates | CartService.AddItemToCartMerges |

=== FILE: cart_service.dfy ===
/** The cart service: the user's cart created on first access, adding a
    product merges into the product's existing line, a non-positive quantity
    removes the line, and clearing leaves an empty cart behind.  Service
    results that may follow a write carry the cart store as it is afterwards. */
module CartService {
  import opened Common
  import opened CartsRepo
  import ObjectIds

  /** At most one line per product. */
  predicate DistinctProducts(items: seq<CartLine>) {
    forall i, j :: 0 <= i < j < |items| ==> items[i].productId != items[j].productId
  }

  /** The quantity a cart holds of a product: its line's, if it has one. */
  function LineQuantity(items: seq<CartLine>, productId: string): Option<int> {
    match LineIndex(items, productId)
    case None => None
    case Some(j) => Some(items[j].quantity)
  }

  /** In a cart with one line per product, a product's line is the only line
      naming it. */
  lemma {:induction false} LineQuantityOfDistinct(items: seq<CartLine>, j: nat)
    requires DistinctProducts(items)
    requires j < |items|
    ensures LineQuantity(items, items[j].productId) == Some(items[j].quantity)
  {
    assert LineIndex(items, items[j].productId) == Some(j);
  }

  /** Appending a line for a product the cart does not hold: that product's
      quantity becomes the line's, every other product's is unchanged. */
  lemma {:induction false} AppendLineEffect(items: seq<CartLine>, productId: string, quantity: int)
    requires !HasProduct(items, productId)
    ensures DistinctProducts(items) ==> DistinctProducts(items + [CartLine(productId, quantity)])
    ensures LineQuantity(items + [CartLine(productId, quantity)], productId) == Some(quantity)
    ensures forall p :: p != productId ==>
      LineQuantity(items + [CartLine(productId, quantity)], p) == LineQuantity(items, p)
  {
    var after := items + [CartLine(productId, quantity)];
    assert after[|items|].productId == productId;
    forall p | p != productId
      ensures LineQuantity(after, p) == LineQuantity(items, p)
    {
      var a, b := LineIndex(after, p), LineIndex(items, p);
      if b.Some? {
        assert after[b.value] == items[b.value];
      }
      if a.Some? {
        assert a.value < |items|;
        assert after[a.value] == items[a.value];
      }
    }
  }

  /** The positional update: the product's quantity becomes the new one,
      every other product's is unchanged, and lines stay distinct. */
  lemma {:induction false} SetFirstQuantityEffect(items: seq<CartLine>, productId: string, quantity: int)
    requires HasProduct(items, productId)
    ensures DistinctProducts(items) ==> DistinctProducts(SetFirstQuantity(items, productId, quantity))
    ensures LineQuantity(SetFirstQuantity(items, productId, quantity), productId) == Some(quantity)
    ensures forall p :: p != productId ==>
      LineQuantity(SetFirstQuantity(items, productId, quantity), p) == LineQuantity(items, p)
  {
    var after := SetFirstQuantity(items, productId, quantity);
    var j := LineIndex(items, productId).value;
    assert forall k :: 0 <= k < |items| ==> after[k].productId == items[k].productId;
    assert LineIndex(after, productId) == Some(j);
    forall p | p != productId
      ensures LineQuantity(after, p) == LineQuantity(items, p)
    {
      var a, b := LineIndex(after, p), LineIndex(items, p);
      if a.Some? && b.Some? {
        assert a.value == b.value;
      }
    }
  }

  /** Pulling a product leaves every other product's quantity as it was. */
  lemma {:induction false} PullKeepsOthers(items: seq<CartLine>, productId: string, p: string)
    requires p != productId
    ensures LineQuantity(PullProduct(items, productId), p) == LineQuantity(items, p)
    decreases |items|
  {
    if |items| > 0 {
      PullKeepsOthers(items[1..], productId, p);
      LineQuantityCons(items, p);
      var pulled := PullProduct(items, productId);
      if items[0].productId == productId {
        assert pulled == PullProduct(items[1..], productId);
      } else {
        assert pulled == [items[0]] + PullProduct(items[1..], productId);
        LineQuantityCons(pulled, p);
        assert pulled[1..] == PullProduct(items[1..], productId);
      }
    }
  }

  /** Pulling keeps lines one per product. */
  lemma {:induction false} PullKeepsDistinct(items: seq<CartLine>, productId: string)
    requires DistinctProducts(items)
    ensures DistinctProducts(PullProduct(items, productId))
    decreases |items|
  {
    if |items| > 0 {
      var rest := PullProduct(items[1..], productId);
      PullKeepsDistinct(items[1..], productId);
      if items[0].productId != productId {
        forall k | 0 <= k < |rest|
          ensures rest[k].productId != items[0].productId
        {
          assert rest[k] in items[1..];
        }
        assert PullProduct(items, productId) == [items[0]] + rest;
      }
    }
  }

  /** Pulling a product: the product is gone, every other product keeps its
      quantity, and lines stay one per product. */
  lemma PullProductEffect(items: seq<CartLine>, productId: string)
    ensures DistinctProducts(items) ==> DistinctProducts(PullProduct(items, productId))
    ensures LineQuantity(PullProduct(items, productId), productId) == None
    ensures forall p :: p != productId ==>
      LineQuantity(PullProduct(items, productId), p) == LineQuantity(items, p)
  {
    if DistinctProducts(items) {
      PullKeepsDistinct(items, productId);
    }
    forall p | p != productId
      ensures LineQuantity(PullProduct(items, productId), p) == LineQuantity(items, p)
    {
      PullKeepsOthers(items, productId, p);
    }
  }

  /** A product's quantity, read off the first line and the rest. */
  lemma LineQuantityCons(items: seq<CartLine>, productId: string)
    requires |items| > 0
    ensures LineQuantity(items, productId) ==
      if items[0].productId == productId then Some(items[0].quantity)
      else LineQuantity(items[1..], productId)
  {
    var a, b := LineIndex(items, productId), LineIndex(items[1..], productId);
    if items[0].productId != productId {
      if a.Some? {
        assert items[1..][a.value - 1] == items[a.value];
      }
      if b.Some? {
        assert items[b.value + 1] == items[1..][b.value];
      }
    }
  }

  /** `getCart`: the user's cart, created empty when there is none. */
  function GetCart(carts: seq<Cart>, userId: string, newId: string): (r: (seq<Cart>, Result<Cart>))
    ensures r.1.Err? <==> !ObjectIds.IsValid(userId)
    ensures r.1.Err? ==> r.0 == carts
    ensures r.1.Ok? ==> r.1.value.userId == ObjectIds.Canonical(userId) && r.1.value in r.0
    ensures r.1.Ok? ==> match UserCartIndex(carts, ObjectIds.Canonical(userId))
      case Some(i) => r == (carts, Ok(carts[i]))
      case None => r.1.value == Cart(newId, ObjectIds.Canonical(userId), true, []) && r.0 == carts + [r.1.value]
  {
    match FindByUserId(carts, userId)
    case Err(e) => (carts, Err(e))
    case Ok(Some(cart)) => (carts, Ok(cart))
    case Ok(None) =>
      var created := Create(carts, userId, newId).value;
      (created.0, Ok(created.1))
  }

  /** A second `getCart` finds the cart the first one returned, and writes
      nothing. */
  lemma GetCartTwice(carts: seq<Cart>, userId: string, newId: string, laterId: string)
    requires ObjectIds.IsValid(userId)
    ensures GetCart(GetCart(carts, userId, newId).0, userId, laterId) == GetCart(carts, userId, newId)
  {
    var uid := ObjectIds.Canonical(userId);
    var first := GetCart(carts, userId, newId);
    if UserCartIndex(carts, uid).None? {
      assert first.0[|carts|].userId == uid;
      assert UserCartIndex(first.0, uid) == Some(|carts|);
    }
  }

  /** `addItemToCart` as written: the cart's lines are searched with the
      client's product id string, while the stored lines carry the printed
      (lower-case) form. */
  function AddItemToCartAsWritten(carts: seq<Cart>, userId: string, productId: string, quantity: int, newId: string)
    : (r: Result<(seq<Cart>, Cart)>)
    ensures r.Ok? ==> ObjectIds.IsValid(userId) && ObjectIds.IsValid(productId)
    ensures r.Ok? ==> r.value.1.userId == ObjectIds.Canonical(userId) && r.value.1 in r.value.0
  {
    var found :- FindByUserId(carts, userId);
    match found
    case Some(cart) =>
      (match LineIndex(cart.items, productId)
       case Some(j) => UpdateProductQuantity(carts, userId, productId, cart.items[j].quantity + quantity)
       case None => AddProduct(carts, userId, productId, quantity, newId))
    case None => AddProduct(carts, userId, productId, quantity, newId)
  }

  /** With a product id written in upper-case hexadecimal, adding a product
      the cart already holds appends a second line for it instead of
      raising the existing line's quantity. */
  lemma AddItemToCartAsWrittenDuplicates(carts: seq<Cart>, userId: string, productId: string, quantity: int, newId: string)
    requires ObjectIds.IsValid(userId) && ObjectIds.IsValid(productId)
    requires productId != ObjectIds.Canonical(productId)
    requires UserCartIndex(carts, ObjectIds.Canonical(userId)).Some?
    requires
      var cart := carts[UserCartIndex(carts, ObjectIds.Canonical(userId)).value];
      HasProduct(cart.items, ObjectIds.Canonical(productId)) && !HasProduct(cart.items, productId)
    ensures AddItemToCartAsWritten(carts, userId, productId, quantity, newId).Ok?
    ensures !DistinctProducts(AddItemToCartAsWritten(carts, userId, productId, quantity, newId).value.1.items)
  {
    var pid := ObjectIds.Canonical(productId);
    var cart := carts[UserCartIndex(carts, ObjectIds.Canonical(userId)).value];
    var after := AddItemToCartAsWritten(carts, userId, productId, quantity, newId).value.1.items;
    var j := LineIndex(cart.items, pid).value;
    assert after == cart.items + [CartLine(pid, quantity)];
    assert after[j].productId == after[|cart.items|].productId;
  }

  /** The discrepancy needs a product id that is not in printed form: with a
      printed one, the code as written and the corrected lookup agree. */
  lemma AddItemToCartAsWrittenAgrees(carts: seq<Cart>, userId: string, productId: string, quantity: int, newId: string)
    requires ObjectIds.IsCanonical(productId)
    ensures AddItemToCartAsWritten(carts, userId, productId, quantity, newId)
      == AddItemToCart(carts, userId, productId, quantity, newId)
  {
    ObjectIds.ParsePrinted(productId);
  }

  /** `addItemToCart` with the lookup on the printed product id: merge into
      the product's line when the user's cart holds one, append otherwise
      (creating the cart if need be). */
  function AddItemToCart(carts: seq<Cart>, userId: string, productId: string, quantity: int, newId: string)
    : (r: Result<(seq<Cart>, Cart)>)
    ensures r.Err? <==> !ObjectIds.IsValid(userId) || !ObjectIds.IsValid(productId)
    ensures r.Ok? ==> r.value.1.userId == ObjectIds.Canonical(userId) && r.value.1 in r.value.0
    ensures r.Ok? ==>
      r.value.0 == (match UserCartIndex(carts, ObjectIds.Canonical(userId))
                    case Some(i) => carts[i := r.value.1]
                    case None => carts + [r.value.1])
  {
    var found :- FindByUserId(carts, userId);
    var pid :- ObjectIds.Parse(productId);
    match found
    case Some(cart) =>
      (match LineIndex(cart.items, pid)
       case Some(j) =>
         assert UserCartWithProductIndex(carts, ObjectIds.Canonical(userId), pid)
           == UserCartIndex(carts, ObjectIds.Canonical(userId));
         UpdateProductQuantity(carts, userId, productId, cart.items[j].quantity + quantity)
       case None => AddProduct(carts, userId, productId, quantity, newId))
    case None => AddProduct(carts, userId, productId, quantity, newId)
  }

  /** The lines of the user's cart; none when the user has no cart. */
  function HeldLines(carts: seq<Cart>, userId: string): seq<CartLine> {
    match UserCartIndex(carts, userId)
    case None => []
    case Some(i) => carts[i].items
  }

  /** The quantity a product has after adding `quantity` of it to a cart
      that held `held`. */
  function Merged(held: Option<int>, quantity: int): int {
    match held
    case None => quantity
    case Some(q) => q + quantity
  }

  /** The lines a cart holding `held` has after `quantity` of the product
      is added: the product's line raised, or a new line at the end. */
  function AddedLines(held: seq<CartLine>, productId: string, quantity: int): seq<CartLine> {
    match LineIndex(held, productId)
    case Some(j) => SetFirstQuantity(held, productId, held[j].quantity + quantity)
    case None => held + [CartLine(productId, quantity)]
  }

  /** The cart `addItemToCart` returns holds the user's former lines with
      the product added. */
  lemma AddItemToCartLines(carts: seq<Cart>, userId: string, productId: string, quantity: int, newId: string)
    requires ObjectIds.IsValid(userId) && ObjectIds.IsValid(productId)
    ensures AddItemToCart(carts, userId, productId, quantity, newId).Ok?
    ensures AddItemToCart(carts, userId, productId, quantity, newId).value.1.items ==
      AddedLines(HeldLines(carts, ObjectIds.Canonical(userId)), ObjectIds.Canonical(productId), quantity)
  {
    var uid, pid := ObjectIds.Canonical(userId), ObjectIds.Canonical(productId);
    match UserCartIndex(carts, uid)
    case None =>
      AddToMissingCart(carts, userId, productId, quantity, newId);
    case Some(i) =>
      AddToHeldCart(carts, userId, productId, quantity, newId, i);
  }

  lemma AddToMissingCart(carts: seq<Cart>, userId: string, productId: string, quantity: int, newId: string)
    requires ObjectIds.IsValid(userId) && ObjectIds.IsValid(productId)
    requires UserCartIndex(carts, ObjectIds.Canonical(userId)).None?
    ensures AddItemToCart(carts, userId, productId, quantity, newId).Ok?
    ensures AddItemToCart(carts, userId, productId, quantity, newId).value.1.items ==
      [CartLine(ObjectIds.Canonical(productId), quantity)]
  {
  }

  lemma AddToHeldCart(carts: seq<Cart>, userId: string, productId: string, quantity: int, newId: string, i: nat)
    requires ObjectIds.IsValid(userId) && ObjectIds.IsValid(productId)
    requires UserCartIndex(carts, ObjectIds.Canonical(userId)) == Some(i)
    ensures AddItemToCart(carts, userId, productId, quantity, newId).Ok?
    ensures AddItemToCart(carts, userId, productId, quantity, newId).value.1.items ==
      AddedLines(carts[i].items, ObjectIds.Canonical(productId), quantity)
  {
    if HasProduct(carts[i].items, ObjectIds.Canonical(productId)) {
      AddToHeldLine(carts, userId, productId, quantity, newId, i);
    } else {
      AddNewLine(carts, userId, productId, quantity, newId, i);
    }
  }

  lemma AddToHeldLine(carts: seq<Cart>, userId: string, productId: string, quantity: int, newId: string, i: nat)
    requires ObjectIds.IsValid(userId) && ObjectIds.IsValid(productId)
    requires UserCartIndex(carts, ObjectIds.Canonical(userId)) == Some(i)
    requires HasProduct(carts[i].items, ObjectIds.Canonical(productId))
    ensures AddItemToCart(carts, userId, productId, quantity, newId).Ok?
    ensures AddItemToCart(carts, userId, productId, quantity, newId).value.1.items ==
      SetFirstQuantity(carts[i].items, ObjectIds.Canonical(productId),
        carts[i].items[LineIndex(carts[i].items, ObjectIds.Canonical(productId)).value].quantity + quantity)
  {
    var uid, pid := ObjectIds.Canonical(userId), ObjectIds.Canonical(productId);
    assert FindByUserId(carts, userId) == Ok(Some(carts[i]));
    assert ObjectIds.Parse(productId) == Ok(pid);
    assert UserCartWithProductIndex(carts, uid, pid) == Some(i);
  }

  lemma AddNewLine(carts: seq<Cart>, userId: string, productId: string, quantity: int, newId: string, i: nat)
    requires ObjectIds.IsValid(userId) && ObjectIds.IsValid(productId)
    requires UserCartIndex(carts, ObjectIds.Canonical(userId)) == Some(i)
    requires !HasProduct(carts[i].items, ObjectIds.Canonical(productId))
    ensures AddItemToCart(carts, userId, productId, quantity, newId).Ok?
    ensures AddItemToCart(carts, userId, productId, quantity, newId).value.1.items ==
      carts[i].items + [CartLine(ObjectIds.Canonical(productId), quantity)]
  {
    assert FindByUserId(carts, userId) == Ok(Some(carts[i]));
    assert ObjectIds.Parse(productId) == Ok(ObjectIds.Canonical(productId));
  }

  /** Adding merges: in a cart with one line per product, the product's
      quantity grows by the amount added (or starts at it), every other
      product keeps its quantity, and lines stay one per product. */
  lemma AddItemToCartMerges(carts: seq<Cart>, userId: string, productId: string, quantity: int, newId: string)
    requires ObjectIds.IsValid(userId) && ObjectIds.IsValid(productId)
    requires DistinctProducts(HeldLines(carts, ObjectIds.Canonical(userId)))
    ensures AddItemToCart(carts, userId, productId, quantity, newId).Ok?
    ensures
      var pid := ObjectIds.Canonical(productId);
      var before := HeldLines(carts, ObjectIds.Canonical(userId));
      var after := AddItemToCart(carts, userId, productId, quantity, newId).value.1.items;
      && DistinctProducts(after)
      && LineQuantity(after, pid) == Some(Merged(LineQuantity(before, pid), quantity))
      && forall p :: p != pid ==> LineQuantity(after, p) == LineQuantity(before, p)
  {
    AddItemToCartLines(carts, userId, productId, quantity, newId);
    var pid := ObjectIds.Canonical(productId);
    var before := HeldLines(carts, ObjectIds.Canonical(userId));
    match LineIndex(before, pid)
    case Some(j) =>
      SetFirstQuantityEffect(before, pid, before[j].quantity + quantity);
    case None =>
      AppendLineEffect(before, pid, quantity);
  }

  /** `removeItemFromCart`: the product's lines pulled from the user's
      cart; null, and nothing written, when the user has no cart. */
  function RemoveItemFromCart(carts: seq<Cart>, userId: string, productId: string)
    : (r: Result<(seq<Cart>, Option<Cart>)>)
    ensures r.Err? <==> !ObjectIds.IsValid(userId) || !ObjectIds.IsValid(productId)
    ensures r.Err? ==> r.error == Unhandled
    ensures r.Ok? ==> (r.value.1.None? <==> UserCartIndex(carts, ObjectIds.Canonical(userId)).None?)
    ensures r.Ok? && r.value.1.None? ==> r.value.0 == carts
    ensures r.Ok? && r.value.1.Some? ==>
      && !HasProduct(r.value.1.value.items, ObjectIds.Canonical(productId))
      && |r.value.0| == |carts| && r.value.1.value in r.value.0
  {
    var r := RemoveProduct(carts, userId, productId);
    assert r.Ok? && r.value.1.Some? ==> r.value.0[UserCartIndex(carts, ObjectIds.Canonical(userId)).value] == r.value.1.value;
    r
  }

  /** `updateCartItem`: a quantity of zero or less removes the product's
      lines; a positive one sets the quantity of its line (NotFound when the
      user's cart has none). */
  function UpdateCartItem(carts: seq<Cart>, userId: string, productId: string, quantity: int)
    : (r: Result<(seq<Cart>, Option<Cart>)>)
    ensures !ObjectIds.IsValid(userId) || !ObjectIds.IsValid(productId) ==> r == Err(Unhandled)
    ensures quantity <= 0 ==> r == RemoveItemFromCart(carts, userId, productId)
    ensures quantity > 0 && r.Ok? ==> r.value.1.Some?
    ensures quantity > 0 ==>
      (r.Ok? <==>
       && ObjectIds.IsValid(userId) && ObjectIds.IsValid(productId)
       && UserCartWithProductIndex(carts, ObjectIds.Canonical(userId), ObjectIds.Canonical(productId)).Some?)
    ensures quantity > 0 && ObjectIds.IsValid(userId) && ObjectIds.IsValid(productId) ==>
      (r == Err(NotFound) <==>
       UserCartWithProductIndex(carts, ObjectIds.Canonical(userId), ObjectIds.Canonical(productId)).None?)
  {
    if quantity <= 0 then RemoveItemFromCart(carts, userId, productId)
    else
      var updated :- UpdateProductQuantity(carts, userId, productId, quantity);
      Ok((updated.0, Some(updated.1)))
  }

  /** Updating sets: after a positive update the product's quantity is the
      one given, in the first cart of the user holding the product; after a
      non-positive one the product is gone from the user's cart.  Only that
      cart is rewritten, and other products keep their quantities. */
  lemma UpdateCartItemSets(carts: seq<Cart>, userId: string, productId: string, quantity: int)
    ensures
      var r := UpdateCartItem(carts, userId, productId, quantity);
      r.Ok? && r.value.1.Some? ==>
        var uid := ObjectIds.Canonical(userId);
        var pid := ObjectIds.Canonical(productId);
        var at := if quantity > 0 then UserCartWithProductIndex(carts, uid, pid) else UserCartIndex(carts, uid);
        var after := r.value.1.value;
        && at.Some? && carts[at.value].userId == uid
        && after.id == carts[at.value].id && after.userId == uid
        && r.value.0 == carts[at.value := after]
        && LineQuantity(after.items, pid) == (if quantity > 0 then Some(quantity) else None)
        && (forall p :: p != pid ==> LineQuantity(after.items, p) == LineQuantity(carts[at.value].items, p))
        && (DistinctProducts(carts[at.value].items) ==> DistinctProducts(after.items))
  {
    var r := UpdateCartItem(carts, userId, productId, quantity);
    if r.Ok? && r.value.1.Some? {
      var uid, pid := ObjectIds.Canonical(userId), ObjectIds.Canonical(productId);
      if quantity > 0 {
        var i := UserCartWithProductIndex(carts, uid, pid).value;
        SetFirstQuantityEffect(carts[i].items, pid, quantity);
      } else {
        var i := UserCartIndex(carts, uid).value;
        PullProductEffect(carts[i].items, pid);
      }
    }
  }

  /** `clearCart`: empty the user's cart, then return it (creating an empty
      one when the user had none). */
  function ClearCart(carts: seq<Cart>, userId: string, newId: string): (r: (seq<Cart>, Result<Cart>))
    ensures r.1.Err? <==> !ObjectIds.IsValid(userId)
    ensures r.1.Err? ==> r.0 == carts
    ensures r.1.Ok? ==> r.1.value.items == [] && r.1.value.userId == ObjectIds.Canonical(userId)
    ensures r.1.Ok? ==> r.1.value in r.0 && |r.0| <= |carts| + 1
    ensures r.1.Ok? ==>
      var uid := ObjectIds.Canonical(userId);
      && UserCartIndex(r.0, uid).Some? && r.0[UserCartIndex(r.0, uid).value] == r.1.value
      && match UserCartIndex(carts, uid)
         case Some(i) => r.0 == carts[i := carts[i].(items := [])]
         case None => r.0 == carts + [Cart(newId, uid, true, [])]
  {
    match Clear(carts, userId)
    case Err(e) => (carts, Err(e))
    case Ok(cleared) => GetCart(cleared, userId, newId)
  }
}

=== FILE: carts.dfy ===
/** The cart document repository.  A cart belongs to a user and holds an
    embedded list of lines (product id, quantity).  The update operators it
    issues have list semantics the cart service relies on: `$push` appends,
    the positional `$set` on `items.$.quantity` changes only the first line
    that matched the query, `$pull` removes every matching line, and clearing
    sets the list to empty but keeps the cart. */
module CartsRepo {
  import opened Common
  import opened Sorting
  import opened Pagination
  import ObjectIds

  datatype CartLine = CartLine(productId: string, quantity: int)

  datatype Cart = Cart(id: string, userId: string, isActive: bool, items: seq<CartLine>)

  /** Some line of the list is for the product. */
  predicate HasProduct(items: seq<CartLine>, productId: string) {
    exists j :: 0 <= j < |items| && items[j].productId == productId
  }

  /** Position of the first line for the product, if any. */
  function LineIndex(items: seq<CartLine>, productId: string): (r: Option<nat>)
    ensures r.Some? <==> HasProduct(items, productId)
    ensures r.Some? ==> r.value < |items| && items[r.value].productId == productId
    ensures r.Some? ==> forall j :: 0 <= j < r.value ==> items[j].productId != productId
  {
    FindIndex(items, (l: CartLine) => l.productId == productId)
  }

  /** Position of the user's cart: the first one `findOne({ userId })` meets. */
  function UserCartIndex(carts: seq<Cart>, userId: string): (r: Option<nat>)
    ensures r.Some? ==> r.value < |carts| && carts[r.value].userId == userId
    ensures r.Some? ==> forall j :: 0 <= j < r.value ==> carts[j].userId != userId
    ensures r.None? <==> forall j :: 0 <= j < |carts| ==> carts[j].userId != userId
  {
    FindIndex(carts, (c: Cart) => c.userId == userId)
  }

  /** `findByUserId`: the user's cart, or null. */
  function FindByUserId(carts: seq<Cart>, userId: string): (r: Result<Option<Cart>>)
    ensures r.Err? <==> !ObjectIds.IsValid(userId)
    ensures r.Ok? && r.value.Some? ==>
      r.value.value in carts && r.value.value.userId == ObjectIds.Canonical(userId)
    ensures r.Ok? && r.value.None? ==>
      forall j :: 0 <= j < |carts| ==> carts[j].userId != ObjectIds.Canonical(userId)
    ensures r.Ok? && r.value.Some? ==>
      UserCartIndex(carts, ObjectIds.Canonical(userId)).Some? &&
      r.value.value == carts[UserCartIndex(carts, ObjectIds.Canonical(userId)).value]
  {
    var uid :- ObjectIds.Parse(userId);
    match UserCartIndex(carts, uid)
    case None => Ok(None)
    case Some(i) => Ok(Some(carts[i]))
  }

  /** `findById`: the cart with that id, or null. */
  function FindById(carts: seq<Cart>, id: string): (r: Result<Option<Cart>>)
    ensures r.Err? <==> !ObjectIds.IsValid(id)
    ensures r.Ok? && r.value.Some? ==> r.value.value in carts && r.value.value.id == ObjectIds.Canonical(id)
    ensures r.Ok? && r.value.None? ==>
      forall j :: 0 <= j < |carts| ==> carts[j].id != ObjectIds.Canonical(id)
  {
    var key :- ObjectIds.Parse(id);
    match FindIndex(carts, (c: Cart) => c.id == key)
    case None => Ok(None)
    case Some(i) => Ok(Some(carts[i]))
  }

  /** `create`: a new active cart for the user with no lines; `newId` is the
      id the database assigns. */
  function Create(carts: seq<Cart>, userId: string, newId: string): (r: Result<(seq<Cart>, Cart)>)
    ensures r.Err? <==> !ObjectIds.IsValid(userId)
    ensures r.Ok? ==> r.value.1 == Cart(newId, ObjectIds.Canonical(userId), true, [])
    ensures r.Ok? ==> r.value.0 == carts + [r.value.1]
  {
    var uid :- ObjectIds.Parse(userId);
    var cart := Cart(newId, uid, true, []);
    Ok((carts + [cart], cart))
  }

  /** `addProduct`: `$push` one line onto the user's cart, creating the cart
      (upsert) when the user has none. */
  function AddProduct(carts: seq<Cart>, userId: string, productId: string, quantity: int, newId: string)
    : (r: Result<(seq<Cart>, Cart)>)
    ensures r.Err? <==> !ObjectIds.IsValid(userId) || !ObjectIds.IsValid(productId)
    ensures r.Ok? ==> r.value.1.userId == ObjectIds.Canonical(userId) && r.value.1 in r.value.0
    ensures r.Ok? ==> (|r.value.1.items| >= 1 &&
      r.value.1.items[|r.value.1.items| - 1] == CartLine(ObjectIds.Canonical(productId), quantity))
    ensures r.Ok? ==> match UserCartIndex(carts, ObjectIds.Canonical(userId))
      case Some(i) =>
        && r.value.1 == carts[i].(items := carts[i].items + [CartLine(ObjectIds.Canonical(productId), quantity)])
        && r.value.0 == carts[i := r.value.1]
      case None =>
        && r.value.1 == Cart(newId, ObjectIds.Canonical(userId), true, [CartLine(ObjectIds.Canonical(productId), quantity)])
        && r.value.0 == carts + [r.value.1]
  {
    var uid :- ObjectIds.Parse(userId);
    var pid :- ObjectIds.Parse(productId);
    var line := CartLine(pid, quantity);
    match UserCartIndex(carts, uid)
    case Some(i) =>
      var cart := carts[i].(items := carts[i].items + [line]);
      var updated := carts[i := cart];
      assert updated[i] == cart;
      Ok((updated, cart))
    case None =>
      var cart := Cart(newId, uid, true, [line]);
      Ok((carts + [cart], cart))
  }

  /** Position of the cart `findOneAndUpdate({ userId, 'items.productId' })`
      meets: the first cart of the user that has a line for the product. */
  function UserCartWithProductIndex(carts: seq<Cart>, userId: string, productId: string): (r: Option<nat>)
    ensures r.Some? ==> r.value < |carts| && carts[r.value].userId == userId &&
                        HasProduct(carts[r.value].items, productId)
    ensures r.Some? ==> forall j :: 0 <= j < r.value ==>
      !(carts[j].userId == userId && HasProduct(carts[j].items, productId))
    ensures r.None? <==> forall j :: 0 <= j < |carts| ==>
      !(carts[j].userId == userId && HasProduct(carts[j].items, productId))
  {
    FindIndex(carts, (c: Cart) => c.userId == userId && HasProduct(c.items, productId))
  }

  /** The positional `$set`: the first line for the product takes the new
      quantity; every other line is kept as it was. */
  function SetFirstQuantity(items: seq<CartLine>, productId: string, quantity: int): (r: seq<CartLine>)
    requires HasProduct(items, productId)
    ensures |r| == |items|
    ensures r[LineIndex(items, productId).value] == CartLine(productId, quantity)
    ensures forall j :: 0 <= j < |items| && j != LineIndex(items, productId).value ==> r[j] == items[j]
  {
    var j := LineIndex(items, productId).value;
    items[j := CartLine(productId, quantity)]
  }

  /** `updateProductQuantity`: set the quantity of the first matching line;
      NotFound when no cart of the user has a line for the product. */
  function UpdateProductQuantity(carts: seq<Cart>, userId: string, productId: string, quantity: int)
    : (r: Result<(seq<Cart>, Cart)>)
    ensures !ObjectIds.IsValid(userId) || !ObjectIds.IsValid(productId) ==> r == Err(Unhandled)
    ensures ObjectIds.IsValid(userId) && ObjectIds.IsValid(productId) ==>
      (r == Err(NotFound) <==>
       UserCartWithProductIndex(carts, ObjectIds.Canonical(userId), ObjectIds.Canonical(productId)).None?)
    ensures r.Ok? ==> r.value.1 in r.value.0 && r.value.1.userId == ObjectIds.Canonical(userId)
    ensures r.Ok? ==>
      var i := UserCartWithProductIndex(carts, ObjectIds.Canonical(userId), ObjectIds.Canonical(productId)).value;
      && r.value.1 == carts[i].(items := SetFirstQuantity(carts[i].items, ObjectIds.Canonical(productId), quantity))
      && r.value.0 == carts[i := r.value.1]
  {
    var uid :- ObjectIds.Parse(userId);
    var pid :- ObjectIds.Parse(productId);
    match UserCartWithProductIndex(carts, uid, pid)
    case None => Err(NotFound)
    case Some(i) =>
      var cart := carts[i].(items := SetFirstQuantity(carts[i].items, pid, quantity));
      var updated := carts[i := cart];
      assert updated[i] == cart;
      Ok((updated, cart))
  }

  /** The `$pull`: every line for the product removed, the rest in order. */
  function PullProduct(items: seq<CartLine>, productId: string): (r: seq<CartLine>)
    ensures |r| <= |items|
    ensures !HasProduct(r, productId)
    ensures forall j :: 0 <= j < |items| && items[j].productId != productId ==> items[j] in r
    ensures forall j :: 0 <= j < |r| ==> r[j] in items
    ensures r == Filter(items, (l: CartLine) => l.productId != productId)
  {
    if |items| == 0 then []
    else (if items[0].productId == productId then [] else [items[0]]) + PullProduct(items[1..], productId)
  }

  /** `removeProduct`: pull the product's lines from the user's cart; null
      when the user has no cart. */
  function RemoveProduct(carts: seq<Cart>, userId: string, productId: string)
    : (r: Result<(seq<Cart>, Option<Cart>)>)
    ensures r.Err? <==> !ObjectIds.IsValid(userId) || !ObjectIds.IsValid(productId)
    ensures r.Ok? ==> match UserCartIndex(carts, ObjectIds.Canonical(userId))
      case None => r.value == (carts, None)
      case Some(i) =>
        && r.value.1 == Some(carts[i].(items := PullProduct(carts[i].items, ObjectIds.Canonical(productId))))
        && r.value.0 == carts[i := r.value.1.value]
  {
    var uid :- ObjectIds.Parse(userId);
    var pid :- ObjectIds.Parse(productId);
    match UserCartIndex(carts, uid)
    case None => Ok((carts, None))
    case Some(i) =>
      var cart := carts[i].(items := PullProduct(carts[i].items, pid));
      Ok((carts[i := cart], Some(cart)))
  }

  /** `clear`: `updateOne({ userId }, { $set: { items: [] } })`. */
  function Clear(carts: seq<Cart>, userId: string): (r: Result<seq<Cart>>)
    ensures r.Err? <==> !ObjectIds.IsValid(userId)
    ensures r.Ok? ==> |r.value| == |carts|
    ensures r.Ok? ==> match UserCartIndex(carts, ObjectIds.Canonical(userId))
      case None => r.value == carts
      case Some(i) => r.value == carts[i := carts[i].(items := [])]
    ensures r.Ok? ==>
      UserCartIndex(r.value, ObjectIds.Canonical(userId)) == UserCartIndex(carts, ObjectIds.Canonical(userId))
  {
    var uid :- ObjectIds.Parse(userId);
    match UserCartIndex(carts, uid)
    case None => Ok(carts)
    case Some(i) =>
      var cleared := carts[i := carts[i].(items := [])];
      assert forall j :: 0 <= j < |cleared| ==> cleared[j].userId == carts[j].userId;
      assert cleared[i].userId == uid;
      Ok(cleared)
  }

  /** Clearing twice is clearing once. */
  lemma ClearIdempotent(carts: seq<Cart>, userId: string)
    requires ObjectIds.IsValid(userId)
    ensures Clear(Clear(carts, userId).value, userId) == Clear(carts, userId)
  {
    var once := Clear(carts, userId).value;
    match UserCartIndex(carts, ObjectIds.Canonical(userId))
    case None =>
    case Some(i) =>
      assert once[i := once[i].(items := [])] == once;
  }

  /** The cart listing's filter; every entry optional. */
  datatype CartFilter = CartFilter(
    userId: Option<string>,
    productId: Option<string>,
    minItemsCount: Option<int>,
    maxItemsCount: Option<int>)

  /** The pipeline's `$match` stages applied to one cart, with the ids
      already converted.  The user and product entries constrain only when
      truthy; the count bounds whenever they are present (0 included), and
      both bounds are inclusive. */
  predicate Matches(c: Cart, user: Option<string>, product: Option<string>, f: CartFilter) {
    && (user.Some? ==> c.userId == user.value)
    && (product.Some? ==> HasProduct(c.items, product.value))
    && (f.minItemsCount.Some? ==> |c.items| >= f.minItemsCount.value)
    && (f.maxItemsCount.Some? ==> |c.items| <= f.maxItemsCount.value)
  }

  /** The carts the aggregation pipeline's `$match` stage keeps, in
      collection order. */
  function Listed(carts: seq<Cart>, user: Option<string>, product: Option<string>, f: CartFilter): (r: seq<Cart>)
    ensures forall k :: 0 <= k < |r| ==> r[k] in carts && Matches(r[k], user, product, f)
    ensures forall k :: 0 <= k < |carts| && Matches(carts[k], user, product, f) ==> carts[k] in r
  {
    Filter(carts, (c: Cart) => Matches(c, user, product, f))
  }

  /** `findManyWithPagination`: the aggregation pipeline's matches, its sort
      stage, and the requested page of them. */
  function FindManyWithPagination(carts: seq<Cart>, f: CartFilter, options: seq<SortOption>, page: int, limit: int)
    : (r: Result<Page<Cart>>)
    requires page >= 1 && limit >= 1
    ensures r.Err? <==> (IsGivenText(f.userId) && !ObjectIds.IsValid(f.userId.value)) ||
                        (IsGivenText(f.productId) && !ObjectIds.IsValid(f.productId.value))
    ensures r.Ok? ==> r.value.sort == OrderSortStage(options) && |r.value.items| <= limit
    ensures r.Ok? ==> forall k :: 0 <= k < |r.value.items| ==>
      var c := r.value.items[k];
      && c in carts
      && (IsGivenText(f.userId) ==> c.userId == ObjectIds.Canonical(f.userId.value))
      && (IsGivenText(f.productId) ==> HasProduct(c.items, ObjectIds.Canonical(f.productId.value)))
      && (f.minItemsCount.Some? ==> f.minItemsCount.value <= |c.items|)
      && (f.maxItemsCount.Some? ==> |c.items| <= f.maxItemsCount.value)
    ensures r.Ok? ==>
      var user := ObjectIds.ParseGiven(f.userId).value;
      var product := ObjectIds.ParseGiven(f.productId).value;
      r.value.items == Paginate(Listed(carts, user, product, f), page, limit)
  {
    var user :- ObjectIds.ParseGiven(f.userId);
    var product :- ObjectIds.ParseGiven(f.productId);
    Ok(Page(OrderSortStage(options), Paginate(Listed(carts, user, product, f), page, limit)))
  }

  /** A cart passes the listing's filter exactly when it satisfies every
      given condition (both directions). */
  lemma ListingSelectsExactly(carts: seq<Cart>, f: CartFilter, c: Cart)
    requires !IsGivenText(f.userId) || ObjectIds.IsValid(f.userId.value)
    requires !IsGivenText(f.productId) || ObjectIds.IsValid(f.productId.value)
    requires c in carts
    ensures
      var user := ObjectIds.ParseGiven(f.userId).value;
      var product := ObjectIds.ParseGiven(f.productId).value;
      c in Listed(carts, user, product, f) <==>
        && (IsGivenText(f.userId) ==> c.userId == ObjectIds.Canonical(f.userId.value))
        && (IsGivenText(f.productId) ==> HasProduct(c.items, ObjectIds.Canonical(f.productId.value)))
        && (f.minItemsCount.Some? ==> f.minItemsCount.value <= |c.items|)
        && (f.maxItemsCount.Some? ==> |c.items| <= f.maxItemsCount.value)
  {
  }
}

=== FILE: common.dfy ===
/** Shared vocabulary of the model: optional values, the error kinds the
    services raise, failure-compatible results, and the first-match and
    filtering operations the document stores are queried with.  Every
    collection of the database is held as a sequence in collection (natural)
    order, so "the first document that matches" is well defined, as it is for
    `findOne`. */
module Common {

  datatype Option<+T> = None | Some(value: T)

  /** The exception kinds that reach a client.  `NotFound` and `BadRequest`
      are the framework's HTTP exceptions; `Unhandled` stands for a plain
      `Error`, a `TypeError` or a database-driver error (a malformed ObjectId,
      for one), all of which surface as HTTP 500. */
  datatype Error = NotFound | BadRequest | Unhandled

  datatype Result<+T> = Ok(value: T) | Err(error: Error) {
    predicate IsFailure() {
      Err?
    }

    function PropagateFailure<U>(): Result<U>
      requires Err?
    {
      Err(error)
    }

    function Extract(): T
      requires Ok?
    {
      value
    }
  }

  /** Position of the first element that satisfies `p`, if any. */
  function FindIndex<T>(xs: seq<T>, p: T -> bool): (r: Option<nat>)
    ensures r.Some? ==> r.value < |xs| && p(xs[r.value])
    ensures r.Some? ==> forall j :: 0 <= j < r.value ==> !p(xs[j])
    ensures r.None? <==> forall j :: 0 <= j < |xs| ==> !p(xs[j])
  {
    if |xs| == 0 then None
    else if p(xs[0]) then Some(0)
    else match FindIndex(xs[1..], p)
      case None => None
      case Some(k) => Some(k + 1)
  }

  /** The elements that satisfy `p`, in their original order. */
  function Filter<T>(xs: seq<T>, p: T -> bool): (r: seq<T>)
    ensures |r| <= |xs|
    ensures forall i :: 0 <= i < |r| ==> r[i] in xs && p(r[i])
    ensures forall i :: 0 <= i < |xs| && p(xs[i]) ==> xs[i] in r
  {
    if |xs| == 0 then []
    else (if p(xs[0]) then [xs[0]] else []) + Filter(xs[1..], p)
  }

  /** Filtering distributes over concatenation: it keeps the relative order
      of the elements it retains. */
  lemma {:induction false} FilterAppend<T>(a: seq<T>, b: seq<T>, p: T -> bool)
    ensures Filter(a + b, p) == Filter(a, p) + Filter(b, p)
  {
    if |a| == 0 {
      assert a + b == b;
    } else {
      assert (a + b)[1..] == a[1..] + b;
      FilterAppend(a[1..], b, p);
    }
  }

  /** A filter that keeps everything is the identity. */
  lemma {:induction false} FilterAll<T>(xs: seq<T>, p: T -> bool)
    requires forall j :: 0 <= j < |xs| ==> p(xs[j])
    ensures Filter(xs, p) == xs
  {
    if |xs| > 0 {
      FilterAll(xs[1..], p);
    }
  }

  /** A loop that converts each element in turn and stops at the first
      failure: every element converted, in order, or the first error. */
  function MapAll<A, B>(xs: seq<A>, f: A -> Result<B>): (r: Result<seq<B>>)
    ensures r.Ok? <==> forall k :: 0 <= k < |xs| ==> f(xs[k]).Ok?
    ensures r.Ok? ==> |r.value| == |xs| && forall k :: 0 <= k < |xs| ==> f(xs[k]) == Ok(r.value[k])
    ensures r.Err? ==>
      exists k :: 0 <= k < |xs| && f(xs[k]) == Err(r.error) && forall j :: 0 <= j < k ==> f(xs[j]).Ok?
  {
    if |xs| == 0 then Ok([])
    else
      match f(xs[0])
      case Err(e) => Err(e)
      case Ok(head) =>
        assert forall k :: 1 <= k < |xs| ==> xs[k] == xs[1..][k - 1];
        match MapAll(xs[1..], f)
        case Err(e) =>
          var k :| 0 <= k < |xs| - 1 && f(xs[1..][k]) == Err(e) && forall j :: 0 <= j < k ==> f(xs[1..][j]).Ok?;
          assert f(xs[k + 1]) == Err(e);
          Err(e)
        case Ok(tail) => Ok([head] + tail)
  }

  /** JavaScript truthiness of an optional string: present and non-empty. */
  predicate IsGivenText(s: Option<string>) {
    s.Some? && s.value != ""
  }

  /** JavaScript truthiness of an optional number: present and non-zero. */
  predicate IsGivenNumber(n: Option<int>) {
    n.Some? && n.value != 0
  }

  /** A patch entry over a required field: the new value when given. */
  function Pick<T>(update: Option<T>, current: T): T {
    match update
    case Some(v) => v
    case None => current
  }

  /** A patch entry over an optional field: the new value when given. */
  function PickOptional<T>(update: Option<T>, current: Option<T>): Option<T> {
    match update
    case Some(v) => Some(v)
    case None => current
  }

  /** `s || fallback` for an optional string. */
  function TextOr(s: Option<string>, fallback: string): (r: string)
    ensures IsGivenText(s) ==> r == s.value
    ensures !IsGivenText(s) ==> r == fallback
  {
    if IsGivenText(s) then s.value else fallback
  }

  /** A case-insensitive regular-expression test `(pattern, text)`, as the
      database evaluates `{ $regex: pattern, $options: 'i' }`.  Its semantics
      are the database's; the model takes it as a parameter. */
  type RegexTest = (string, string) -> bool

  /** A text filter: no constraint unless the pattern is given; otherwise the
      field must be present and match. */
  predicate RegexCondition(pattern: Option<string>, field: Option<string>, test: RegexTest) {
    IsGivenText(pattern) ==> field.Some? && test(pattern.value, field.value)
  }
}

=== FILE: database.dfy ===
/** The collections the services read and write, side by side. */
module Database {
  import CartsRepo
  import ProductsRepo
  import OrdersMapper
  import PaymentsDomain

  datatype Db = Db(
    carts: seq<CartsRepo.Cart>,
    products: seq<ProductsRepo.Product>,
    orders: seq<OrdersMapper.OrderDocument>,
    payments: seq<PaymentsDomain.Payment>)
}

=== FILE: objectids.dfy ===
/** Document identifiers.  Every string id that reaches the database is
    turned into an ObjectId, explicitly (`new Types.ObjectId(s)`) or by the
    schema's cast; a malformed string makes the driver throw, and a
    well-formed one is stored and printed back (`toString()`) as lower-case
    hexadecimal.  `Types.ObjectId.isValid` is the guard some callers use. */
module ObjectIds {
  import opened Common
  import Text

  predicate IsHexDigit(c: char) {
    Text.IsDigit(c) || 'a' <= c <= 'f' || 'A' <= c <= 'F'
  }

  /** `Types.ObjectId.isValid(s)` on a string: 24 hexadecimal characters. */
  predicate IsValid(s: string) {
    |s| == 24 && forall i :: 0 <= i < |s| ==> IsHexDigit(s[i])
  }

  /** The form `toString()` prints: 24 lower-case hexadecimal characters. */
  predicate IsCanonical(s: string) {
    IsValid(s) && forall i :: 0 <= i < |s| ==> !Text.IsUpperLetter(s[i])
  }

  /** `new Types.ObjectId(s).toString()` for a valid `s`. */
  function Canonical(s: string): (r: string)
    requires IsValid(s)
    ensures IsCanonical(r)
    ensures |r| == |s|
    ensures forall i :: 0 <= i < |s| ==> r[i] == Text.LowerChar(s[i])
  {
    Text.ToLower(s)
  }

  /** A canonical id is its own canonical form. */
  lemma CanonicalOfCanonical(s: string)
    requires IsCanonical(s)
    ensures Canonical(s) == s
  {
  }

  /** Two valid ids denote the same ObjectId exactly when they agree up to
      the case of their hexadecimal letters. */
  lemma CanonicalEqualIff(a: string, b: string)
    requires IsValid(a) && IsValid(b)
    ensures Canonical(a) == Canonical(b) <==>
      forall i :: 0 <= i < 24 ==> Text.LowerChar(a[i]) == Text.LowerChar(b[i])
  {
    if forall i :: 0 <= i < 24 ==> Text.LowerChar(a[i]) == Text.LowerChar(b[i]) {
      assert Canonical(a) == Canonical(b);
    }
  }

  /** `new Types.ObjectId(s)`: the canonical id, or the driver's error. */
  function Parse(s: string): (r: Result<string>)
    ensures r.Ok? <==> IsValid(s)
    ensures r.Err? ==> r.error == Unhandled
    ensures r.Ok? ==> IsCanonical(r.value) && r.value == Canonical(s)
  {
    if IsValid(s) then Ok(Canonical(s)) else Err(Unhandled)
  }

  /** Parsing the printed form of an id gives the same id back. */
  lemma ParsePrinted(s: string)
    requires IsCanonical(s)
    ensures Parse(s) == Ok(s)
  {
    CanonicalOfCanonical(s);
  }

  /** An optional filter entry that is an id: converted when it is truthy,
      no constraint otherwise. */
  function ParseGiven(id: Option<string>): (r: Result<Option<string>>)
    ensures r.Err? <==> IsGivenText(id) && !IsValid(id.value)
    ensures r.Err? ==> r.error == Unhandled
    ensures r.Ok? ==> (r.value.Some? <==> IsGivenText(id))
    ensures r.Ok? && r.value.Some? ==> r.value.value == Canonical(id.value)
  {
    if IsGivenText(id) then
      var key :- Parse(id.value);
      Ok(Some(key))
    else Ok(None)
  }
}

=== FILE: orders_domain.dfy ===
/** The order entity: lines with a name, a quantity and a unit price (and a
    product id unless the line is a custom product), a total, and a status. */
module OrdersDomain {
  import opened Common

  /** The statuses the service refers to by name.  `Other` stands for the
      enumeration's remaining members: order-status.enum.ts is not part of
      this model, and nothing in the core distinguishes between them. */
  datatype OrderStatus = Pending | Confirmed | Cancelled | Other(name: string)

  datatype OrderItem = OrderItem(
    productId: Option<string>,
    productName: string,
    quantity: int,
    price: int,
    notes: Option<string>)

  datatype Order = Order(
    id: string,
    cartId: string,
    userId: string,
    items: seq<OrderItem>,
    total: int,
    status: OrderStatus,
    notes: Option<string>,
    createdAt: int,
    updatedAt: int,
    deletedAt: Option<int>)

  /** What one line contributes to the total. */
  function Amount(item: OrderItem): int {
    item.price * item.quantity
  }

  /** The running sum `total += price * quantity`, line by line. */
  function Total(items: seq<OrderItem>): int {
    if |items| == 0 then 0 else Total(items[..|items| - 1]) + Amount(items[|items| - 1])
  }

  /** Totals add up over consecutive runs of lines. */
  lemma {:induction false} TotalAppend(a: seq<OrderItem>, b: seq<OrderItem>)
    ensures Total(a + b) == Total(a) + Total(b)
    decreases |b|
  {
    if |b| > 0 {
      var init := b[..|b| - 1];
      assert (a + b)[..|a + b| - 1] == a + init;
      TotalAppend(a, init);
    } else {
      assert a + b == a;
    }
  }

  /** The total depends on the lines' amounts only. */
  lemma {:induction false} TotalOfSameAmounts(a: seq<OrderItem>, b: seq<OrderItem>)
    requires |a| == |b|
    requires forall k :: 0 <= k < |a| ==> Amount(a[k]) == Amount(b[k])
    ensures Total(a) == Total(b)
    decreases |a|
  {
    if |a| > 0 {
      TotalOfSameAmounts(a[..|a| - 1], b[..|b| - 1]);
    }
  }
}

=== FILE: orders_mapper.dfy ===
/** The order mapper between the domain order and the stored document.
    Going to the database, ids become ObjectIds (a line's product id only
    when it is truthy, the cart id always: a missing one becomes a freshly
    generated ObjectId); coming back, ids are printed, and a document
    without a cart id is given a freshly generated one. */
module OrdersMapper {
  import opened Common
  import opened OrdersDomain
  import ObjectIds

  /** A stored order document.  `cartId` is optional because documents
      written without one are read back too. */
  datatype OrderDocument = OrderDocument(
    id: string,
    items: seq<OrderItem>,
    cartId: Option<string>,
    userId: string,
    total: int,
    status: OrderStatus,
    notes: Option<string>,
    createdAt: int,
    updatedAt: int,
    deletedAt: Option<int>)

  /** What `toPersistence` is handed: an order-shaped object in which any
      field may be missing except `userId`, which both repository callers
      always set. */
  datatype OrderShape = OrderShape(
    items: Option<seq<OrderItem>>,
    cartId: Option<string>,
    userId: string,
    total: Option<int>,
    status: Option<OrderStatus>,
    notes: Option<string>,
    createdAt: Option<int>,
    updatedAt: Option<int>,
    deletedAt: Option<int>)

  /** What `toPersistence` returns: the document's fields, with the ids
      converted and the scalar fields copied (missing ones stay missing). */
  datatype OrderPayload = OrderPayload(
    items: seq<OrderItem>,
    cartId: string,
    userId: string,
    total: Option<int>,
    status: Option<OrderStatus>,
    notes: Option<string>,
    createdAt: Option<int>,
    updatedAt: Option<int>,
    deletedAt: Option<int>)

  /** One line on its way to the database: a truthy product id becomes an
      ObjectId, a missing or empty one is left out. */
  function ItemToPersistence(item: OrderItem): (r: Result<OrderItem>)
    ensures r.Err? <==> IsGivenText(item.productId) && !ObjectIds.IsValid(item.productId.value)
    ensures r.Err? ==> r.error == Unhandled
    ensures r.Ok? && IsGivenText(item.productId) ==>
      r.value.productId == Some(ObjectIds.Canonical(item.productId.value))
    ensures r.Ok? && !IsGivenText(item.productId) ==> r.value.productId == None
    ensures r.Ok? ==> r.value.(productId := item.productId) == item
  {
    if IsGivenText(item.productId) then
      var key :- ObjectIds.Parse(item.productId.value);
      Ok(item.(productId := Some(key)))
    else Ok(item.(productId := None))
  }

  /** `items.map(...)`: every line converted, in order; the first line with
      a malformed product id throws. */
  function ItemsToPersistence(items: seq<OrderItem>): (r: Result<seq<OrderItem>>)
    ensures r.Err? <==> exists k :: 0 <= k < |items| && ItemToPersistence(items[k]).Err?
    ensures r.Err? ==> r.error == Unhandled
    ensures r.Ok? ==> |r.value| == |items|
    ensures r.Ok? ==> forall k :: 0 <= k < |items| ==> ItemToPersistence(items[k]) == Ok(r.value[k])
  {
    if |items| == 0 then Ok([])
    else
      var head :- ItemToPersistence(items[0]);
      var tail :- ItemsToPersistence(items[1..]);
      assert forall k :: 1 <= k < |items| ==> items[k] == items[1..][k - 1];
      Ok([head] + tail)
  }

  /** `toPersistence`.  `freshId` is the id `new Types.ObjectId()` generates
      when the cart id is missing.  Reading `items` of an object that has
      none throws a TypeError. */
  function ToPersistence(o: OrderShape, freshId: string): (r: Result<OrderPayload>)
    ensures o.items.None? ==> r == Err(Unhandled)
    ensures r.Err? ==> r.error == Unhandled
    ensures r.Ok? <==>
      && o.items.Some?
      && ItemsToPersistence(o.items.value).Ok?
      && (o.cartId.Some? ==> ObjectIds.IsValid(o.cartId.value))
      && ObjectIds.IsValid(o.userId)
    ensures r.Ok? ==>
      && r.value.items == ItemsToPersistence(o.items.value).value
      && r.value.cartId == (if o.cartId.Some? then ObjectIds.Canonical(o.cartId.value) else freshId)
      && r.value.userId == ObjectIds.Canonical(o.userId)
      && r.value.total == o.total && r.value.status == o.status && r.value.notes == o.notes
      && r.value.createdAt == o.createdAt && r.value.updatedAt == o.updatedAt
      && r.value.deletedAt == o.deletedAt
  {
    match o.items
    case None => Err(Unhandled)
    case Some(lines) =>
      var items :- ItemsToPersistence(lines);
      var cartId :- if o.cartId.Some? then ObjectIds.Parse(o.cartId.value) else Ok(freshId);
      var userId :- ObjectIds.Parse(o.userId);
      Ok(OrderPayload(items, cartId, userId, o.total, o.status, o.notes, o.createdAt, o.updatedAt, o.deletedAt))
  }

  /** Every line has a product name: the line schema's `productName` is
      required, and the required check refuses the empty string. */
  predicate NamedItems(items: seq<OrderItem>) {
    forall k :: 0 <= k < |items| ==> items[k].productName != ""
  }

  /** The document the collection holds once a payload is stored under
      `id`: the schema's required `total` and `status`, and every line's
      required `productName`, are enforced (a failed validation throws), and
      missing timestamps are set to `now`. */
  function Store(payload: OrderPayload, id: string, now: int): (r: Result<OrderDocument>)
    ensures r.Ok? <==> payload.total.Some? && payload.status.Some? && NamedItems(payload.items)
    ensures (exists k :: 0 <= k < |payload.items| && payload.items[k].productName == "") ==> r == Err(Unhandled)
    ensures r.Err? ==> r.error == Unhandled
    ensures r.Ok? ==> r.value.id == id && r.value.cartId == Some(payload.cartId) && r.value.items == payload.items
  {
    if payload.total.None? || payload.status.None? then Err(Unhandled)
    else if exists k :: 0 <= k < |payload.items| && payload.items[k].productName == "" then Err(Unhandled)
    else
      Ok(OrderDocument(
        id, payload.items, Some(payload.cartId), payload.userId,
        payload.total.value, payload.status.value, payload.notes,
        Pick(payload.createdAt, now), Pick(payload.updatedAt, now), payload.deletedAt))
  }

  /** `toDomain`.  `freshId` is the id `new Types.ObjectId()` generates
      when the document has no cart id. */
  function ToDomain(doc: OrderDocument, freshId: string): (o: Order)
    ensures doc.cartId.Some? ==> o.cartId == doc.cartId.value
    ensures doc.cartId.None? ==> o.cartId == freshId
  {
    Order(
      doc.id,
      if doc.cartId.Some? then doc.cartId.value else freshId,
      doc.userId, doc.items, doc.total, doc.status, doc.notes,
      doc.createdAt, doc.updatedAt, doc.deletedAt)
  }

  /** The shape of a complete domain order as `toPersistence` sees it. */
  function ShapeOf(o: Order): OrderShape {
    OrderShape(Some(o.items), Some(o.cartId), o.userId, Some(o.total), Some(o.status), o.notes,
               Some(o.createdAt), Some(o.updatedAt), o.deletedAt)
  }

  /** Storing a shape and reading it back keeps every line's name, price,
      quantity and notes, in order; a truthy product id comes back as its
      printed form and a missing or empty one comes back missing; total,
      status and notes are kept; the ids come back printed, a missing cart
      id as the generated one. */
  lemma {:induction false} ShapeRoundTrip(o: OrderShape, freshId: string, id: string, now: int, laterId: string)
    requires ToPersistence(o, freshId).Ok?
    requires o.total.Some? && o.status.Some? && NamedItems(o.items.value)
    ensures Store(ToPersistence(o, freshId).value, id, now).Ok?
    ensures
      var back := ToDomain(Store(ToPersistence(o, freshId).value, id, now).value, laterId);
      var items := o.items.value;
      && |back.items| == |items|
      && (forall k :: 0 <= k < |items| ==>
            && back.items[k].productName == items[k].productName
            && back.items[k].price == items[k].price
            && back.items[k].quantity == items[k].quantity
            && back.items[k].notes == items[k].notes
            && (IsGivenText(items[k].productId) ==>
                  back.items[k].productId == Some(ObjectIds.Canonical(items[k].productId.value)))
            && (!IsGivenText(items[k].productId) ==> back.items[k].productId == None))
      && back.total == o.total.value && back.status == o.status.value && back.notes == o.notes
      && back.userId == ObjectIds.Canonical(o.userId)
      && back.cartId == (if o.cartId.Some? then ObjectIds.Canonical(o.cartId.value) else freshId)
      && back.id == id
  {
    var items := o.items.value;
    var stored := ItemsToPersistence(items).value;
    forall k | 0 <= k < |items|
      ensures ItemToPersistence(items[k]) == Ok(stored[k])
    {
    }
  }

  /** A line as a stored document holds it: a product id, when present, is
      in printed form. */
  predicate IsStoredItem(item: OrderItem) {
    item.productId.Some? ==> ObjectIds.IsCanonical(item.productId.value)
  }

  /** A document as the collection holds it: every id in printed form, a
      cart id present, and every line named. */
  predicate IsStoredDocument(doc: OrderDocument) {
    && ObjectIds.IsCanonical(doc.userId)
    && doc.cartId.Some? && ObjectIds.IsCanonical(doc.cartId.value)
    && (forall k :: 0 <= k < |doc.items| ==> IsStoredItem(doc.items[k]))
    && NamedItems(doc.items)
  }

  /** The other direction: reading a stored document and writing it back
      (under the same id, at any time) gives the same document. */
  lemma DocumentRoundTrip(doc: OrderDocument, freshId: string, laterId: string, now: int)
    requires IsStoredDocument(doc)
    ensures ToPersistence(ShapeOf(ToDomain(doc, laterId)), freshId).Ok?
    ensures Store(ToPersistence(ShapeOf(ToDomain(doc, laterId)), freshId).value, doc.id, now) == Ok(doc)
  {
    var items := doc.items;
    forall k | 0 <= k < |items|
      ensures ItemToPersistence(items[k]) == Ok(items[k])
    {
      if items[k].productId.Some? {
        ObjectIds.CanonicalOfCanonical(items[k].productId.value);
      }
    }
    ObjectIds.CanonicalOfCanonical(doc.userId);
    ObjectIds.CanonicalOfCanonical(doc.cartId.value);
    var stored := ItemsToPersistence(items).value;
    assert stored == items;
  }
}

=== FILE: orders_repo.dfy ===
/** The order document repository.  Both writes store the caller's user id
    over whatever the payload carries.  Two behaviours of the code as written
    are modelled next to the corrected ones: `findById` throws a plain Error
    (an HTTP 500, not a 404) when the order is absent, and `update` hands a
    partial order to the mapper, which reads its missing `items` and throws
    a TypeError. */
module OrdersRepo {
  import opened Common
  import opened Sorting
  import opened Pagination
  import opened OrdersDomain
  import opened OrdersMapper
  import ObjectIds

  /** Position of the document with that (converted) id. */
  function DocIndex(orders: seq<OrderDocument>, key: string): (r: Option<nat>)
    ensures r.Some? ==> r.value < |orders| && orders[r.value].id == key
    ensures r.Some? ==> forall j :: 0 <= j < r.value ==> orders[j].id != key
    ensures r.None? <==> forall j :: 0 <= j < |orders| ==> orders[j].id != key
  {
    FindIndex(orders, (d: OrderDocument) => d.id == key)
  }

  /** The order-shaped object the service hands to `create`. */
  datatype OrderDraft = OrderDraft(
    cartId: string,
    userId: string,
    items: seq<OrderItem>,
    total: int,
    status: OrderStatus,
    notes: Option<string>)

  /** `{ ...order, userId }`: the caller's user id replaces the draft's. */
  function DraftShape(draft: OrderDraft, userId: string): OrderShape {
    OrderShape(Some(draft.items), Some(draft.cartId), userId, Some(draft.total), Some(draft.status),
               draft.notes, None, None, None)
  }

  /** `create`: map the draft (under the caller's user id), store it under
      the id the database assigns, and read the stored document back. */
  function Create(orders: seq<OrderDocument>, userId: string, draft: OrderDraft, newId: string, now: int, freshId: string)
    : (r: Result<(seq<OrderDocument>, Order)>)
    ensures r.Err? ==> r.error == Unhandled
    ensures r.Ok? <==> ToPersistence(DraftShape(draft, userId), freshId).Ok? && NamedItems(draft.items)
    ensures r.Ok? ==> ObjectIds.IsValid(userId) && ObjectIds.IsValid(draft.cartId)
    ensures r.Ok? ==>
      && r.value.1.id == newId
      && r.value.1.userId == ObjectIds.Canonical(userId)
      && r.value.1.cartId == ObjectIds.Canonical(draft.cartId)
      && r.value.1.status == draft.status
      && r.value.1.total == draft.total
      && r.value.1.notes == draft.notes
      && r.value.1.createdAt == now
      && |r.value.1.items| == |draft.items|
    ensures r.Ok? ==>
      && |r.value.0| == |orders| + 1
      && r.value.0[..|orders|] == orders
      && r.value.1 == ToDomain(r.value.0[|orders|], freshId)
  {
    var payload :- ToPersistence(DraftShape(draft, userId), freshId);
    assert NamedItems(payload.items) <==> NamedItems(draft.items) by {
      assert forall k :: 0 <= k < |draft.items| ==> payload.items[k].productName == draft.items[k].productName;
    }
    var doc :- Store(payload, newId, now);
    assert (orders + [doc])[..|orders|] == orders;
    Ok((orders + [doc], ToDomain(doc, freshId)))
  }

  /** The created order's lines are the draft's lines, in order, with each
      truthy product id in printed form and every other field kept. */
  lemma CreatedLines(orders: seq<OrderDocument>, userId: string, draft: OrderDraft, newId: string, now: int, freshId: string)
    requires Create(orders, userId, draft, newId, now, freshId).Ok?
    ensures
      var made := Create(orders, userId, draft, newId, now, freshId).value.1.items;
      && |made| == |draft.items|
      && forall k :: 0 <= k < |made| ==>
           && made[k].(productId := draft.items[k].productId) == draft.items[k]
           && (IsGivenText(draft.items[k].productId) ==>
                 made[k].productId == Some(ObjectIds.Canonical(draft.items[k].productId.value)))
           && (!IsGivenText(draft.items[k].productId) ==> made[k].productId == None)
  {
    ShapeRoundTrip(DraftShape(draft, userId), freshId, newId, now, freshId);
  }

  /** `findById` as written: a malformed id makes the cast throw, and an
      absent order throws a plain Error, which reaches the client as an
      HTTP 500 rather than a 404. */
  function FindByIdAsWritten(orders: seq<OrderDocument>, id: string, freshId: string): (r: Result<Order>)
    ensures r.Err? ==> r.error == Unhandled
    ensures r.Ok? <==> ObjectIds.IsValid(id) && DocIndex(orders, ObjectIds.Canonical(id)).Some?
    ensures r.Ok? ==> r.value == ToDomain(orders[DocIndex(orders, ObjectIds.Canonical(id)).value], freshId)
  {
    var key :- ObjectIds.Parse(id);
    match DocIndex(orders, key)
    case None => Err(Unhandled)
    case Some(i) => Ok(ToDomain(orders[i], freshId))
  }

  /** `findById` returning null for an absent order, which is what the
      service's `if (!order) throw new NotFoundException(...)` expects. */
  function FindById(orders: seq<OrderDocument>, id: string, freshId: string): (r: Result<Option<Order>>)
    ensures r.Err? <==> !ObjectIds.IsValid(id)
    ensures r.Err? ==> r.error == Unhandled
    ensures r.Ok? && r.value.Some? ==>
      exists i :: 0 <= i < |orders| && orders[i].id == ObjectIds.Canonical(id) &&
        r.value.value == ToDomain(orders[i], freshId)
    ensures r.Ok? && r.value.None? ==>
      forall i :: 0 <= i < |orders| ==> orders[i].id != ObjectIds.Canonical(id)
  {
    var key :- ObjectIds.Parse(id);
    match DocIndex(orders, key)
    case None => Ok(None)
    case Some(i) => Ok(Some(ToDomain(orders[i], freshId)))
  }

  /** The two lookups agree on every order that exists; on an absent one
      the code as written fails with Unhandled where null was meant. */
  lemma FindByIdAsWrittenAgrees(orders: seq<OrderDocument>, id: string, freshId: string)
    ensures FindByIdAsWritten(orders, id, freshId) ==
      match FindById(orders, id, freshId)
      case Err(e) => Err(e)
      case Ok(None) => Err(Unhandled)
      case Ok(Some(o)) => Ok(o)
  {
  }

  /** The partial order the service passes to `update`. */
  datatype OrderPatch = OrderPatch(cartId: Option<string>, status: Option<OrderStatus>)

  /** `{ ...data, userId }` as `toPersistence` sees it: no `items`. */
  function PatchShape(patch: OrderPatch, userId: string): OrderShape {
    OrderShape(None, patch.cartId, userId, None, patch.status, None, None, None, None)
  }

  /** `update` as written: the mapper reads `items` of the partial order
      and throws before the database is reached, whatever the patch. */
  function UpdateAsWritten(orders: seq<OrderDocument>, userId: string, id: string, patch: OrderPatch, freshId: string)
    : (r: Result<(seq<OrderDocument>, Order)>)
    ensures r == Err(Unhandled)
  {
    match ToPersistence(PatchShape(patch, userId), freshId)
    case Err(e) => Err(e)
    case Ok(_) => assert false; Err(Unhandled)
  }

  /** The document `findByIdAndUpdate` leaves: the patch's fields set, the
      caller's user id stored, `updatedAt` refreshed by the schema's
      timestamps; `cart` is the converted cart id when the patch has one. */
  function Patched(doc: OrderDocument, patch: OrderPatch, userId: string, cart: Option<string>, now: int): (d: OrderDocument)
    ensures d.(userId := doc.userId, cartId := doc.cartId, status := doc.status, updatedAt := doc.updatedAt) == doc
    ensures d.userId == userId && d.updatedAt == now
    ensures d.status == Pick(patch.status, doc.status)
    ensures d.cartId == PickOptional(cart, doc.cartId)
  {
    doc.(userId := userId, cartId := PickOptional(cart, doc.cartId),
         status := Pick(patch.status, doc.status), updatedAt := now)
  }

  /** `update` as intended: the patch applied with `$set` semantics to the
      order with that id, under the caller's user id.  When no order has
      that id the repository still throws a plain `Error`, as it does once
      the mapper has run. */
  function Update(orders: seq<OrderDocument>, userId: string, id: string, patch: OrderPatch, now: int, freshId: string)
    : (r: Result<(seq<OrderDocument>, Order)>)
    ensures r.Err? ==> r.error == Unhandled
    ensures r.Ok? <==>
      && ObjectIds.IsValid(id) && ObjectIds.IsValid(userId)
      && (patch.cartId.Some? ==> ObjectIds.IsValid(patch.cartId.value))
      && DocIndex(orders, ObjectIds.Canonical(id)).Some?
    ensures r.Ok? ==>
      var i := DocIndex(orders, ObjectIds.Canonical(id)).value;
      var cart := if patch.cartId.Some? then Some(ObjectIds.Canonical(patch.cartId.value)) else None;
      && r.value.0 == orders[i := Patched(orders[i], patch, ObjectIds.Canonical(userId), cart, now)]
      && r.value.1 == ToDomain(r.value.0[i], freshId)
  {
    var key :- ObjectIds.Parse(id);
    var owner :- ObjectIds.Parse(userId);
    var cart :- if patch.cartId.Some? then
                  var c :- ObjectIds.Parse(patch.cartId.value); Ok(Some(c))
                else Ok(None);
    match DocIndex(orders, key)
    case None => Err(Unhandled)
    case Some(i) =>
      var updated := orders[i := Patched(orders[i], patch, owner, cart, now)];
      Ok((updated, ToDomain(updated[i], freshId)))
  }

  /** Setting only the status, by the order's owner, changes the status and
      `updatedAt` and nothing else. */
  lemma UpdateStatusByOwner(orders: seq<OrderDocument>, userId: string, id: string, status: OrderStatus, now: int, freshId: string)
    requires ObjectIds.IsValid(id) && ObjectIds.IsValid(userId)
    requires DocIndex(orders, ObjectIds.Canonical(id)).Some?
    requires orders[DocIndex(orders, ObjectIds.Canonical(id)).value].userId == ObjectIds.Canonical(userId)
    ensures
      var i := DocIndex(orders, ObjectIds.Canonical(id)).value;
      var r := Update(orders, userId, id, OrderPatch(None, Some(status)), now, freshId);
      r == Ok((orders[i := orders[i].(status := status, updatedAt := now)],
               ToDomain(orders[i].(status := status, updatedAt := now), freshId)))
  {
  }

  /** `.map(toDomain)` over documents read in one query; `freshId(k)` is the
      id generated for the k-th document if it has no cart id. */
  function ToDomainAll(docs: seq<OrderDocument>, freshId: nat -> string): (r: seq<Order>)
    ensures |r| == |docs|
    ensures forall k :: 0 <= k < |docs| ==> r[k] == ToDomain(docs[k], freshId(k))
  {
    seq(|docs|, k requires 0 <= k < |docs| => ToDomain(docs[k], freshId(k)))
  }

  /** The documents of one owner, in collection order. */
  function Owned(orders: seq<OrderDocument>, owner: string): (r: seq<OrderDocument>)
    ensures forall k :: 0 <= k < |r| ==> r[k] in orders && r[k].userId == owner
    ensures forall i :: 0 <= i < |orders| && orders[i].userId == owner ==> orders[i] in r
  {
    Filter(orders, (d: OrderDocument) => d.userId == owner)
  }

  /** `findByUserId`: `find({ userId })`, the id cast by the schema; every
      document of that owner, in collection order, mapped to the domain. */
  function FindByUserId(orders: seq<OrderDocument>, userId: string, freshId: nat -> string): (r: Result<seq<Order>>)
    ensures r.Err? <==> !ObjectIds.IsValid(userId)
    ensures r.Err? ==> r.error == Unhandled
    ensures r.Ok? ==> forall k :: 0 <= k < |r.value| ==>
      r.value[k].userId == ObjectIds.Canonical(userId) &&
      exists i :: 0 <= i < |orders| && orders[i].id == r.value[k].id
    ensures r.Ok? ==> forall i :: 0 <= i < |orders| && orders[i].userId == ObjectIds.Canonical(userId) ==>
      exists k :: 0 <= k < |r.value| && r.value[k].id == orders[i].id
    ensures r.Ok? ==> r.value == ToDomainAll(Owned(orders, ObjectIds.Canonical(userId)), freshId)
  {
    var owner :- ObjectIds.Parse(userId);
    var mine := Owned(orders, owner);
    var found := ToDomainAll(mine, freshId);
    assert forall k :: 0 <= k < |found| ==> found[k].id == mine[k].id && found[k].userId == mine[k].userId;
    assert forall i :: 0 <= i < |orders| && orders[i].userId == owner ==>
      exists k :: 0 <= k < |mine| && mine[k] == orders[i];
    Ok(found)
  }

  /** The listing's filter; every entry optional. */
  datatype OrderFilter = OrderFilter(
    userId: Option<string>,
    cartId: Option<string>,
    statuses: Option<seq<OrderStatus>>,
    minTotal: Option<int>,
    maxTotal: Option<int>,
    notesSearch: Option<string>)

  /** The `find(where)` condition on one document, with the ids already
      converted.  Ids and the notes pattern constrain only when truthy, the
      statuses only when non-empty, the total bounds whenever present; both
      bounds are inclusive. */
  predicate Matches(d: OrderDocument, user: Option<string>, cart: Option<string>, f: OrderFilter, test: RegexTest) {
    && (user.Some? ==> d.userId == user.value)
    && (cart.Some? ==> d.cartId == Some(cart.value))
    && (f.statuses.Some? && |f.statuses.value| > 0 ==> d.status in f.statuses.value)
    && (f.minTotal.Some? ==> d.total >= f.minTotal.value)
    && (f.maxTotal.Some? ==> d.total <= f.maxTotal.value)
    && RegexCondition(f.notesSearch, d.notes, test)
  }

  /** The documents the listing's `find(where)` selects, in collection
      order. */
  function Listed(orders: seq<OrderDocument>, user: Option<string>, cart: Option<string>, f: OrderFilter, test: RegexTest)
    : (r: seq<OrderDocument>)
    ensures forall k :: 0 <= k < |r| ==> r[k] in orders && Matches(r[k], user, cart, f, test)
    ensures forall i :: 0 <= i < |orders| && Matches(orders[i], user, cart, f, test) ==> orders[i] in r
  {
    Filter(orders, (d: OrderDocument) => Matches(d, user, cart, f, test))
  }

  /** `findManyWithPagination`: the filter, the sort stage and the page of
      the matching documents, mapped to the domain. */
  function FindManyWithPagination(
    orders: seq<OrderDocument>, f: OrderFilter, options: seq<SortOption>,
    page: int, limit: int, test: RegexTest, freshId: nat -> string)
    : (r: Result<Page<Order>>)
    requires page >= 1 && limit >= 1
    ensures r.Err? <==> (IsGivenText(f.userId) && !ObjectIds.IsValid(f.userId.value)) ||
                        (IsGivenText(f.cartId) && !ObjectIds.IsValid(f.cartId.value))
    ensures r.Ok? ==> r.value.sort == OrderSortStage(options) && |r.value.items| <= limit
    ensures r.Ok? ==> forall k :: 0 <= k < |r.value.items| ==>
      var o := r.value.items[k];
      && (exists i :: 0 <= i < |orders| && orders[i].id == o.id)
      && (IsGivenText(f.userId) ==> o.userId == ObjectIds.Canonical(f.userId.value))
      && (IsGivenText(f.cartId) ==> o.cartId == ObjectIds.Canonical(f.cartId.value))
      && (f.statuses.Some? && |f.statuses.value| > 0 ==> o.status in f.statuses.value)
      && (f.minTotal.Some? ==> f.minTotal.value <= o.total)
      && (f.maxTotal.Some? ==> o.total <= f.maxTotal.value)
    ensures r.Ok? ==>
      var user := ObjectIds.ParseGiven(f.userId).value;
      var cart := ObjectIds.ParseGiven(f.cartId).value;
      r.value.items == ToDomainAll(Paginate(Listed(orders, user, cart, f, test), page, limit), freshId)
  {
    var user :- ObjectIds.ParseGiven(f.userId);
    var cart :- ObjectIds.ParseGiven(f.cartId);
    var matches := Listed(orders, user, cart, f, test);
    var window := Paginate(matches, page, limit);
    var found := ToDomainAll(window, freshId);
    assert forall k :: 0 <= k < |window| ==> window[k] in matches;
    Ok(Page(OrderSortStage(options), found))
  }

  /** A document passes the listing's filter exactly when it satisfies every
      given condition (both directions). */
  lemma ListingSelectsExactly(orders: seq<OrderDocument>, f: OrderFilter, test: RegexTest, d: OrderDocument)
    requires ObjectIds.ParseGiven(f.userId).Ok? && ObjectIds.ParseGiven(f.cartId).Ok?
    requires d in orders
    ensures
      var user := ObjectIds.ParseGiven(f.userId).value;
      var cart := ObjectIds.ParseGiven(f.cartId).value;
      d in Listed(orders, user, cart, f, test) <==>
        && (IsGivenText(f.userId) ==> d.userId == ObjectIds.Canonical(f.userId.value))
        && (IsGivenText(f.cartId) ==> d.cartId == Some(ObjectIds.Canonical(f.cartId.value)))
        && (f.statuses.Some? && |f.statuses.value| > 0 ==> d.status in f.statuses.value)
        && (f.minTotal.Some? ==> f.minTotal.value <= d.total)
        && (f.maxTotal.Some? ==> d.total <= f.maxTotal.value)
        && (IsGivenText(f.notesSearch) ==> d.notes.Some? && test(f.notesSearch.value, d.notes.value))
  {
  }
}

=== FILE: orders_service.dfy ===
/** The order service: placing an order from a cart (all of its lines, a
    chosen subset, or all of them plus custom lines), reading one order,
    changing its cart, and cancelling it.  Every line is priced from the
    catalog when it names a product; the order's total is the running sum of
    price times quantity over its lines.  Orders are placed under the
    caller's user id with status Pending. */
module OrdersService {
  import opened Common
  import opened OrdersDomain
  import opened Database
  import ObjectIds
  import CartsRepo
  import ProductsRepo
  import OrdersMapper
  import OrdersRepo
  import CartService

  /** `item` is `line` priced from the catalog: the product named by the
      line exists, and the item carries its name and price, the line's
      quantity and no notes. */
  predicate IsPricedLine(products: seq<ProductsRepo.Product>, line: CartsRepo.CartLine, item: OrderItem) {
    && ObjectIds.IsValid(line.productId)
    && item.quantity == line.quantity
    && item.notes == None
    && exists i :: 0 <= i < |products| && products[i].id == ObjectIds.Canonical(line.productId) &&
         item.productName == products[i].name && item.price == products[i].price
  }

  /** One cart line turned into an order line: the product is looked up by
      id (a malformed id makes the cast throw; an absent product is a
      NotFound). */
  function PriceLine(products: seq<ProductsRepo.Product>, line: CartsRepo.CartLine): (r: Result<OrderItem>)
    ensures r.Err? <==>
      !ObjectIds.IsValid(line.productId) ||
      forall i :: 0 <= i < |products| ==> products[i].id != ObjectIds.Canonical(line.productId)
    ensures r.Err? ==> r.error == if ObjectIds.IsValid(line.productId) then NotFound else Unhandled
    ensures r.Ok? ==> IsPricedLine(products, line, r.value) && r.value.productId == Some(line.productId)
  {
    var found :- ProductsRepo.FindById(products, line.productId);
    match found
    case None => Err(NotFound)
    case Some(p) => Ok(OrderItem(Some(line.productId), p.name, line.quantity, p.price, None))
  }

  /** The loop over a cart's lines: every line priced, in order, or the
      first line's failure. */
  function PriceLines(products: seq<ProductsRepo.Product>, lines: seq<CartsRepo.CartLine>): (r: Result<seq<OrderItem>>)
    ensures r.Ok? <==> forall k :: 0 <= k < |lines| ==> PriceLine(products, lines[k]).Ok?
    ensures r.Err? ==> r.error == NotFound || r.error == Unhandled
    ensures r.Ok? ==> |r.value| == |lines|
    ensures r.Ok? ==> forall k :: 0 <= k < |lines| ==>
      IsPricedLine(products, lines[k], r.value[k]) && r.value[k].productId == Some(lines[k].productId)
    ensures r.Ok? ==> forall k :: 0 <= k < |lines| ==> PriceLine(products, lines[k]) == Ok(r.value[k])
  {
    MapAll(lines, (line: CartsRepo.CartLine) => PriceLine(products, line))
  }

  /** The cart with that id, failing as `create` does: the cast of a
      malformed id throws, and a missing or empty cart is a BadRequest. */
  function NonEmptyCart(carts: seq<CartsRepo.Cart>, cartId: string): (r: Result<CartsRepo.Cart>)
    ensures r.Err? <==>
      !ObjectIds.IsValid(cartId) || CartsRepo.FindById(carts, cartId).value.None? ||
      |CartsRepo.FindById(carts, cartId).value.value.items| == 0
    ensures r.Err? ==> r.error == if ObjectIds.IsValid(cartId) then BadRequest else Unhandled
    ensures r.Ok? ==> r.value in carts && r.value.id == ObjectIds.Canonical(cartId) && |r.value.items| > 0
  {
    var found :- CartsRepo.FindById(carts, cartId);
    match found
    case None => Err(BadRequest)
    case Some(cart) => if |cart.items| == 0 then Err(BadRequest) else Ok(cart)
  }

  /** `create`: every line of the cart with that id priced from the
      catalog, stored as a Pending order of the caller. */
  function Create(db: Db, userId: string, cartId: string, newId: string, now: int, freshId: string)
    : (r: Result<(Db, Order)>)
    ensures !ObjectIds.IsValid(cartId) ==> r == Err(Unhandled)
    ensures r == Err(BadRequest) <==> ObjectIds.IsValid(cartId) && NonEmptyCart(db.carts, cartId).Err?
    ensures r.Err? ==> r.error == BadRequest || r.error == NotFound || r.error == Unhandled
    ensures r.Ok? <==>
      && NonEmptyCart(db.carts, cartId).Ok?
      && ObjectIds.IsValid(userId)
      && var lines := NonEmptyCart(db.carts, cartId).value.items;
         forall k :: 0 <= k < |lines| ==>
           PriceLine(db.products, lines[k]).Ok? && PriceLine(db.products, lines[k]).value.productName != ""
    ensures r.Ok? ==> ObjectIds.IsValid(userId) && ObjectIds.IsValid(cartId)
    ensures r.Ok? ==>
      var (after, order) := r.value;
      && after == db.(orders := after.orders)
      && |after.orders| == |db.orders| + 1 && after.orders[..|db.orders|] == db.orders
      && order.id == newId && order.status == Pending && order.notes == None
      && order.userId == ObjectIds.Canonical(userId) && order.cartId == ObjectIds.Canonical(cartId)
    ensures r.Ok? ==>
      && NonEmptyCart(db.carts, cartId).Ok?
      && CartDraft(db.products, userId, cartId, NonEmptyCart(db.carts, cartId).value.items, [], None).Ok?
      && OrdersRepo.Create(db.orders, userId,
           CartDraft(db.products, userId, cartId, NonEmptyCart(db.carts, cartId).value.items, [], None).value,
           newId, now, freshId) == Ok((r.value.0.orders, r.value.1))
  {
    var cart :- NonEmptyCart(db.carts, cartId);
    var draft :- CartDraft(db.products, userId, cartId, cart.items, [], None);
    CartDraftPersists(db.products, userId, cartId, cart.items, [], None);
    CartDraftNames(db.products, userId, cartId, cart.items);
    var created :- OrdersRepo.Create(db.orders, userId, draft, newId, now, freshId);
    Ok((db.(orders := created.0), created.1))
  }

  /** A draft of cart lines alone is named exactly when every line's
      product has a non-empty name. */
  lemma CartDraftNames(products: seq<ProductsRepo.Product>, userId: string, cartId: string, lines: seq<CartsRepo.CartLine>)
    requires CartDraft(products, userId, cartId, lines, [], None).Ok?
    ensures OrdersMapper.NamedItems(CartDraft(products, userId, cartId, lines, [], None).value.items) <==>
      forall k :: 0 <= k < |lines| ==> PriceLine(products, lines[k]).value.productName != ""
  {
    var items := CartDraft(products, userId, cartId, lines, [], None).value.items;
    assert forall k :: 0 <= k < |lines| ==> PriceLine(products, lines[k]) == Ok(items[k]);
  }

  /** Storing lines changes only their product ids, so the lines stay
      priced from the catalog and keep their totals. */
  lemma {:induction false} StoredLinesKeepPricing(
    products: seq<ProductsRepo.Product>, lines: seq<CartsRepo.CartLine>, draft: seq<OrderItem>, stored: seq<OrderItem>)
    requires |draft| == |stored| && |lines| <= |draft|
    requires forall k :: 0 <= k < |draft| ==> stored[k].(productId := draft[k].productId) == draft[k]
    requires forall k :: 0 <= k < |lines| ==> IsPricedLine(products, lines[k], draft[k])
    ensures forall k :: 0 <= k < |lines| ==> IsPricedLine(products, lines[k], stored[k])
    ensures Total(stored) == Total(draft)
    ensures Total(stored[..|lines|]) == Total(draft[..|lines|])
    ensures Total(stored[|lines|..]) == Total(draft[|lines|..])
  {
    var n := |lines|;
    assert forall k :: 0 <= k < |draft| ==> Amount(stored[k]) == Amount(draft[k]);
    TotalOfSameAmounts(draft, stored);
    TotalOfSameAmounts(draft[..n], stored[..n]);
    TotalOfSameAmounts(draft[n..], stored[n..]);
  }

  /** The order `create` places has one line per cart line, in order, each
      priced from the catalog and carrying the printed product id, and its
      total is the sum of price times quantity over those lines. */
  lemma CreatePricesCart(db: Db, userId: string, cartId: string, newId: string, now: int, freshId: string)
    ensures Create(db, userId, cartId, newId, now, freshId).Ok? ==>
      var order := Create(db, userId, cartId, newId, now, freshId).value.1;
      var cart := NonEmptyCart(db.carts, cartId).value;
      && cart in db.carts && cart.id == ObjectIds.Canonical(cartId)
      && |order.items| == |cart.items|
      && (forall k :: 0 <= k < |cart.items| ==>
            IsPricedLine(db.products, cart.items[k], order.items[k]) &&
            order.items[k].productId == Some(ObjectIds.Canonical(cart.items[k].productId)))
      && order.total == Total(order.items)
  {
    if Create(db, userId, cartId, newId, now, freshId).Ok? {
      var cart := NonEmptyCart(db.carts, cartId).value;
      var draft := CartDraft(db.products, userId, cartId, cart.items, [], None).value;
      StoredDraft(db.orders, db.products, cart.items, userId, draft, newId, now, freshId);
    }
  }

  /** What storing a priced draft gives back: the same lines, priced from
      the catalog, with printed product ids, and the draft's total. */
  lemma StoredDraft(
    orders: seq<OrdersMapper.OrderDocument>, products: seq<ProductsRepo.Product>, lines: seq<CartsRepo.CartLine>,
    userId: string, draft: OrdersRepo.OrderDraft, newId: string, now: int, freshId: string)
    requires OrdersRepo.Create(orders, userId, draft, newId, now, freshId).Ok?
    requires |draft.items| == |lines| && draft.total == Total(draft.items)
    requires forall k :: 0 <= k < |lines| ==>
      IsPricedLine(products, lines[k], draft.items[k]) && draft.items[k].productId == Some(lines[k].productId)
    ensures
      var order := OrdersRepo.Create(orders, userId, draft, newId, now, freshId).value.1;
      && |order.items| == |lines|
      && (forall k :: 0 <= k < |lines| ==>
            IsPricedLine(products, lines[k], order.items[k]) &&
            order.items[k].productId == Some(ObjectIds.Canonical(lines[k].productId)))
      && order.total == Total(order.items)
  {
    OrdersRepo.CreatedLines(orders, userId, draft, newId, now, freshId);
    var order := OrdersRepo.Create(orders, userId, draft, newId, now, freshId).value.1;
    StoredLinesKeepPricing(products, lines, draft.items, order.items);
    forall k | 0 <= k < |lines|
      ensures order.items[k].productId == Some(ObjectIds.Canonical(lines[k].productId))
    {
      assert IsGivenText(draft.items[k].productId);
    }
  }

  /** One requested product id of `createCustomOrder`: it must name a line
      of the cart (compared as strings) and a product of the catalog; the
      order line takes the cart line's quantity and the catalog's name and
      price. */
  function ChosenLine(products: seq<ProductsRepo.Product>, lines: seq<CartsRepo.CartLine>, productId: string)
    : (r: Result<OrderItem>)
    ensures !CartsRepo.HasProduct(lines, productId) ==> r == Err(BadRequest)
    ensures CartsRepo.HasProduct(lines, productId) ==>
      r == PriceLine(products, lines[CartsRepo.LineIndex(lines, productId).value])
  {
    match CartsRepo.LineIndex(lines, productId)
    case None => Err(BadRequest)
    case Some(j) =>
      var found :- ProductsRepo.FindById(products, productId);
      match found
      case None => Err(NotFound)
      case Some(p) => Ok(OrderItem(Some(productId), p.name, lines[j].quantity, p.price, None))
  }

  /** The loop over the requested product ids: every one turned into an
      order line, in order, or the first one's failure. */
  function ChosenLines(products: seq<ProductsRepo.Product>, lines: seq<CartsRepo.CartLine>, productIds: seq<string>)
    : (r: Result<seq<OrderItem>>)
    ensures (exists k :: 0 <= k < |productIds| && !CartsRepo.HasProduct(lines, productIds[k])) ==> r.Err?
    ensures r.Ok? ==> |r.value| == |productIds|
    ensures r.Ok? ==> forall k :: 0 <= k < |productIds| ==>
      var j := CartsRepo.LineIndex(lines, productIds[k]);
      && j.Some?
      && IsPricedLine(products, lines[j.value], r.value[k])
      && r.value[k].productId == Some(productIds[k])
  {
    MapAll(productIds, (pid: string) => ChosenLine(products, lines, pid))
  }

  /** `createCustomOrder`: an order of the chosen products of the cart with
      that id, each with the quantity the cart holds. */
  function CreateCustomOrder(
    db: Db, userId: string, cartId: string, productIds: Option<seq<string>>, notes: Option<string>,
    newId: string, now: int, freshId: string)
    : (r: Result<(Db, Order)>)
    ensures !ObjectIds.IsValid(cartId) ==> r == Err(Unhandled)
    ensures ObjectIds.IsValid(cartId) && NonEmptyCart(db.carts, cartId).Err? ==> r == Err(BadRequest)
    ensures (productIds.None? || |productIds.value| == 0) && ObjectIds.IsValid(cartId) ==> r == Err(BadRequest)
    ensures r.Ok? <==>
      && NonEmptyCart(db.carts, cartId).Ok?
      && productIds.Some? && |productIds.value| > 0
      && ChosenLines(db.products, NonEmptyCart(db.carts, cartId).value.items, productIds.value).Ok?
      && OrdersMapper.NamedItems(ChosenLines(db.products, NonEmptyCart(db.carts, cartId).value.items, productIds.value).value)
      && ObjectIds.IsValid(userId)
    ensures r.Ok? ==> ObjectIds.IsValid(userId) && ObjectIds.IsValid(cartId)
    ensures r.Ok? ==> NonEmptyCart(db.carts, cartId).Ok? && productIds.Some?
    ensures r.Ok? ==> forall k :: 0 <= k < |productIds.value| ==>
      CartsRepo.HasProduct(NonEmptyCart(db.carts, cartId).value.items, productIds.value[k])
    ensures r.Ok? ==>
      var (after, order) := r.value;
      && productIds.Some? && |order.items| == |productIds.value| > 0
      && after == db.(orders := after.orders)
      && |after.orders| == |db.orders| + 1 && after.orders[..|db.orders|] == db.orders
      && order.id == newId && order.status == Pending && order.notes == notes
      && order.userId == ObjectIds.Canonical(userId) && order.cartId == ObjectIds.Canonical(cartId)
  {
    var cart :- NonEmptyCart(db.carts, cartId);
    if productIds.None? || |productIds.value| == 0 then Err(BadRequest)
    else
      var items :- ChosenLines(db.products, cart.items, productIds.value);
      ChosenPersist(db.products, cart.items, productIds.value, items);
      var draft := OrdersRepo.OrderDraft(cartId, userId, items, Total(items), Pending, notes);
      var created :- OrdersRepo.Create(db.orders, userId, draft, newId, now, freshId);
      Ok((db.(orders := created.0), created.1))
  }

  /** The order `createCustomOrder` places has one line per requested
      product id, in request order: each priced from the catalog with the
      quantity of the first cart line holding that product and carrying the
      printed product id; its total is the sum of price times quantity over
      those lines. */
  lemma CustomOrderPricesChosen(
    db: Db, userId: string, cartId: string, productIds: Option<seq<string>>, notes: Option<string>,
    newId: string, now: int, freshId: string)
    ensures CreateCustomOrder(db, userId, cartId, productIds, notes, newId, now, freshId).Ok? ==>
      var order := CreateCustomOrder(db, userId, cartId, productIds, notes, newId, now, freshId).value.1;
      var cart := NonEmptyCart(db.carts, cartId).value;
      && |order.items| == |productIds.value|
      && (forall k :: 0 <= k < |productIds.value| ==>
            var j := CartsRepo.LineIndex(cart.items, productIds.value[k]);
            && j.Some?
            && IsPricedLine(db.products, cart.items[j.value], order.items[k])
            && order.items[k].productId == Some(ObjectIds.Canonical(productIds.value[k])))
      && order.total == Total(order.items)
  {
    if CreateCustomOrder(db, userId, cartId, productIds, notes, newId, now, freshId).Ok? {
      var cart := NonEmptyCart(db.carts, cartId).value;
      var items := ChosenLines(db.products, cart.items, productIds.value).value;
      var draft := OrdersRepo.OrderDraft(cartId, userId, items, Total(items), Pending, notes);
      assert CreateCustomOrder(db, userId, cartId, productIds, notes, newId, now, freshId).value.1
        == OrdersRepo.Create(db.orders, userId, draft, newId, now, freshId).value.1;
      ChosenStored(db.orders, db.products, cart.items, productIds.value, items, userId, draft, newId, now, freshId);
    }
  }

  /** Storing the lines `ChosenLines` priced keeps them priced from the
      chosen cart lines, with printed product ids, and the total is their
      sum. */
  lemma ChosenStored(
    orders: seq<OrdersMapper.OrderDocument>, products: seq<ProductsRepo.Product>, lines: seq<CartsRepo.CartLine>,
    productIds: seq<string>, items: seq<OrderItem>,
    userId: string, draft: OrdersRepo.OrderDraft, newId: string, now: int, freshId: string)
    requires ChosenLines(products, lines, productIds) == Ok(items)
    requires draft.items == items && draft.total == Total(items)
    requires OrdersRepo.Create(orders, userId, draft, newId, now, freshId).Ok?
    ensures
      var order := OrdersRepo.Create(orders, userId, draft, newId, now, freshId).value.1;
      && |order.items| == |productIds|
      && (forall k :: 0 <= k < |productIds| ==>
            var j := CartsRepo.LineIndex(lines, productIds[k]);
            && j.Some?
            && IsPricedLine(products, lines[j.value], order.items[k])
            && order.items[k].productId == Some(ObjectIds.Canonical(productIds[k])))
      && order.total == Total(order.items)
  {
    var chosen := ChosenCartLines(products, lines, productIds, items);
    StoredDraft(orders, products, chosen, userId, draft, newId, now, freshId);
  }

  /** The lines `ChosenLines` prices can all be stored: each carries the
      valid product id of the cart line it was priced from. */
  lemma ChosenPersist(
    products: seq<ProductsRepo.Product>, lines: seq<CartsRepo.CartLine>, productIds: seq<string>, items: seq<OrderItem>)
    requires ChosenLines(products, lines, productIds) == Ok(items)
    ensures OrdersMapper.ItemsToPersistence(items).Ok?
  {
    var chosen := ChosenCartLines(products, lines, productIds, items);
    ItemsPersist(products, chosen, [], items);
  }

  /** The cart lines the requested product ids pick, one per id: the lines
      `ChosenLines` priced `items` from. */
  lemma ChosenCartLines(
    products: seq<ProductsRepo.Product>, lines: seq<CartsRepo.CartLine>, productIds: seq<string>, items: seq<OrderItem>)
    returns (chosen: seq<CartsRepo.CartLine>)
    requires ChosenLines(products, lines, productIds) == Ok(items)
    ensures |chosen| == |items| == |productIds|
    ensures forall k :: 0 <= k < |productIds| ==>
      chosen[k] == lines[CartsRepo.LineIndex(lines, productIds[k]).value]
    ensures forall k :: 0 <= k < |chosen| ==>
      IsPricedLine(products, chosen[k], items[k]) && items[k].productId == Some(chosen[k].productId)
  {
    chosen := seq(|productIds|, k requires 0 <= k < |productIds| =>
      lines[CartsRepo.LineIndex(lines, productIds[k]).value]);
  }

  /** A custom line of `createCustomOrderFromCart`. */
  datatype CustomItem = CustomItem(
    productId: Option<string>,
    productName: string,
    quantity: int,
    price: int,
    notes: Option<string>)

  /** One custom line: with a truthy product id the product must exist, and
      its catalog price and name fill in a zero price and an empty name;
      without one the line is taken as given. */
  function CustomLine(products: seq<ProductsRepo.Product>, item: CustomItem): (r: Result<OrderItem>)
    ensures !IsGivenText(item.productId) ==>
      r == Ok(OrderItem(None, item.productName, item.quantity, item.price, item.notes))
    ensures IsGivenText(item.productId) ==>
      (r.Err? <==>
        !ObjectIds.IsValid(item.productId.value) ||
        forall i :: 0 <= i < |products| ==> products[i].id != ObjectIds.Canonical(item.productId.value))
    ensures r.Err? ==> r.error == NotFound || r.error == Unhandled
    ensures IsGivenText(item.productId) && !ObjectIds.IsValid(item.productId.value) ==> r == Err(Unhandled)
    ensures IsGivenText(item.productId) && ObjectIds.IsValid(item.productId.value) ==>
      (ProductsRepo.IndexOf(products, ObjectIds.Canonical(item.productId.value)).None? ==> r == Err(NotFound))
    ensures r.Ok? ==> r.value.quantity == item.quantity && r.value.notes == item.notes
    ensures r.Ok? && IsGivenText(item.productId) ==>
      && r.value.productId == item.productId
      && exists i :: 0 <= i < |products| && products[i].id == ObjectIds.Canonical(item.productId.value) &&
           r.value.price == (if item.price != 0 then item.price else products[i].price) &&
           r.value.productName == (if item.productName != "" then item.productName else products[i].name)
  {
    if IsGivenText(item.productId) then
      var found :- ProductsRepo.FindById(products, item.productId.value);
      match found
      case None => Err(NotFound)
      case Some(p) =>
        Ok(OrderItem(
          item.productId,
          if item.productName != "" then item.productName else p.name,
          item.quantity,
          if item.price != 0 then item.price else p.price,
          item.notes))
    else Ok(OrderItem(None, item.productName, item.quantity, item.price, item.notes))
  }

  /** The order that cart lines and custom lines make, before it is
      stored: the cart lines priced from the catalog followed by the custom
      lines, Pending, with the running total. */
  function CartDraft(
    products: seq<ProductsRepo.Product>, userId: string, cartId: string, lines: seq<CartsRepo.CartLine>,
    custom: seq<CustomItem>, notes: Option<string>)
    : (r: Result<OrdersRepo.OrderDraft>)
    ensures r.Err? ==> r.error == NotFound || r.error == Unhandled
    ensures r.Ok? <==>
      && (forall k :: 0 <= k < |lines| ==> PriceLine(products, lines[k]).Ok?)
      && (forall k :: 0 <= k < |custom| ==> CustomLine(products, custom[k]).Ok?)
    ensures r.Ok? ==>
      var draft := r.value;
      && draft.cartId == cartId && draft.userId == userId && draft.status == Pending && draft.notes == notes
      && |draft.items| == |lines| + |custom|
      && draft.total == Total(draft.items[..|lines|]) + Total(draft.items[|lines|..])
      && (forall k :: 0 <= k < |lines| ==>
            IsPricedLine(products, lines[k], draft.items[k]) &&
            draft.items[k].productId == Some(lines[k].productId))
      && (forall k :: 0 <= k < |lines| ==> PriceLine(products, lines[k]) == Ok(draft.items[k]))
      && (forall k :: 0 <= k < |custom| ==> CustomLine(products, custom[k]) == Ok(draft.items[|lines| + k]))
  {
    var priced :- PriceLines(products, lines);
    var extra :- MapAll(custom, (item: CustomItem) => CustomLine(products, item));
    var items := priced + extra;
    assert items[..|priced|] == priced && items[|priced|..] == extra;
    TotalAppend(priced, extra);
    Ok(OrdersRepo.OrderDraft(cartId, userId, items, Total(items), Pending, notes))
  }

  /** Every line of a draft can be stored: the cart lines carry the valid
      product ids they were priced by, and a custom line's truthy product id
      named a product that exists. */
  lemma CartDraftPersists(
    products: seq<ProductsRepo.Product>, userId: string, cartId: string, lines: seq<CartsRepo.CartLine>,
    custom: seq<CustomItem>, notes: Option<string>)
    requires CartDraft(products, userId, cartId, lines, custom, notes).Ok?
    ensures OrdersMapper.ItemsToPersistence(CartDraft(products, userId, cartId, lines, custom, notes).value.items).Ok?
  {
    var draft := CartDraft(products, userId, cartId, lines, custom, notes).value;
    ItemsPersist(products, lines, custom, draft.items);
  }

  /** Priced cart lines followed by resolved custom lines can all be
      stored. */
  lemma ItemsPersist(
    products: seq<ProductsRepo.Product>, lines: seq<CartsRepo.CartLine>, custom: seq<CustomItem>, items: seq<OrderItem>)
    requires |items| == |lines| + |custom|
    requires forall k :: 0 <= k < |lines| ==>
      IsPricedLine(products, lines[k], items[k]) && items[k].productId == Some(lines[k].productId)
    requires forall k :: 0 <= k < |custom| ==> CustomLine(products, custom[k]) == Ok(items[|lines| + k])
    ensures OrdersMapper.ItemsToPersistence(items).Ok?
  {
    forall k | 0 <= k < |items|
      ensures OrdersMapper.ItemToPersistence(items[k]).Ok?
    {
      if k < |lines| {
        assert IsPricedLine(products, lines[k], items[k]);
      } else {
        assert CustomLine(products, custom[k - |lines|]) == Ok(items[|lines| + (k - |lines|)]);
      }
    }
  }

  /** The part of `createCustomOrderFromCart` after the cart has been read:
      the draft stored as the caller's order. */
  function PlaceFromCart(
    db: Db, userId: string, cart: CartsRepo.Cart, custom: seq<CustomItem>, notes: Option<string>,
    newId: string, now: int, freshId: string)
    : (r: Result<(seq<OrdersMapper.OrderDocument>, Order)>)
    ensures r.Err? ==> r.error == NotFound || r.error == Unhandled
    ensures r.Ok? <==>
      && CartDraft(db.products, userId, cart.id, cart.items, custom, notes).Ok?
      && OrdersMapper.NamedItems(CartDraft(db.products, userId, cart.id, cart.items, custom, notes).value.items)
      && ObjectIds.IsValid(userId) && ObjectIds.IsValid(cart.id)
    ensures r.Ok? ==>
      var (orders, order) := r.value;
      && |orders| == |db.orders| + 1 && orders[..|db.orders|] == db.orders
      && order.id == newId && order.status == Pending && order.notes == notes
      && order.userId == ObjectIds.Canonical(userId) && order.cartId == ObjectIds.Canonical(cart.id)
  {
    var draft :- CartDraft(db.products, userId, cart.id, cart.items, custom, notes);
    CartDraftPersists(db.products, userId, cart.id, cart.items, custom, notes);
    OrdersRepo.Create(db.orders, userId, draft, newId, now, freshId)
  }

  /** The placed order has one line per cart line and one per custom line,
      in that order; the cart lines are priced from the catalog; and the
      total is the sum over the cart lines plus the sum over the custom
      lines. */
  lemma PlaceFromCartTotal(
    db: Db, userId: string, cart: CartsRepo.Cart, custom: seq<CustomItem>, notes: Option<string>,
    newId: string, now: int, freshId: string)
    ensures PlaceFromCart(db, userId, cart, custom, notes, newId, now, freshId).Ok? ==>
      var order := PlaceFromCart(db, userId, cart, custom, notes, newId, now, freshId).value.1;
      && |order.items| == |cart.items| + |custom|
      && order.total == Total(order.items[..|cart.items|]) + Total(order.items[|cart.items|..])
      && forall k :: 0 <= k < |cart.items| ==> IsPricedLine(db.products, cart.items[k], order.items[k])
  {
    if PlaceFromCart(db, userId, cart, custom, notes, newId, now, freshId).Ok? {
      var draft := CartDraft(db.products, userId, cart.id, cart.items, custom, notes).value;
      OrdersRepo.CreatedLines(db.orders, userId, draft, newId, now, freshId);
      var order := OrdersRepo.Create(db.orders, userId, draft, newId, now, freshId).value.1;
      StoredLinesKeepPricing(db.products, cart.items, draft.items, order.items);
    }
  }

  /** Placing the order from a cart that was read, then emptying the
      caller's cart; nothing is written when placing fails. */
  function Checkout(
    db: Db, userId: string, cart: CartsRepo.Cart, custom: seq<CustomItem>, notes: Option<string>,
    cartNewId: string, newId: string, now: int, freshId: string)
    : (r: (Db, Result<Order>))
    ensures r.1.Err? ==> r.0 == db && (r.1.error == NotFound || r.1.error == Unhandled)
    ensures r.1.Ok? <==> PlaceFromCart(db, userId, cart, custom, notes, newId, now, freshId).Ok?
    ensures r.1.Ok? ==> ObjectIds.IsValid(userId)
    ensures r.1.Ok? ==>
      var uid := ObjectIds.Canonical(userId);
      var order := r.1.value;
      && order == PlaceFromCart(db, userId, cart, custom, notes, newId, now, freshId).value.1
      && r.0.products == db.products && r.0.payments == db.payments
      && |r.0.orders| == |db.orders| + 1 && r.0.orders[..|db.orders|] == db.orders
      && CartsRepo.UserCartIndex(r.0.carts, uid).Some?
      && r.0.carts[CartsRepo.UserCartIndex(r.0.carts, uid).value].items == []
  {
    match PlaceFromCart(db, userId, cart, custom, notes, newId, now, freshId)
    case Err(e) => (db, Err(e))
    case Ok((orders, order)) =>
      var placed := db.(orders := orders);
      var (cleared, _) := CartService.ClearCart(placed.carts, userId, cartNewId);
      (placed.(carts := cleared), Ok(order))
  }

  /** `createCustomOrderFromCart`: the caller's cart (created empty when
      there is none, which is then a BadRequest), its lines and the custom
      lines stored as one Pending order, then the cart emptied.  The
      collections are returned with the result because the cart may have
      been created before the request fails. */
  function CreateCustomOrderFromCart(
    db: Db, userId: string, custom: seq<CustomItem>, notes: Option<string>,
    cartNewId: string, newId: string, now: int, freshId: string)
    : (r: (Db, Result<Order>))
    ensures !ObjectIds.IsValid(userId) ==> r == (db, Err(Unhandled))
    ensures r.1.Err? ==>
      && r.0 == db.(carts := r.0.carts)
      && (r.0.carts == db.carts ||
          r.0.carts == db.carts + [CartsRepo.Cart(cartNewId, ObjectIds.Canonical(userId), true, [])])
    ensures r.1 == Err(BadRequest) <==>
      ObjectIds.IsValid(userId) && CartService.HeldLines(db.carts, ObjectIds.Canonical(userId)) == []
    ensures r.1.Ok? <==>
      && ObjectIds.IsValid(userId)
      && CartsRepo.UserCartIndex(db.carts, ObjectIds.Canonical(userId)).Some?
      && var cart := db.carts[CartsRepo.UserCartIndex(db.carts, ObjectIds.Canonical(userId)).value];
         && |cart.items| > 0 && ObjectIds.IsValid(cart.id)
         && CartDraft(db.products, userId, cart.id, cart.items, custom, notes).Ok?
         && OrdersMapper.NamedItems(CartDraft(db.products, userId, cart.id, cart.items, custom, notes).value.items)
    ensures r.1.Ok? ==> ObjectIds.IsValid(userId)
    ensures r.1.Ok? ==>
      var uid := ObjectIds.Canonical(userId);
      var order := r.1.value;
      && r.0.products == db.products && r.0.payments == db.payments
      && |r.0.orders| == |db.orders| + 1 && r.0.orders[..|db.orders|] == db.orders
      && order.id == newId && order.status == Pending && order.notes == notes && order.userId == uid
      && CartsRepo.UserCartIndex(r.0.carts, uid).Some?
      && r.0.carts[CartsRepo.UserCartIndex(r.0.carts, uid).value].items == []
  {
    var (carts, got) := CartService.GetCart(db.carts, userId, cartNewId);
    var read := db.(carts := carts);
    match got
    case Err(e) => (read, Err(e))
    case Ok(cart) =>
      assert cart.items == CartService.HeldLines(db.carts, ObjectIds.Canonical(userId));
      if |cart.items| == 0 then (read, Err(BadRequest))
      else Checkout(read, userId, cart, custom, notes, cartNewId, newId, now, freshId)
  }

  /** The order `createCustomOrderFromCart` places holds the caller's cart
      lines, priced from the catalog, followed by the custom lines; its total
      is the sum over the former plus the sum over the latter. */
  lemma CustomOrderFromCartLines(
    db: Db, userId: string, custom: seq<CustomItem>, notes: Option<string>,
    cartNewId: string, newId: string, now: int, freshId: string)
    ensures CreateCustomOrderFromCart(db, userId, custom, notes, cartNewId, newId, now, freshId).1.Ok? ==>
      ObjectIds.IsValid(userId) &&
      var held := CartService.HeldLines(db.carts, ObjectIds.Canonical(userId));
      var order := CreateCustomOrderFromCart(db, userId, custom, notes, cartNewId, newId, now, freshId).1.value;
      && |order.items| == |held| + |custom|
      && order.total == Total(order.items[..|held|]) + Total(order.items[|held|..])
      && forall k :: 0 <= k < |held| ==> IsPricedLine(db.products, held[k], order.items[k])
  {
    if CreateCustomOrderFromCart(db, userId, custom, notes, cartNewId, newId, now, freshId).1.Ok? {
      var (carts, got) := CartService.GetCart(db.carts, userId, cartNewId);
      var cart := got.value;
      assert cart.items == CartService.HeldLines(db.carts, ObjectIds.Canonical(userId));
      PlaceFromCartTotal(db.(carts := carts), userId, cart, custom, notes, newId, now, freshId);
    }
  }

  /** `createFromCart`: `createCustomOrderFromCart` without custom lines or
      notes. */
  function CreateFromCart(db: Db, userId: string, cartNewId: string, newId: string, now: int, freshId: string)
    : (r: (Db, Result<Order>))
    ensures r.1.Ok? ==> r.1.value.notes == None && r.1.value.status == Pending
    ensures r.1 == Err(BadRequest) <==>
      ObjectIds.IsValid(userId) && CartService.HeldLines(db.carts, ObjectIds.Canonical(userId)) == []
    ensures r.1.Ok? <==>
      && ObjectIds.IsValid(userId)
      && CartsRepo.UserCartIndex(db.carts, ObjectIds.Canonical(userId)).Some?
      && var cart := db.carts[CartsRepo.UserCartIndex(db.carts, ObjectIds.Canonical(userId)).value];
         && |cart.items| > 0 && ObjectIds.IsValid(cart.id)
         && (forall k :: 0 <= k < |cart.items| ==>
               PriceLine(db.products, cart.items[k]).Ok? && PriceLine(db.products, cart.items[k]).value.productName != "")
    ensures r.1.Ok? ==>
      var uid := ObjectIds.Canonical(userId);
      && r.0.products == db.products && r.0.payments == db.payments
      && |r.0.orders| == |db.orders| + 1 && r.0.orders[..|db.orders|] == db.orders
      && r.1.value.id == newId && r.1.value.userId == uid
      && CartsRepo.UserCartIndex(r.0.carts, uid).Some?
      && r.0.carts[CartsRepo.UserCartIndex(r.0.carts, uid).value].items == []
  {
    var r := CreateCustomOrderFromCart(db, userId, [], None, cartNewId, newId, now, freshId);
    if ObjectIds.IsValid(userId) && CartsRepo.UserCartIndex(db.carts, ObjectIds.Canonical(userId)).Some? then
      var cart := db.carts[CartsRepo.UserCartIndex(db.carts, ObjectIds.Canonical(userId)).value];
      if CartDraft(db.products, userId, cart.id, cart.items, [], None).Ok? then
        CartDraftNames(db.products, userId, cart.id, cart.items);
        r
      else r
    else r
  }

  /** The order `createFromCart` places holds exactly the caller's cart
      lines, in order, each priced from the catalog, and its total is the
      sum of price times quantity over them. */
  lemma CreateFromCartPricesCart(db: Db, userId: string, cartNewId: string, newId: string, now: int, freshId: string)
    ensures CreateFromCart(db, userId, cartNewId, newId, now, freshId).1.Ok? ==>
      ObjectIds.IsValid(userId) &&
      var held := CartService.HeldLines(db.carts, ObjectIds.Canonical(userId));
      var order := CreateFromCart(db, userId, cartNewId, newId, now, freshId).1.value;
      && |order.items| == |held|
      && (forall k :: 0 <= k < |held| ==> IsPricedLine(db.products, held[k], order.items[k]))
      && order.total == Total(order.items)
  {
    var r := CreateCustomOrderFromCart(db, userId, [], None, cartNewId, newId, now, freshId);
    assert CreateFromCart(db, userId, cartNewId, newId, now, freshId) == r;
    if r.1.Ok? {
      CustomOrderFromCartLines(db, userId, [], None, cartNewId, newId, now, freshId);
      var held := CartService.HeldLines(db.carts, ObjectIds.Canonical(userId));
      WholeSplit(r.1.value.items);
    }
  }

  /** Splitting lines at their end leaves nothing for the second part. */
  lemma WholeSplit(items: seq<OrderItem>)
    ensures Total(items[..|items|]) + Total(items[|items|..]) == Total(items)
  {
    assert items[..|items|] == items;
    assert items[|items|..] == [];
  }

  /** `findOne`: the order with that id, NotFound when there is none. */
  function FindOne(orders: seq<OrdersMapper.OrderDocument>, id: string, freshId: string): (r: Result<Order>)
    ensures r.Err? ==> (r.error == Unhandled <==> !ObjectIds.IsValid(id))
    ensures r.Err? ==> r.error == Unhandled || r.error == NotFound
    ensures r == Err(NotFound) <==>
      ObjectIds.IsValid(id) && OrdersRepo.DocIndex(orders, ObjectIds.Canonical(id)).None?
    ensures r.Ok? ==> ObjectIds.IsValid(id)
    ensures r.Ok? ==>
      exists i :: 0 <= i < |orders| && orders[i].id == ObjectIds.Canonical(id) &&
        r.value == OrdersMapper.ToDomain(orders[i], freshId)
  {
    var found :- OrdersRepo.FindById(orders, id, freshId);
    match found
    case None => Err(NotFound)
    case Some(order) => Ok(order)
  }

  /** `update`: only the cart id may change, and only when it is truthy;
      the order is stored under the caller's user id.  A missing order
      makes the repository throw, so the service's own NotFound is never
      reached. */
  function Update(db: Db, userId: string, id: string, cartId: Option<string>, now: int, freshId: string)
    : (r: Result<(Db, Order)>)
    ensures r.Err? ==> r.error == Unhandled
    ensures r.Ok? <==>
      && ObjectIds.IsValid(id) && ObjectIds.IsValid(userId)
      && (IsGivenText(cartId) ==> ObjectIds.IsValid(cartId.value))
      && OrdersRepo.DocIndex(db.orders, ObjectIds.Canonical(id)).Some?
    ensures r.Ok? ==>
      var i := OrdersRepo.DocIndex(db.orders, ObjectIds.Canonical(id)).value;
      var (after, order) := r.value;
      && after == db.(orders := after.orders)
      && |after.orders| == |db.orders|
      && (forall j :: 0 <= j < |db.orders| && j != i ==> after.orders[j] == db.orders[j])
      && after.orders[i].status == db.orders[i].status && after.orders[i].items == db.orders[i].items
      && after.orders[i].total == db.orders[i].total
      && after.orders[i].userId == ObjectIds.Canonical(userId)
      && after.orders[i].cartId ==
           (if IsGivenText(cartId) then Some(ObjectIds.Canonical(cartId.value)) else db.orders[i].cartId)
      && order == OrdersMapper.ToDomain(after.orders[i], freshId)
  {
    var patch := OrdersRepo.OrderPatch(if IsGivenText(cartId) then cartId else None, None);
    var updated :- OrdersRepo.Update(db.orders, userId, id, patch, now, freshId);
    Ok((db.(orders := updated.0), updated.1))
  }

  /** An update keeps the order's identity and contents: its id, lines,
      total, status and creation time are those it had, and its owner
      becomes the caller. */
  lemma UpdateKeepsOrder(db: Db, userId: string, id: string, cartId: Option<string>, now: int, freshId: string)
    ensures
      var r := Update(db, userId, id, cartId, now, freshId);
      r.Ok? ==>
        var order := r.value.1;
        var before := OrdersMapper.ToDomain(db.orders[OrdersRepo.DocIndex(db.orders, ObjectIds.Canonical(id)).value], freshId);
        && order.id == before.id && order.items == before.items && order.total == before.total
        && order.status == before.status && order.createdAt == before.createdAt
        && order.userId == ObjectIds.Canonical(userId) && order.updatedAt == now
  {
  }

  /** `cancelOrder`: a Pending (or otherwise open) order becomes
      Cancelled; a cancelled or confirmed one is a BadRequest.  No check
      that the caller owns the order is made, and the order is stored under
      the caller's user id. */
  function CancelOrder(db: Db, userId: string, orderId: string, now: int, freshId: string)
    : (r: Result<(Db, Order)>)
    ensures !ObjectIds.IsValid(orderId) ==> r == Err(Unhandled)
    ensures r.Err? ==> r.error == Unhandled || r.error == NotFound || r.error == BadRequest
    ensures ObjectIds.IsValid(orderId) ==> (r == Err(NotFound) <==>
      OrdersRepo.DocIndex(db.orders, ObjectIds.Canonical(orderId)).None?)
    ensures r == Err(BadRequest) <==>
      && ObjectIds.IsValid(orderId)
      && OrdersRepo.DocIndex(db.orders, ObjectIds.Canonical(orderId)).Some?
      && db.orders[OrdersRepo.DocIndex(db.orders, ObjectIds.Canonical(orderId)).value].status in {Cancelled, Confirmed}
    ensures r.Ok? <==>
      && ObjectIds.IsValid(orderId) && ObjectIds.IsValid(userId)
      && OrdersRepo.DocIndex(db.orders, ObjectIds.Canonical(orderId)).Some?
      && db.orders[OrdersRepo.DocIndex(db.orders, ObjectIds.Canonical(orderId)).value].status !in {Cancelled, Confirmed}
    ensures r.Ok? ==>
      var i := OrdersRepo.DocIndex(db.orders, ObjectIds.Canonical(orderId)).value;
      && r.value.0 == db.(orders := db.orders[i := db.orders[i].(
           status := Cancelled, updatedAt := now, userId := ObjectIds.Canonical(userId))])
      && r.value.1.status == Cancelled
  {
    var found :- OrdersRepo.FindById(db.orders, orderId, freshId);
    match found
    case None => Err(NotFound)
    case Some(order) =>
      if order.status == Cancelled then Err(BadRequest)
      else if order.status == Confirmed then Err(BadRequest)
      else
        var updated :- OrdersRepo.Update(db.orders, userId, orderId, OrdersRepo.OrderPatch(None, Some(Cancelled)), now, freshId);
        Ok((db.(orders := updated.0), updated.1))
  }

  /** No ownership check precedes the cancellation: any caller with a valid
      id can cancel another user's open order, and the order is then stored
      as the caller's. */
  lemma CancelOrderTakesOver(db: Db, userId: string, orderId: string, now: int, freshId: string)
    requires ObjectIds.IsValid(orderId) && ObjectIds.IsValid(userId)
    requires OrdersRepo.DocIndex(db.orders, ObjectIds.Canonical(orderId)).Some?
    requires
      var owner := db.orders[OrdersRepo.DocIndex(db.orders, ObjectIds.Canonical(orderId)).value];
      owner.status !in {Cancelled, Confirmed} && owner.userId != ObjectIds.Canonical(userId)
    ensures CancelOrder(db, userId, orderId, now, freshId).Ok?
    ensures
      var i := OrdersRepo.DocIndex(db.orders, ObjectIds.Canonical(orderId)).value;
      var (after, cancelled) := CancelOrder(db, userId, orderId, now, freshId).value;
      && after.orders[i].userId == ObjectIds.Canonical(userId) != db.orders[i].userId
      && cancelled.userId == ObjectIds.Canonical(userId)
  {
  }

  /** Cancelling is final: cancelling the same order again is a
      BadRequest. */
  lemma CancelOrderTwice(db: Db, userId: string, orderId: string, now: int, freshId: string, laterUserId: string, later: int)
    requires CancelOrder(db, userId, orderId, now, freshId).Ok?
    ensures CancelOrder(CancelOrder(db, userId, orderId, now, freshId).value.0, laterUserId, orderId, later, freshId)
      == Err(BadRequest)
  {
    var after := CancelOrder(db, userId, orderId, now, freshId).value.0;
    var i := OrdersRepo.DocIndex(db.orders, ObjectIds.Canonical(orderId)).value;
    assert after.orders[i].id == db.orders[i].id;
    assert forall j :: 0 <= j < i ==> after.orders[j] == db.orders[j];
    assert OrdersRepo.DocIndex(after.orders, ObjectIds.Canonical(orderId)) == Some(i);
  }
}

=== FILE: pagination.dfy ===
/** Page selection shared by every `findManyWithPagination`: skip
    `(page - 1) * limit` matching documents and return at most `limit`; and
    the controllers' defaulting and clamping of the requested page size. */
module Pagination {
  import opened Common
  import opened Sorting

  /** What a paginated query hands back: the sort stage it passed to the
      database, and the page of matching documents.  The ordering a
      non-empty stage imposes is the database's; the items are the page taken
      over the matches in collection order. */
  datatype Page<T> = Page(sort: seq<SortKey>, items: seq<T>)

  /** Page size when the query gives none. */
  const DefaultLimit := 10
  /** Largest page size the controllers let through. */
  const MaxLimit := 50
  /** Page number when the query gives none. */
  const DefaultPage := 1

  function Min(a: int, b: int): int {
    if a <= b then a else b
  }

  /** Documents skipped before the requested page. */
  function Offset(page: int, limit: int): (n: nat)
    requires page >= 1 && limit >= 1
  {
    (page - 1) * limit
  }

  /** `.skip((page - 1) * limit).limit(limit)` over the documents in the order
      the database returns them. */
  function Paginate<T>(xs: seq<T>, page: int, limit: int): (r: seq<T>)
    requires page >= 1 && limit >= 1
    ensures |r| <= limit
    ensures |r| == if |xs| <= Offset(page, limit) then 0
                   else Min(limit, |xs| - Offset(page, limit))
    ensures forall i :: 0 <= i < |r| ==> r[i] == xs[Offset(page, limit) + i]
  {
    var skip := Offset(page, limit);
    if skip >= |xs| then [] else xs[skip..Min(|xs|, skip + limit)]
  }

  /** Pages 1 to n, one after the other. */
  function Pages<T>(xs: seq<T>, n: nat, limit: int): seq<T>
    requires limit >= 1
  {
    if n == 0 then [] else Pages(xs, n - 1, limit) + Paginate(xs, n, limit)
  }

  /** Consecutive pages neither overlap nor leave gaps: the first n pages
      together are exactly the first n * limit documents. */
  lemma {:induction false} PagesArePrefix<T>(xs: seq<T>, n: nat, limit: int)
    requires limit >= 1
    ensures Pages(xs, n, limit) == xs[..Min(|xs|, n * limit)]
  {
    if n > 0 {
      PagesArePrefix(xs, n - 1, limit);
      var skipped := (n - 1) * limit;
      var through := skipped + limit;
      assert n * limit == through;
      assert Offset(n, limit) == skipped;
      var page := Paginate(xs, n, limit);
      if |xs| <= skipped {
        assert page == [];
      } else {
        assert page == xs[skipped..Min(|xs|, through)];
        assert xs[..skipped] + xs[skipped..Min(|xs|, through)] == xs[..Min(|xs|, through)];
      }
    }
  }

  /** `if (limit > 50) limit = 50`, applied by the order and cart controllers. */
  function ClampLimit(limit: int): (r: int)
    ensures r <= MaxLimit
    ensures r <= limit
    ensures limit <= MaxLimit ==> r == limit
    ensures limit > MaxLimit ==> r == MaxLimit
  {
    if limit > MaxLimit then MaxLimit else limit
  }

  /** `query.limit ?? 10`, then the clamp. */
  function RequestedLimit(limit: Option<int>): (r: int)
    ensures r <= MaxLimit
    ensures limit.None? ==> r == DefaultLimit
    ensures limit.Some? && limit.value <= MaxLimit ==> r == limit.value
  {
    match limit
    case None => DefaultLimit
    case Some(l) => ClampLimit(l)
  }

  /** `query.page ?? 1`. */
  function RequestedPage(page: Option<int>): (r: int)
    ensures page.None? ==> r == DefaultPage
    ensures page.Some? ==> r == page.value
  {
    match page
    case None => DefaultPage
    case Some(p) => p
  }
}

=== FILE: payment_service.dfy ===
/** The payment service: creating a payment for an order (at most one open
    one per order), paying by cash (created and marked Paid at once), paying
    through the ZaloPay gateway (created Pending with the gateway's payment
    URL, settled by the gateway's callback), and moving a payment to another
    status.  Transaction ids are generated from the clock and a random
    string, and the collection's unique index keeps them distinct. */
module PaymentService {
  import opened Common
  import opened PaymentsDomain
  import opened Database
  import Text
  import ObjectIds
  import PaymentsRepo
  import OrdersService
  import OrdersMapper
  import OrdersRepo

  /** Description of a cash payment when the caller gives none. */
  const CashDescription := "Cash payment"
  /** Description of a ZaloPay payment when the caller gives none. */
  const ZaloPayDescription := "ZaloPay payment"
  /** Description sent to the gateway when the payment has none. */
  const GatewayDescription := "Payment for order"
  /** The payment URL the gateway stand-in hands out, before the
      transaction id. */
  const MockPaymentUrl := "https://sandbox.zalopay.com.vn/v2/mock/payment?app_trans_id="
  /** Configuration defaults, used when the environment sets nothing. */
  const DefaultAppId := "2553"
  const DefaultCallbackUrl := "https://your-api.com/payment/zalopay/callback"

  /** `PAY_${timestamp}_${random}` upper-cased; `now` is `Date.now()` and
      `random` the base-36 digits drawn from `Math.random()`. */
  function TransactionId(now: nat, random: string): (r: string)
    ensures |r| == 5 + |Text.NatToString(now)| + |random|
    ensures forall i :: 0 <= i < |r| ==> !Text.IsLowerLetter(r[i])
  {
    Text.ToUpper("PAY_" + Text.NatToString(now) + "_" + random)
  }

  /** Upper-casing leaves the digits of a number alone. */
  lemma {:induction false} ToUpperOfDigits(s: string)
    requires forall i :: 0 <= i < |s| ==> Text.IsDigit(s[i])
    ensures Text.ToUpper(s) == s
  {
    var u := Text.ToUpper(s);
    assert forall i :: 0 <= i < |s| ==> u[i] == Text.UpperChar(s[i]) == s[i];
  }

  /** A transaction id is "PAY_", the timestamp's digits, "_" and the
      upper-cased random part. */
  lemma TransactionIdParts(now: nat, random: string)
    ensures TransactionId(now, random) == "PAY_" + Text.NatToString(now) + "_" + Text.ToUpper(random)
  {
    var digits := Text.NatToString(now);
    Text.ToUpperAppend("PAY_" + digits + "_", random);
    Text.ToUpperAppend("PAY_" + digits, "_");
    Text.ToUpperAppend("PAY_", digits);
    ToUpperOfDigits(digits);
    assert Text.ToUpper("PAY_") == "PAY_";
    assert Text.ToUpper("_") == "_";
  }

  /** The parts of a transaction id can be told apart, and the timestamp
      read back from it. */
  lemma TransactionIdShape(now: nat, random: string)
    ensures
      var r, digits := TransactionId(now, random), Text.NatToString(now);
      && r[..4] == "PAY_"
      && r[4..4 + |digits|] == digits
      && r[4 + |digits|] == '_'
      && r[5 + |digits|..] == Text.ToUpper(random)
      && Text.ParseNat(r[4..4 + |digits|]) == now
  {
    TransactionIdParts(now, random);
    SeparatedSlices("PAY_", Text.NatToString(now), '_', Text.ToUpper(random));
    Text.ParseNatToString(now);
  }

  /** The parts of `a + b + [c] + d` are found back at their offsets. */
  lemma SeparatedSlices(a: string, b: string, c: char, d: string)
    ensures
      var r := a + b + [c] + d;
      && r[..|a|] == a && r[|a|..|a| + |b|] == b && r[|a| + |b|] == c && r[|a| + |b| + 1..] == d
  {
    var r := a + b + [c] + d;
    assert r[..|a|] == a;
    assert r[|a|..|a| + |b|] == b;
    assert r[|a| + |b| + 1..] == d;
  }

  /** A payment that blocks a new one for the order: Paid or Pending. */
  predicate IsOpenPayment(p: Payment, orderKey: string) {
    p.orderId == orderKey && (p.status == Paid || p.status == Pending)
  }

  /** `createPayment`: both ids are checked first (BadRequest); an open
      payment for the order is a BadRequest; otherwise a Pending payment
      with a fresh transaction id is saved (the schema rejects a negative
      amount, the unique index a transaction id already in use). */
  function CreatePayment(
    payments: seq<Payment>, userId: string, orderId: string, amount: int, paymentMethod: PaymentMethod,
    description: Option<string>, newId: string, now: nat, random: string)
    : (r: Result<(seq<Payment>, Payment)>)
    ensures r == Err(BadRequest) <==>
      || !ObjectIds.IsValid(orderId) || !ObjectIds.IsValid(userId)
      || exists j :: 0 <= j < |payments| && IsOpenPayment(payments[j], ObjectIds.Canonical(orderId))
    ensures r.Err? ==> r.error == BadRequest || r.error == Unhandled
    ensures r.Ok? <==>
      && ObjectIds.IsValid(orderId) && ObjectIds.IsValid(userId)
      && !(exists j :: 0 <= j < |payments| && IsOpenPayment(payments[j], ObjectIds.Canonical(orderId)))
      && amount >= 0
      && !PaymentsRepo.TransactionIdTaken(payments, TransactionId(now, random), -1)
    ensures r.Ok? ==> ObjectIds.IsValid(orderId) && ObjectIds.IsValid(userId)
    ensures r.Ok? ==>
      && r.value.1 == Payment(
           newId, ObjectIds.Canonical(orderId), ObjectIds.Canonical(userId), amount, paymentMethod,
           TransactionId(now, random), Pending, None, None, description, now, now, None)
      && r.value.0 == payments + [r.value.1]
      && amount >= 0
      && !PaymentsRepo.TransactionIdTaken(payments, TransactionId(now, random), -1)
    ensures r.Ok? && PaymentsRepo.UniqueTransactionIds(payments) ==> PaymentsRepo.UniqueTransactionIds(r.value.0)
  {
    if !ObjectIds.IsValid(orderId) || !ObjectIds.IsValid(userId) then Err(BadRequest)
    else
      var orderKey := ObjectIds.Canonical(orderId);
      match FindIndex(payments, (p: Payment) => IsOpenPayment(p, orderKey))
      case Some(_) => Err(BadRequest)
      case None =>
        var payment := Payment(
          newId, orderKey, ObjectIds.Canonical(userId), amount, paymentMethod,
          TransactionId(now, random), Pending, None, None, description, now, now, None);
        var stored :- PaymentsRepo.SaveNew(payments, payment);
        Ok((stored, payment))
  }

  /** Once a payment for an order has been created, another one for the
      same order is refused until the first is no longer open. */
  lemma CreatePaymentBlocksSecond(
    payments: seq<Payment>, userId: string, orderId: string, amount: int, paymentMethod: PaymentMethod,
    description: Option<string>, newId: string, now: nat, random: string,
    laterUserId: string, laterAmount: int, laterMethod: PaymentMethod, laterDescription: Option<string>,
    laterId: string, later: nat, laterRandom: string)
    requires CreatePayment(payments, userId, orderId, amount, paymentMethod, description, newId, now, random).Ok?
    ensures
      var after := CreatePayment(payments, userId, orderId, amount, paymentMethod, description, newId, now, random).value.0;
      CreatePayment(after, laterUserId, orderId, laterAmount, laterMethod, laterDescription, laterId, later, laterRandom)
        == Err(BadRequest)
  {
    var after := CreatePayment(payments, userId, orderId, amount, paymentMethod, description, newId, now, random).value.0;
    assert IsOpenPayment(after[|payments|], ObjectIds.Canonical(orderId));
  }

  /** `getOrderAmount`: the order's total; any failure to read the order
      becomes a NotFound. */
  function GetOrderAmount(orders: seq<OrdersMapper.OrderDocument>, orderId: string, freshId: string): (r: Result<int>)
    ensures r.Err? ==> r.error == NotFound
    ensures r.Ok? <==> ObjectIds.IsValid(orderId) && OrdersRepo.DocIndex(orders, ObjectIds.Canonical(orderId)).Some?
    ensures r.Ok? ==> r.value == orders[OrdersRepo.DocIndex(orders, ObjectIds.Canonical(orderId)).value].total
  {
    match OrdersService.FindOne(orders, orderId, freshId)
    case Err(_) => Err(NotFound)
    case Ok(order) => Ok(order.total)
  }

  /** `updatePaymentStatus`: a malformed id is a BadRequest, a missing
      payment a NotFound; otherwise only the status and `updatedAt`
      change. */
  function UpdatePaymentStatus(payments: seq<Payment>, paymentId: string, status: PaymentStatus, now: int)
    : (r: Result<(seq<Payment>, Payment)>)
    ensures !ObjectIds.IsValid(paymentId) ==> r == Err(BadRequest)
    ensures r.Err? ==> r.error == BadRequest || r.error == NotFound
    ensures ObjectIds.IsValid(paymentId) ==>
      match PaymentsRepo.IdIndex(payments, ObjectIds.Canonical(paymentId))
      case None => r == Err(NotFound)
      case Some(i) =>
        r == Ok((payments[i := payments[i].(status := status, updatedAt := now)],
                 payments[i].(status := status, updatedAt := now)))
    ensures r.Ok? && PaymentsRepo.UniqueTransactionIds(payments) ==> PaymentsRepo.UniqueTransactionIds(r.value.0)
  {
    if !ObjectIds.IsValid(paymentId) then Err(BadRequest)
    else
      match PaymentsRepo.IdIndex(payments, ObjectIds.Canonical(paymentId))
      case None => Err(NotFound)
      case Some(i) =>
        var updated := payments[i].(status := status, updatedAt := now);
        assert forall j :: 0 <= j < |payments| ==>
          payments[i := updated][j].transactionId == payments[j].transactionId;
        Ok((payments[i := updated], updated))
  }

  /** `cancelPayment`: the payment's status becomes Cancelled and its
      `updatedAt` the current time; no other payment and no other field
      changes. */
  function CancelPayment(payments: seq<Payment>, paymentId: string, now: int): (r: Result<(seq<Payment>, Payment)>)
    ensures r.Ok? ==> r.value.1.status == Cancelled && |r.value.0| == |payments|
    ensures r.Err? <==>
      !ObjectIds.IsValid(paymentId) || PaymentsRepo.IdIndex(payments, ObjectIds.Canonical(paymentId)).None?
    ensures !ObjectIds.IsValid(paymentId) ==> r == Err(BadRequest)
    ensures ObjectIds.IsValid(paymentId) && PaymentsRepo.IdIndex(payments, ObjectIds.Canonical(paymentId)).None? ==>
      r == Err(NotFound)
    ensures r.Ok? ==>
      var i := PaymentsRepo.IdIndex(payments, ObjectIds.Canonical(paymentId)).value;
      var (after, cancelled) := r.value;
      && cancelled == payments[i].(status := Cancelled, updatedAt := now)
      && after[i] == cancelled
      && forall j :: 0 <= j < |payments| && j != i ==> after[j] == payments[j]
  {
    UpdatePaymentStatus(payments, paymentId, Cancelled, now)
  }

  /** A payment id the database may assign: printed form, and not the id
      of any payment already stored. */
  predicate IsFreshId(payments: seq<Payment>, id: string) {
    ObjectIds.IsCanonical(id) && forall j :: 0 <= j < |payments| ==> payments[j].id != id
  }

  /** The cash payment itself: a payment of the order's total is created
      and then marked Paid. */
  function CashPayment(
    db: Db, userId: string, orderId: string, description: Option<string>,
    newId: string, now: nat, random: string, freshId: string)
    : (r: Result<(seq<Payment>, Payment)>)
    ensures r.Ok? ==>
      GetOrderAmount(db.orders, orderId, freshId).Ok? && ObjectIds.IsValid(orderId) && ObjectIds.IsValid(userId)
    ensures r.Ok? <==>
      && GetOrderAmount(db.orders, orderId, freshId).Ok?
      && CreatePayment(
           db.payments, userId, orderId, GetOrderAmount(db.orders, orderId, freshId).value, Cash,
           Some(TextOr(description, CashDescription)), newId, now, random).Ok?
      && ObjectIds.IsValid(newId)
      && (newId == ObjectIds.Canonical(newId) || PaymentsRepo.IdIndex(db.payments, ObjectIds.Canonical(newId)).Some?)
    ensures r.Ok? ==> r.value.1.status == Paid
    ensures r.Ok? && IsFreshId(db.payments, newId) ==>
      var paid := Payment(
        newId, ObjectIds.Canonical(orderId), ObjectIds.Canonical(userId),
        GetOrderAmount(db.orders, orderId, freshId).value, Cash, TransactionId(now, random), Paid,
        None, None, Some(TextOr(description, CashDescription)), now, now, None);
      r.value == (db.payments + [paid], paid)
    ensures r.Ok? && PaymentsRepo.UniqueTransactionIds(db.payments) ==> PaymentsRepo.UniqueTransactionIds(r.value.0)
  {
    var amount :- GetOrderAmount(db.orders, orderId, freshId);
    var created :- CreatePayment(
      db.payments, userId, orderId, amount, Cash, Some(TextOr(description, CashDescription)), newId, now, random);
    assert IsFreshId(db.payments, newId) ==>
      UpdatePaymentStatus(created.0, created.1.id, Paid, now) ==
        Ok((db.payments + [created.1.(status := Paid, updatedAt := now)], created.1.(status := Paid, updatedAt := now)))
    by {
      if IsFreshId(db.payments, newId) {
        MarkFreshPayment(db.payments, created.1, Paid, now);
      }
    }
    if ObjectIds.IsValid(newId) then
      AppendedIdFound(db.payments, created.1, ObjectIds.Canonical(newId));
      UpdatePaymentStatus(created.0, created.1.id, Paid, now)
    else
      UpdatePaymentStatus(created.0, created.1.id, Paid, now)
  }

  /** After a payment is appended, an id finds something exactly when it
      found something before or is the new payment's id. */
  lemma AppendedIdFound(payments: seq<Payment>, p: Payment, key: string)
    ensures PaymentsRepo.IdIndex(payments + [p], key).Some? <==>
      PaymentsRepo.IdIndex(payments, key).Some? || p.id == key
  {
    if PaymentsRepo.IdIndex(payments, key).Some? {
      var i := PaymentsRepo.IdIndex(payments, key).value;
      assert (payments + [p])[i].id == key;
    } else if p.id == key {
      assert (payments + [p])[|payments|].id == key;
    }
  }

  /** Whether the order already has a Paid payment. */
  predicate IsPaid(payments: seq<Payment>, orderKey: string) {
    exists j :: 0 <= j < |payments| && payments[j].orderId == orderKey && payments[j].status == Paid
  }

  /** A payment appended under a fresh id is the one its id finds, so a
      status update by that id changes it and nothing else. */
  lemma MarkFreshPayment(payments: seq<Payment>, p: Payment, status: PaymentStatus, now: int)
    requires IsFreshId(payments, p.id)
    ensures
      var updated := p.(status := status, updatedAt := now);
      UpdatePaymentStatus(payments + [p], p.id, status, now) == Ok((payments + [updated], updated))
  {
    ObjectIds.CanonicalOfCanonical(p.id);
    var all := payments + [p];
    assert forall j :: 0 <= j < |payments| ==> all[j] == payments[j];
    assert all[|payments|].id == p.id;
    assert PaymentsRepo.IdIndex(all, p.id) == Some(|payments|);
    assert all[|payments| := p.(status := status, updatedAt := now)] == payments + [p.(status := status, updatedAt := now)];
  }

  /** `payByCash`: the order must exist and belong to the caller (its
      printed user id compared with the caller's id as given), and must not
      be paid already; a cash payment of the order's total is created and
      marked Paid at once. */
  function PayByCash(
    db: Db, userId: string, orderId: string, description: Option<string>,
    newId: string, now: nat, random: string, freshId: string)
    : (r: Result<(seq<Payment>, Payment)>)
    ensures OrdersService.FindOne(db.orders, orderId, freshId).Err? ==>
      r == Err(OrdersService.FindOne(db.orders, orderId, freshId).error)
    ensures OrdersService.FindOne(db.orders, orderId, freshId).Ok? ==>
      var order := OrdersService.FindOne(db.orders, orderId, freshId).value;
      && (order.userId != userId ==> r == Err(BadRequest))
      && (IsPaid(db.payments, ObjectIds.Canonical(orderId)) ==> r == Err(BadRequest))
      && (r.Ok? ==> r == CashPayment(db, userId, orderId, description, newId, now, random, freshId))
    ensures OrdersService.FindOne(db.orders, orderId, freshId).Ok? ==>
      var order := OrdersService.FindOne(db.orders, orderId, freshId).value;
      order.userId == userId && !IsPaid(db.payments, ObjectIds.Canonical(orderId)) ==>
        r == CashPayment(db, userId, orderId, description, newId, now, random, freshId)
    ensures r.Ok? ==> OrdersService.FindOne(db.orders, orderId, freshId).Ok?
  {
    var order :- OrdersService.FindOne(db.orders, orderId, freshId);
    if order.userId != userId then Err(BadRequest)
    else
      var orderKey := ObjectIds.Canonical(orderId);
      match FindIndex(db.payments, (p: Payment) => p.orderId == orderKey && p.status == Paid)
      case Some(_) => Err(BadRequest)
      case None => CashPayment(db, userId, orderId, description, newId, now, random, freshId)
  }

  /** An order paid by cash cannot be paid by cash again. */
  lemma PayByCashOnce(
    db: Db, userId: string, orderId: string, description: Option<string>,
    newId: string, now: nat, random: string, freshId: string,
    laterDescription: Option<string>, laterId: string, later: nat, laterRandom: string)
    requires IsFreshId(db.payments, newId)
    requires PayByCash(db, userId, orderId, description, newId, now, random, freshId).Ok?
    ensures
      var after := db.(payments := PayByCash(db, userId, orderId, description, newId, now, random, freshId).value.0);
      PayByCash(after, userId, orderId, laterDescription, laterId, later, laterRandom, freshId) == Err(BadRequest)
  {
    var paid := CashPayment(db, userId, orderId, description, newId, now, random, freshId).value;
    assert paid.0[|db.payments|] == paid.1;
    assert IsPaid(paid.0, ObjectIds.Canonical(orderId));
  }

  /** The order sent to the gateway. */
  datatype GatewayOrder = GatewayOrder(
    appId: string,
    appTransId: string,
    appUser: string,
    appTime: int,
    item: string,
    embedData: string,
    amount: int,
    description: string,
    bankCode: string,
    callbackUrl: string)

  /** The gateway order for a payment.  `appTime` is `Date.now()`; the
      JSON texts `embedData` (the redirect URL) and `item` (the order line)
      are given as they were encoded. */
  function GatewayOrderFor(
    payment: Payment, appId: Option<string>, appTime: int, embedData: string, item: string,
    callbackUrl: Option<string>)
    : (o: GatewayOrder)
    ensures o.appTransId == payment.transactionId && o.appUser == payment.userId && o.amount == payment.amount
    ensures o.appId == TextOr(appId, DefaultAppId) && o.callbackUrl == TextOr(callbackUrl, DefaultCallbackUrl)
    ensures o.description == TextOr(payment.description, GatewayDescription) && o.bankCode == ""
  {
    GatewayOrder(
      TextOr(appId, DefaultAppId), payment.transactionId, payment.userId, appTime, item, embedData,
      payment.amount, TextOr(payment.description, GatewayDescription), "", TextOr(callbackUrl, DefaultCallbackUrl))
  }

  /** The text the request's MAC is computed over: seven fields joined by
      '|'.  The HMAC itself is not modelled. */
  function MacInput(o: GatewayOrder): string {
    Text.Join([o.appId, o.appTransId, o.appUser, Text.IntToString(o.amount), Text.IntToString(o.appTime),
               o.embedData, o.item], '|')
  }

  lemma NumberHasNoBar(n: int)
    ensures '|' !in Text.IntToString(n)
  {
    var s := Text.IntToString(n);
    forall i | 0 <= i < |s|
      ensures s[i] != '|'
    {
    }
  }

  /** When no text field contains '|', the MAC input determines the seven
      fields it was built from: splitting it on '|' gives them back. */
  lemma MacInputFields(o: GatewayOrder)
    requires '|' !in o.appId && '|' !in o.appTransId && '|' !in o.appUser
    requires '|' !in o.embedData && '|' !in o.item
    ensures Text.Split(MacInput(o), '|') ==
      [o.appId, o.appTransId, o.appUser, Text.IntToString(o.amount), Text.IntToString(o.appTime),
       o.embedData, o.item]
  {
    var parts := [o.appId, o.appTransId, o.appUser, Text.IntToString(o.amount), Text.IntToString(o.appTime),
                  o.embedData, o.item];
    NumberHasNoBar(o.amount);
    NumberHasNoBar(o.appTime);
    Text.SplitJoin(parts, '|');
  }

  /** `createZaloPayOrder` as the code stands: no request is sent; the
      payment URL is the stand-in's URL for the transaction id, and the
      gateway's order id is the transaction id. */
  function ZaloPayOrder(payment: Payment): (r: (string, string))
    ensures r.0 == MockPaymentUrl + payment.transactionId
    ensures r.1 == payment.transactionId
  {
    (MockPaymentUrl + payment.transactionId, payment.transactionId)
  }

  /** `payByZaloPay`: any failure to read the order is a NotFound; a
      Pending ZaloPay payment of the order's total is created (no check
      that the order belongs to the caller), then saved with the gateway's
      payment URL and order id.  Returns the URL and the payment. */
  function PayByZaloPay(
    db: Db, userId: string, orderId: string, description: Option<string>,
    newId: string, now: nat, random: string, freshId: string)
    : (r: Result<(seq<Payment>, (string, Payment))>)
    ensures GetOrderAmount(db.orders, orderId, freshId).Err? ==> r == Err(NotFound)
    ensures r.Err? ==> r.error == NotFound || r.error == BadRequest || r.error == Unhandled
    ensures r.Ok? ==> GetOrderAmount(db.orders, orderId, freshId).Ok?
    ensures GetOrderAmount(db.orders, orderId, freshId).Ok? ==>
      var created := CreatePayment(
        db.payments, userId, orderId, GetOrderAmount(db.orders, orderId, freshId).value, ZaloPay,
        Some(TextOr(description, ZaloPayDescription)), newId, now, random);
      && (r.Ok? <==> created.Ok?)
      && (created.Err? ==> r == Err(created.error))
    ensures r.Ok? ==>
      var (after, (url, payment)) := r.value;
      && after == db.payments + [payment]
      && payment.status == Pending && payment.paymentMethod == ZaloPay
      && payment.amount == GetOrderAmount(db.orders, orderId, freshId).value
      && payment.transactionId == TransactionId(now, random)
      && payment.zaloPayOrderId == Some(payment.transactionId)
      && payment.paymentUrl == Some(url) && url == MockPaymentUrl + payment.transactionId
      && payment.description == Some(TextOr(description, ZaloPayDescription))
      && !PaymentsRepo.TransactionIdTaken(db.payments, payment.transactionId, -1)
    ensures r.Ok? ==>
      var tid := TransactionId(now, random);
      r.value.1.1 == Payment(
        newId, ObjectIds.Canonical(orderId), ObjectIds.Canonical(userId),
        GetOrderAmount(db.orders, orderId, freshId).value, ZaloPay, tid, Pending,
        Some(MockPaymentUrl + tid), Some(tid), Some(TextOr(description, ZaloPayDescription)), now, now, None)
    ensures r.Ok? && PaymentsRepo.UniqueTransactionIds(db.payments) ==> PaymentsRepo.UniqueTransactionIds(r.value.0)
  {
    var amount :- GetOrderAmount(db.orders, orderId, freshId);
    var created :- CreatePayment(
      db.payments, userId, orderId, amount, ZaloPay, Some(TextOr(description, ZaloPayDescription)), newId, now, random);
    var (url, gatewayId) := ZaloPayOrder(created.1);
    var payment := created.1.(paymentUrl := Some(url), zaloPayOrderId := Some(gatewayId), updatedAt := now);
    var saved := PaymentsRepo.SaveAt(created.0, |db.payments|, payment).value;
    assert saved == db.payments + [payment];
    Ok((saved, (url, payment)))
  }

  /** The callback's new status: 1 means the gateway collected the money. */
  function CallbackStatus(status: int): (s: PaymentStatus)
    ensures s == Paid <==> status == 1
    ensures s != Paid ==> s == Failed
  {
    if status == 1 then Paid else Failed
  }

  /** Whether the callback assigns anything new to the payment.  A path is
      marked modified only when its value changes, and a `save()` with
      nothing modified writes nothing, so the timestamps leave `updatedAt`
      alone too. */
  predicate CallbackChanges(p: Payment, status: int, transactionId: string) {
    p.status != CallbackStatus(status) || p.transactionId != transactionId
  }

  /** The payment as a callback leaves it: the callback's status and
      transaction id, with `updatedAt` refreshed only when something
      changed. */
  function Settled(p: Payment, status: int, transactionId: string, now: int): (q: Payment)
    ensures q.status == CallbackStatus(status) && q.transactionId == transactionId
    ensures q.(status := p.status, transactionId := p.transactionId, updatedAt := p.updatedAt) == p
    ensures q.updatedAt == (if CallbackChanges(p, status, transactionId) then now else p.updatedAt)
    ensures !CallbackChanges(p, status, transactionId) ==> q == p
  {
    if CallbackChanges(p, status, transactionId) then
      p.(status := CallbackStatus(status), transactionId := transactionId, updatedAt := now)
    else p
  }

  /** `handleZaloPayCallback`: the first payment carrying the gateway's
      order id (NotFound when none) takes the callback's status and
      transaction id and is saved.  Validation runs on every save; the
      unique index is consulted only when something is written. */
  function HandleZaloPayCallback(
    payments: seq<Payment>, gatewayOrderId: string, status: int, transactionId: string, now: int)
    : (r: Result<(seq<Payment>, Payment)>)
    ensures r == Err(NotFound) <==> PaymentsRepo.GatewayIndex(payments, gatewayOrderId).None?
    ensures r.Err? ==> r.error == NotFound || r.error == Unhandled
    ensures PaymentsRepo.GatewayIndex(payments, gatewayOrderId).Some? ==>
      var i := PaymentsRepo.GatewayIndex(payments, gatewayOrderId).value;
      var settled := Settled(payments[i], status, transactionId, now);
      && (r.Ok? <==>
           transactionId != "" &&
           (!CallbackChanges(payments[i], status, transactionId) ||
            !PaymentsRepo.TransactionIdTaken(payments, transactionId, i)))
      && (r.Ok? ==> r.value == (payments[i := settled], settled))
    ensures r.Ok? && PaymentsRepo.UniqueTransactionIds(payments) ==> PaymentsRepo.UniqueTransactionIds(r.value.0)
  {
    match PaymentsRepo.GatewayIndex(payments, gatewayOrderId)
    case None => Err(NotFound)
    case Some(i) =>
      var settled := Settled(payments[i], status, transactionId, now);
      if !CallbackChanges(payments[i], status, transactionId) then
        if transactionId != "" then
          assert payments[i := settled] == payments;
          Ok((payments, settled))
        else Err(Unhandled)
      else
        var saved :- PaymentsRepo.SaveAt(payments, i, settled);
        Ok((saved, settled))
  }

  /** Delivering the same callback twice leaves the payments exactly as
      delivering it once: the second save finds nothing to write. */
  lemma CallbackReplay(payments: seq<Payment>, gatewayOrderId: string, status: int, transactionId: string, now: int, later: int)
    requires HandleZaloPayCallback(payments, gatewayOrderId, status, transactionId, now).Ok?
    ensures
      var once := HandleZaloPayCallback(payments, gatewayOrderId, status, transactionId, now).value;
      HandleZaloPayCallback(once.0, gatewayOrderId, status, transactionId, later) == Ok(once)
  {
    var i := PaymentsRepo.GatewayIndex(payments, gatewayOrderId).value;
    var once := HandleZaloPayCallback(payments, gatewayOrderId, status, transactionId, now).value;
    assert forall j :: 0 <= j < |payments| && j != i ==> once.0[j] == payments[j];
    assert once.0[i].zaloPayOrderId == Some(gatewayOrderId);
    assert PaymentsRepo.GatewayIndex(once.0, gatewayOrderId) == Some(i);
    assert !CallbackChanges(once.0[i], status, transactionId);
    assert once.0[i := once.0[i]] == once.0;
  }

  /** A successful callback for the gateway order of a payment appended
      last, whose gateway order id no earlier payment carries, settles that
      payment. */
  lemma SettleAppended(before: seq<Payment>, payment: Payment, transactionId: string, later: int)
    requires payment.zaloPayOrderId == Some(payment.transactionId)
    requires forall j :: 0 <= j < |before| ==> before[j].zaloPayOrderId != payment.zaloPayOrderId
    requires transactionId != "" && !PaymentsRepo.TransactionIdTaken(before, transactionId, -1)
    ensures
      var settled := Settled(payment, 1, transactionId, later);
      HandleZaloPayCallback(before + [payment], payment.transactionId, 1, transactionId, later)
        == Ok((before + [settled], settled))
  {
    var n, after := |before|, before + [payment];
    assert forall j :: 0 <= j < n ==> after[j] == before[j];
    var k := PaymentsRepo.GatewayIndex(after, payment.transactionId);
    assert after[n] == payment;
    assert k == Some(n);
    assert !PaymentsRepo.TransactionIdTaken(after, transactionId, n);
    var settled := Settled(payment, 1, transactionId, later);
    assert after[n := settled] == before + [settled];
  }

  /** A successful gateway callback for a payment just started through
      ZaloPay settles that payment as Paid. */
  lemma ZaloPayThenCallback(
    db: Db, userId: string, orderId: string, description: Option<string>,
    newId: string, now: nat, random: string, freshId: string, transactionId: string, later: int)
    requires PayByZaloPay(db, userId, orderId, description, newId, now, random, freshId).Ok?
    requires forall j :: 0 <= j < |db.payments| ==> db.payments[j].zaloPayOrderId != Some(TransactionId(now, random))
    requires transactionId != "" && !PaymentsRepo.TransactionIdTaken(db.payments, transactionId, -1)
    ensures
      var (after, (_, payment)) := PayByZaloPay(db, userId, orderId, description, newId, now, random, freshId).value;
      var settled := HandleZaloPayCallback(after, payment.transactionId, 1, transactionId, later);
      && settled.Ok?
      && settled.value.1 == payment.(status := Paid, transactionId := transactionId, updatedAt := later)
      && settled.value.0 == db.payments + [settled.value.1]
  {
    var (after, (_, payment)) := PayByZaloPay(db, userId, orderId, description, newId, now, random, freshId).value;
    SettleAppended(db.payments, payment, transactionId, later);
  }
}

=== FILE: payments_domain.dfy ===
/** The payment entity.  A payment belongs to an order and a user, records
    the amount, the method and a unique transaction id, and moves through
    the payment statuses; the ZaloPay path adds the gateway's order id and
    payment URL.  The same record stands for the stored document (its ids in
    printed form) and the domain object. */
module PaymentsDomain {
  import opened Common

  datatype PaymentStatus = Unpaid | Paid | Failed | Pending | Cancelled

  datatype PaymentMethod = Cash | ZaloPay

  datatype Payment = Payment(
    id: string,
    orderId: string,
    userId: string,
    amount: int,
    paymentMethod: PaymentMethod,
    transactionId: string,
    status: PaymentStatus,
    paymentUrl: Option<string>,
    zaloPayOrderId: Option<string>,
    description: Option<string>,
    createdAt: int,
    updatedAt: int,
    deletedAt: Option<int>)
}

=== FILE: payments_mapper.dfy ===
/** The payment mapper.  `toPersistence` copies the id only when it is a
    non-empty string (otherwise the database assigns one), converts the order
    and user ids to ObjectIds, and copies `deletedAt` only when it is set;
    `toDomain` prints the ids back and again copies `deletedAt` only when it
    is set. */
module PaymentsMapper {
  import opened Common
  import opened PaymentsDomain
  import ObjectIds

  /** What `toPersistence` returns: `_id` is absent unless the domain id
      was a non-empty string. */
  datatype PaymentPayload = PaymentPayload(
    id: Option<string>,
    orderId: string,
    userId: string,
    amount: int,
    paymentMethod: PaymentMethod,
    transactionId: string,
    status: PaymentStatus,
    paymentUrl: Option<string>,
    zaloPayOrderId: Option<string>,
    description: Option<string>,
    createdAt: int,
    updatedAt: int,
    deletedAt: Option<int>)

  function ToPersistence(p: Payment): (r: Result<PaymentPayload>)
    ensures r.Ok? <==> ObjectIds.IsValid(p.orderId) && ObjectIds.IsValid(p.userId)
    ensures r.Err? ==> r.error == Unhandled
    ensures r.Ok? ==> (r.value.id.Some? <==> p.id != "")
    ensures r.Ok? && p.id != "" ==> r.value.id == Some(p.id)
    ensures r.Ok? ==>
      r.value.orderId == ObjectIds.Canonical(p.orderId) && r.value.userId == ObjectIds.Canonical(p.userId)
  {
    var orderId :- ObjectIds.Parse(p.orderId);
    var userId :- ObjectIds.Parse(p.userId);
    Ok(PaymentPayload(
      if p.id != "" then Some(p.id) else None,
      orderId, userId, p.amount, p.paymentMethod, p.transactionId, p.status,
      p.paymentUrl, p.zaloPayOrderId, p.description, p.createdAt, p.updatedAt, p.deletedAt))
  }

  /** `toDomain` on a document read from the database, which always has an
      `_id`. */
  function ToDomain(raw: PaymentPayload): (p: Payment)
    requires raw.id.Some?
    ensures p.id == raw.id.value
  {
    Payment(
      raw.id.value, raw.orderId, raw.userId, raw.amount, raw.paymentMethod, raw.transactionId,
      raw.status, raw.paymentUrl, raw.zaloPayOrderId, raw.description, raw.createdAt, raw.updatedAt,
      raw.deletedAt)
  }

  /** Mapping a payment with an id to the database and back keeps every
      field, the order and user ids in printed form. */
  lemma PaymentRoundTrip(p: Payment)
    requires p.id != ""
    requires ObjectIds.IsValid(p.orderId) && ObjectIds.IsValid(p.userId)
    ensures ToPersistence(p).Ok? && ToPersistence(p).value.id.Some?
    ensures ToDomain(ToPersistence(p).value) ==
      p.(orderId := ObjectIds.Canonical(p.orderId), userId := ObjectIds.Canonical(p.userId))
  {
  }

  /** A payment whose ids are already printed comes back unchanged. */
  lemma CanonicalPaymentRoundTrip(p: Payment)
    requires p.id != ""
    requires ObjectIds.IsCanonical(p.orderId) && ObjectIds.IsCanonical(p.userId)
    ensures ToPersistence(p).Ok? && ToPersistence(p).value.id.Some?
    ensures ToDomain(ToPersistence(p).value) == p
  {
    ObjectIds.CanonicalOfCanonical(p.orderId);
    ObjectIds.CanonicalOfCanonical(p.userId);
  }

  /** The other direction: a stored document read and written back is the
      same document. */
  lemma PayloadRoundTrip(raw: PaymentPayload)
    requires raw.id.Some? && raw.id.value != ""
    requires ObjectIds.IsCanonical(raw.orderId) && ObjectIds.IsCanonical(raw.userId)
    ensures ToPersistence(ToDomain(raw)) == Ok(raw)
  {
    ObjectIds.CanonicalOfCanonical(raw.orderId);
    ObjectIds.CanonicalOfCanonical(raw.userId);
  }
}

=== FILE: payments_repo.dfy ===
/** The payment document repository.  The lookups and writes keyed by an
    id first check `Types.ObjectId.isValid` and answer a malformed id with
    null, [] or no effect instead of throwing; `update` merges the payload
    over the stored payment, never changing its id. */
module PaymentsRepo {
  import opened Common
  import opened Pagination
  import opened PaymentsDomain
  import opened PaymentsMapper
  import ObjectIds

  /** The schema's validators, run when a document is saved: the amount is
      at least 0 and the (required) transaction id is non-empty. */
  predicate IsValidDocument(p: Payment) {
    p.amount >= 0 && p.transactionId != ""
  }

  /** Some payment other than the one at `skip` holds the transaction id:
      the unique index on `transactionId` then rejects the write. */
  predicate TransactionIdTaken(payments: seq<Payment>, transactionId: string, skip: int) {
    exists j :: 0 <= j < |payments| && j != skip && payments[j].transactionId == transactionId
  }

  /** No two payments share a transaction id. */
  predicate UniqueTransactionIds(payments: seq<Payment>) {
    forall i, j :: 0 <= i < j < |payments| ==> payments[i].transactionId != payments[j].transactionId
  }

  /** `save()` of a new document: the validators run and the unique index
      is checked; the document is appended. */
  function SaveNew(payments: seq<Payment>, p: Payment): (r: Result<seq<Payment>>)
    ensures r.Err? ==> r.error == Unhandled
    ensures r.Ok? <==> IsValidDocument(p) && !TransactionIdTaken(payments, p.transactionId, -1)
    ensures r.Ok? ==> r.value == payments + [p]
    ensures r.Ok? && UniqueTransactionIds(payments) ==> UniqueTransactionIds(r.value)
  {
    if IsValidDocument(p) && !TransactionIdTaken(payments, p.transactionId, -1) then Ok(payments + [p])
    else Err(Unhandled)
  }

  /** `save()` of a document read from position `i` and modified: the
      required transaction id is checked (the amount, not modified, is
      not revalidated) and so is the unique index. */
  function SaveAt(payments: seq<Payment>, i: nat, p: Payment): (r: Result<seq<Payment>>)
    requires i < |payments|
    ensures r.Err? ==> r.error == Unhandled
    ensures r.Ok? <==> p.transactionId != "" && !TransactionIdTaken(payments, p.transactionId, i)
    ensures r.Ok? ==> r.value == payments[i := p]
    ensures r.Ok? && UniqueTransactionIds(payments) ==> UniqueTransactionIds(r.value)
  {
    if p.transactionId != "" && !TransactionIdTaken(payments, p.transactionId, i) then Ok(payments[i := p])
    else Err(Unhandled)
  }

  /** Saving a new document: given the id the database assigns when it has
      none, validated, and appended to the collection. */
  function Insert(payments: seq<Payment>, payload: PaymentPayload, newId: string)
    : (r: Result<(seq<Payment>, Payment)>)
    ensures r.Err? ==> r.error == Unhandled
    ensures r.Ok? <==>
      payload.amount >= 0 && payload.transactionId != "" &&
      !TransactionIdTaken(payments, payload.transactionId, -1)
    ensures r.Ok? ==> r.value.0 == payments + [r.value.1] && IsValidDocument(r.value.1)
    ensures r.Ok? ==> r.value.1.id == Pick(payload.id, newId)
    ensures r.Ok? && UniqueTransactionIds(payments) ==> UniqueTransactionIds(r.value.0)
  {
    var saved := ToDomain(payload.(id := Some(Pick(payload.id, newId))));
    var stored :- SaveNew(payments, saved);
    Ok((stored, saved))
  }

  /** What `create` is handed: a payment without id and timestamps. */
  datatype PaymentDraft = PaymentDraft(
    orderId: string,
    userId: string,
    amount: int,
    paymentMethod: PaymentMethod,
    transactionId: string,
    status: PaymentStatus,
    paymentUrl: Option<string>,
    zaloPayOrderId: Option<string>,
    description: Option<string>)

  /** `create`: map `{ ...data, id: '', createdAt: now, updatedAt: now }`,
      save it, and read it back. */
  function Create(payments: seq<Payment>, data: PaymentDraft, newId: string, now: int)
    : (r: Result<(seq<Payment>, Payment)>)
    ensures r.Err? ==> r.error == Unhandled
    ensures r.Ok? <==>
      ObjectIds.IsValid(data.orderId) && ObjectIds.IsValid(data.userId) &&
      data.amount >= 0 && data.transactionId != "" && !TransactionIdTaken(payments, data.transactionId, -1)
    ensures r.Ok? ==>
      && r.value.0 == payments + [r.value.1]
      && r.value.1 == Payment(
           newId, ObjectIds.Canonical(data.orderId), ObjectIds.Canonical(data.userId), data.amount,
           data.paymentMethod, data.transactionId, data.status, data.paymentUrl, data.zaloPayOrderId,
           data.description, now, now, None)
  {
    var payload :- ToPersistence(Payment(
      "", data.orderId, data.userId, data.amount, data.paymentMethod, data.transactionId, data.status,
      data.paymentUrl, data.zaloPayOrderId, data.description, now, now, None));
    Insert(payments, payload, newId)
  }

  /** Position of the payment with that id (in printed form). */
  function IdIndex(payments: seq<Payment>, key: string): (r: Option<nat>)
    ensures r.Some? ==> r.value < |payments| && payments[r.value].id == key
    ensures r.Some? ==> forall j :: 0 <= j < r.value ==> payments[j].id != key
    ensures r.None? <==> forall j :: 0 <= j < |payments| ==> payments[j].id != key
  {
    FindIndex(payments, (p: Payment) => p.id == key)
  }

  /** `findById`: null for a malformed id, without a query. */
  function FindById(payments: seq<Payment>, id: string): (r: Option<Payment>)
    ensures !ObjectIds.IsValid(id) ==> r.None?
    ensures r.Some? ==> r.value in payments && r.value.id == ObjectIds.Canonical(id)
    ensures ObjectIds.IsValid(id) && r.None? ==>
      forall j :: 0 <= j < |payments| ==> payments[j].id != ObjectIds.Canonical(id)
  {
    if !ObjectIds.IsValid(id) then None
    else
      match IdIndex(payments, ObjectIds.Canonical(id))
      case None => None
      case Some(i) => Some(payments[i])
  }

  /** `findByOrderId`: [] for a malformed id; otherwise exactly the
      payments of that order, in collection order. */
  function FindByOrderId(payments: seq<Payment>, orderId: string): (r: seq<Payment>)
    ensures !ObjectIds.IsValid(orderId) ==> r == []
    ensures forall k :: 0 <= k < |r| ==> r[k] in payments && r[k].orderId == ObjectIds.Canonical(orderId)
    ensures ObjectIds.IsValid(orderId) ==>
      forall j :: 0 <= j < |payments| && payments[j].orderId == ObjectIds.Canonical(orderId) ==> payments[j] in r
  {
    if !ObjectIds.IsValid(orderId) then []
    else Filter(payments, (p: Payment) => p.orderId == ObjectIds.Canonical(orderId))
  }

  /** `findByUserId`: [] for a malformed id; otherwise exactly the user's
      payments, in collection order. */
  function FindByUserId(payments: seq<Payment>, userId: string): (r: seq<Payment>)
    ensures !ObjectIds.IsValid(userId) ==> r == []
    ensures forall k :: 0 <= k < |r| ==> r[k] in payments && r[k].userId == ObjectIds.Canonical(userId)
    ensures ObjectIds.IsValid(userId) ==>
      forall j :: 0 <= j < |payments| && payments[j].userId == ObjectIds.Canonical(userId) ==> payments[j] in r
  {
    if !ObjectIds.IsValid(userId) then []
    else Filter(payments, (p: Payment) => p.userId == ObjectIds.Canonical(userId))
  }

  /** `findByTransactionId`: the first payment with that transaction id. */
  function FindByTransactionId(payments: seq<Payment>, transactionId: string): (r: Option<Payment>)
    ensures r.Some? ==> r.value in payments && r.value.transactionId == transactionId
    ensures r.None? <==> forall j :: 0 <= j < |payments| ==> payments[j].transactionId != transactionId
  {
    match FindIndex(payments, (p: Payment) => p.transactionId == transactionId)
    case None => None
    case Some(i) => Some(payments[i])
  }

  /** Position of the first payment carrying that gateway order id. */
  function GatewayIndex(payments: seq<Payment>, zaloPayOrderId: string): (r: Option<nat>)
    ensures r.Some? ==> r.value < |payments| && payments[r.value].zaloPayOrderId == Some(zaloPayOrderId)
    ensures r.Some? ==> forall j :: 0 <= j < r.value ==> payments[j].zaloPayOrderId != Some(zaloPayOrderId)
    ensures r.None? <==> forall j :: 0 <= j < |payments| ==> payments[j].zaloPayOrderId != Some(zaloPayOrderId)
  {
    FindIndex(payments, (p: Payment) => p.zaloPayOrderId == Some(zaloPayOrderId))
  }

  /** `findByZaloPayOrderId`: the first payment with that gateway order id. */
  function FindByZaloPayOrderId(payments: seq<Payment>, zaloPayOrderId: string): (r: Option<Payment>)
    ensures r.Some? ==> r.value in payments && r.value.zaloPayOrderId == Some(zaloPayOrderId)
    ensures r.None? <==> forall j :: 0 <= j < |payments| ==> payments[j].zaloPayOrderId != Some(zaloPayOrderId)
  {
    match GatewayIndex(payments, zaloPayOrderId)
    case None => None
    case Some(i) => Some(payments[i])
  }

  /** `findManyWithPagination`: no filter, no sort, the requested page. */
  function FindManyWithPagination(payments: seq<Payment>, page: int, limit: int): (r: seq<Payment>)
    requires page >= 1 && limit >= 1
    ensures |r| <= limit
    ensures r == [] || Offset(page, limit) + |r| <= |payments|
    ensures |r| == if |payments| <= Offset(page, limit) then 0 else Min(limit, |payments| - Offset(page, limit))
    ensures forall k :: 0 <= k < |r| ==> r[k] == payments[Offset(page, limit) + k]
  {
    Paginate(payments, page, limit)
  }

  /** `DeepPartial<Payment>`: any field may be given, the id included. */
  datatype PaymentPatch = PaymentPatch(
    id: Option<string>,
    orderId: Option<string>,
    userId: Option<string>,
    amount: Option<int>,
    paymentMethod: Option<PaymentMethod>,
    transactionId: Option<string>,
    status: Option<PaymentStatus>,
    paymentUrl: Option<string>,
    zaloPayOrderId: Option<string>,
    description: Option<string>,
    createdAt: Option<int>,
    updatedAt: Option<int>,
    deletedAt: Option<int>)

  /** `{ ...toDomain(payment), ...payload, updatedAt: now }` after
      `delete payload.id`, as the update stores it: with timestamps on, the
      schema's `createdAt` is immutable, so a patch's `createdAt` is
      dropped from the update and the stored one kept. */
  function Merge(p: Payment, patch: PaymentPatch, now: int): (m: Payment)
    ensures m.id == p.id && m.updatedAt == now
    ensures m.createdAt == p.createdAt
    ensures patch.status.None? ==> m.status == p.status
    ensures patch.amount.None? ==> m.amount == p.amount
    ensures patch.transactionId.None? ==> m.transactionId == p.transactionId
    ensures patch.orderId.None? ==> m.orderId == p.orderId
    ensures patch.userId.None? ==> m.userId == p.userId
  {
    Payment(
      p.id,
      Pick(patch.orderId, p.orderId),
      Pick(patch.userId, p.userId),
      Pick(patch.amount, p.amount),
      Pick(patch.paymentMethod, p.paymentMethod),
      Pick(patch.transactionId, p.transactionId),
      Pick(patch.status, p.status),
      PickOptional(patch.paymentUrl, p.paymentUrl),
      PickOptional(patch.zaloPayOrderId, p.zaloPayOrderId),
      PickOptional(patch.description, p.description),
      p.createdAt,
      now,
      PickOptional(patch.deletedAt, p.deletedAt))
  }

  /** An empty patch changes nothing but `updatedAt`. */
  lemma MergeEmpty(p: Payment, now: int)
    ensures Merge(p, PaymentPatch(None, None, None, None, None, None, None, None, None, None, None, None, None), now)
      == p.(updatedAt := now)
  {
  }

  /** `update`: null for a malformed id or a missing payment; otherwise the
      merged payment written over the stored one (its ids converted) and
      read back.  The stored payment keeps its id whatever the payload. */
  function Update(payments: seq<Payment>, id: string, patch: PaymentPatch, now: int)
    : (r: Result<(seq<Payment>, Option<Payment>)>)
    ensures !ObjectIds.IsValid(id) ==> r == Ok((payments, None))
    ensures r.Err? ==> r.error == Unhandled
    ensures r.Ok? && r.value.1.None? ==> r.value.0 == payments
    ensures ObjectIds.IsValid(id) ==>
      match IdIndex(payments, ObjectIds.Canonical(id))
      case None => r == Ok((payments, None))
      case Some(i) =>
        var m := Merge(payments[i], patch, now);
        && (r.Ok? <==>
             ObjectIds.IsValid(m.orderId) && ObjectIds.IsValid(m.userId) &&
             !TransactionIdTaken(payments, m.transactionId, i))
        && (r.Ok? ==>
             var stored := m.(orderId := ObjectIds.Canonical(m.orderId), userId := ObjectIds.Canonical(m.userId));
             r.value == (payments[i := stored], Some(stored)))
  {
    if !ObjectIds.IsValid(id) then Ok((payments, None))
    else
      match IdIndex(payments, ObjectIds.Canonical(id))
      case None => Ok((payments, None))
      case Some(i) =>
        var merged := Merge(payments[i], patch, now);
        var payload :- ToPersistence(merged);
        var stored := ToDomain(payload.(id := Some(payments[i].id)));
        if TransactionIdTaken(payments, stored.transactionId, i) then Err(Unhandled)
        else Ok((payments[i := stored], Some(stored)))
  }

  /** Updates keep transaction ids unique. */
  lemma UpdateKeepsUnique(payments: seq<Payment>, id: string, patch: PaymentPatch, now: int)
    requires UniqueTransactionIds(payments)
    requires Update(payments, id, patch, now).Ok?
    ensures UniqueTransactionIds(Update(payments, id, patch, now).value.0)
  {
  }

  /** An update never changes the stored payment's id or creation time,
      whatever the payload carries, and leaves every other payment as it
      was. */
  lemma UpdateKeepsIds(payments: seq<Payment>, id: string, patch: PaymentPatch, now: int)
    requires Update(payments, id, patch, now).Ok?
    ensures |Update(payments, id, patch, now).value.0| == |payments|
    ensures forall j :: 0 <= j < |payments| ==> Update(payments, id, patch, now).value.0[j].id == payments[j].id
    ensures forall j :: 0 <= j < |payments| ==>
      Update(payments, id, patch, now).value.0[j].createdAt == payments[j].createdAt
    ensures forall j :: 0 <= j < |payments| && (!ObjectIds.IsValid(id) || payments[j].id != ObjectIds.Canonical(id)) ==>
      Update(payments, id, patch, now).value.0[j] == payments[j]
  {
  }

  /** `remove`: nothing for a malformed id; otherwise `deleteOne` removes
      the payment with that id, if any. */
  function Remove(payments: seq<Payment>, id: string): (r: seq<Payment>)
    ensures !ObjectIds.IsValid(id) ==> r == payments
    ensures ObjectIds.IsValid(id) ==> match IdIndex(payments, ObjectIds.Canonical(id))
      case None => r == payments
      case Some(i) => r == payments[..i] + payments[i + 1..]
  {
    if !ObjectIds.IsValid(id) then payments
    else
      match IdIndex(payments, ObjectIds.Canonical(id))
      case None => payments
      case Some(i) => payments[..i] + payments[i + 1..]
  }
}

=== FILE: products.dfy ===
/** The product document repository: the catalog the order service prices
    items from, its filtered and paginated listing, lookup by one or many
    ids, and partial update. */
module ProductsRepo {
  import opened Common
  import opened Sorting
  import opened Pagination
  import ObjectIds

  datatype Product = Product(
    id: string,
    name: string,
    description: Option<string>,
    price: int,
    categoryId: string,
    brand: Option<string>,
    countryOfManufacture: Option<string>,
    rating: Option<int>,
    stock: Option<int>,
    createdAt: Option<int>,
    updatedAt: Option<int>)

  /** The listing's filter.  Every entry is optional; string and number
      entries constrain only when truthy. */
  datatype ProductFilter = ProductFilter(
    categoryId: Option<string>,
    name: Option<string>,
    price: Option<int>,
    brand: Option<string>,
    countryOfManufacture: Option<string>,
    description: Option<string>,
    rating: Option<int>,
    stock: Option<int>,
    createdAt: Option<int>,
    updatedAt: Option<int>)

  /** `{ $gte: v, $lte: v }` on an optional field. */
  predicate InRange(field: Option<int>, low: int, high: int) {
    field.Some? && low <= field.value <= high
  }

  /** The query document the listing builds, applied to one product, once
      the category id has been converted (`category`). */
  predicate Matches(p: Product, f: ProductFilter, category: Option<string>, test: RegexTest) {
    && (category.Some? ==> p.categoryId == category.value)
    && RegexCondition(f.name, Some(p.name), test)
    && (IsGivenNumber(f.price) ==> p.price == f.price.value)
    && RegexCondition(f.brand, p.brand, test)
    && RegexCondition(f.countryOfManufacture, p.countryOfManufacture, test)
    && RegexCondition(f.description, p.description, test)
    && (IsGivenNumber(f.rating) ==> InRange(p.rating, f.rating.value, f.rating.value))
    && (IsGivenNumber(f.stock) ==> InRange(p.stock, f.stock.value, f.stock.value))
    && (f.createdAt.Some? ==> InRange(p.createdAt, f.createdAt.value, f.createdAt.value))
    && (f.updatedAt.Some? ==> InRange(p.updatedAt, f.updatedAt.value, f.updatedAt.value))
  }

  /** `new Types.ObjectId(filterOptions.categoryId)` when the entry is truthy. */
  function CategoryCondition(f: ProductFilter): (r: Result<Option<string>>)
    ensures r.Err? <==> IsGivenText(f.categoryId) && !ObjectIds.IsValid(f.categoryId.value)
    ensures r.Ok? ==> (r.value.Some? <==> IsGivenText(f.categoryId))
    ensures r.Ok? && r.value.Some? ==> r.value.value == ObjectIds.Canonical(f.categoryId.value)
  {
    if IsGivenText(f.categoryId) then
      var id :- ObjectIds.Parse(f.categoryId.value);
      Ok(Some(id))
    else Ok(None)
  }

  /** The products the listing's query selects, in collection order, once
      the category id has been converted (`category`). */
  function Listed(products: seq<Product>, f: ProductFilter, category: Option<string>, test: RegexTest)
    : (r: seq<Product>)
    ensures forall i :: 0 <= i < |r| ==> r[i] in products && Matches(r[i], f, category, test)
    ensures forall i :: 0 <= i < |products| && Matches(products[i], f, category, test) ==> products[i] in r
  {
    Filter(products, p => Matches(p, f, category, test))
  }

  /** `findManyWithPagination`: the products matching the filter, the sort
      stage of the options, and the requested page of the matches. */
  function FindManyWithPagination(
    products: seq<Product>, f: ProductFilter, options: seq<SortOption>,
    page: int, limit: int, test: RegexTest): (r: Result<Page<Product>>)
    requires page >= 1 && limit >= 1
    ensures r.Err? <==> IsGivenText(f.categoryId) && !ObjectIds.IsValid(f.categoryId.value)
    ensures r.Err? ==> r.error == Unhandled
    ensures r.Ok? ==> r.value.sort == ProductSortStage(options)
    ensures r.Ok? ==> |r.value.items| <= limit
    ensures r.Ok? ==> forall i :: 0 <= i < |r.value.items| ==>
      r.value.items[i] in products && Matches(r.value.items[i], f, CategoryCondition(f).value, test)
    ensures r.Ok? ==> r.value.items == Paginate(Listed(products, f, CategoryCondition(f).value, test), page, limit)
  {
    var category :- CategoryCondition(f);
    Ok(Page(ProductSortStage(options), Paginate(Listed(products, f, category, test), page, limit)))
  }

  /** A filter none of whose entries is truthy (all absent, zero or empty). */
  predicate IsVacuous(f: ProductFilter) {
    && !IsGivenText(f.categoryId) && !IsGivenText(f.name) && !IsGivenNumber(f.price)
    && !IsGivenText(f.brand) && !IsGivenText(f.countryOfManufacture) && !IsGivenText(f.description)
    && !IsGivenNumber(f.rating) && !IsGivenNumber(f.stock)
    && f.createdAt.None? && f.updatedAt.None?
  }

  /** Falsy entries impose nothing: with a vacuous filter the listing pages
      over the whole collection. */
  lemma VacuousFilterKeepsAll(
    products: seq<Product>, f: ProductFilter, options: seq<SortOption>,
    page: int, limit: int, test: RegexTest)
    requires page >= 1 && limit >= 1
    requires IsVacuous(f)
    ensures FindManyWithPagination(products, f, options, page, limit, test)
      == Ok(Page(ProductSortStage(options), Paginate(products, page, limit)))
  {
    FilterAll(products, p => Matches(p, f, None, test));
    assert Listed(products, f, None, test) == products;
  }

  /** The number entries are equality tests: price directly, rating and stock
      through the one-point range [v, v]. */
  lemma NumberEntriesAreEquality(p: Product, f: ProductFilter, category: Option<string>, test: RegexTest)
    requires Matches(p, f, category, test)
    ensures IsGivenNumber(f.price) ==> p.price == f.price.value
    ensures IsGivenNumber(f.rating) ==> p.rating == f.rating
    ensures IsGivenNumber(f.stock) ==> p.stock == f.stock
  {
  }

  /** Position of the first product with that id, if any. */
  function IndexOf(products: seq<Product>, key: string): (r: Option<nat>)
    ensures r.Some? ==> r.value < |products| && products[r.value].id == key
    ensures r.Some? ==> forall j :: 0 <= j < r.value ==> products[j].id != key
    ensures r.None? <==> forall j :: 0 <= j < |products| ==> products[j].id != key
  {
    FindIndex(products, (p: Product) => p.id == key)
  }

  /** `findById`: the id is cast to an ObjectId (a malformed one makes the
      driver throw); the first product with that id, or null. */
  function FindById(products: seq<Product>, id: string): (r: Result<Option<Product>>)
    ensures r.Err? <==> !ObjectIds.IsValid(id)
    ensures r.Ok? && r.value.Some? ==> r.value.value in products && r.value.value.id == ObjectIds.Canonical(id)
    ensures r.Ok? && r.value.None? ==>
      forall i :: 0 <= i < |products| ==> products[i].id != ObjectIds.Canonical(id)
  {
    var key :- ObjectIds.Parse(id);
    match IndexOf(products, key)
    case None => Ok(None)
    case Some(i) => Ok(Some(products[i]))
  }

  /** The canonical forms of the ids, failing on the first malformed one. */
  function ParseAll(ids: seq<string>): (r: Result<seq<string>>)
    ensures r.Err? <==> exists i :: 0 <= i < |ids| && !ObjectIds.IsValid(ids[i])
    ensures r.Ok? ==> |r.value| == |ids|
    ensures r.Ok? ==> forall i :: 0 <= i < |ids| ==> r.value[i] == ObjectIds.Canonical(ids[i])
  {
    if |ids| == 0 then Ok([])
    else
      var head :- ObjectIds.Parse(ids[0]);
      var tail :- ParseAll(ids[1..]);
      Ok([head] + tail)
  }

  /** `findByIds`: `{ _id: { $in: ids } }` — exactly the products whose id is
      one of the given ids, in collection order. */
  function FindByIds(products: seq<Product>, ids: seq<string>): (r: Result<seq<Product>>)
    ensures r.Err? <==> exists i :: 0 <= i < |ids| && !ObjectIds.IsValid(ids[i])
    ensures r.Ok? ==> forall i :: 0 <= i < |r.value| ==>
      r.value[i] in products && exists k :: 0 <= k < |ids| && r.value[i].id == ObjectIds.Canonical(ids[k])
    ensures r.Ok? ==> forall i, k ::
      (0 <= i < |products| && 0 <= k < |ids| && products[i].id == ObjectIds.Canonical(ids[k]))
        ==> products[i] in r.value
  {
    var keys :- ParseAll(ids);
    Ok(Filter(products, (p: Product) => p.id in keys))
  }

  /** The fields a `$set` update may carry. */
  datatype ProductPatch = ProductPatch(
    name: Option<string>,
    description: Option<string>,
    price: Option<int>,
    categoryId: Option<string>,
    brand: Option<string>,
    countryOfManufacture: Option<string>,
    rating: Option<int>,
    stock: Option<int>)

  /** `$set: payload` on one product; the schema's timestamps refresh
      `updatedAt`. */
  function ApplyPatch(p: Product, patch: ProductPatch, category: string, now: int): (q: Product)
    ensures q.id == p.id
    ensures q.createdAt == p.createdAt && q.updatedAt == Some(now)
    ensures patch.name.None? ==> q.name == p.name
    ensures patch.name.Some? ==> q.name == patch.name.value
    ensures patch.price.None? ==> q.price == p.price
    ensures patch.price.Some? ==> q.price == patch.price.value
    ensures q.categoryId == category
    ensures q.description == (if patch.description.Some? then patch.description else p.description)
    ensures q.brand == (if patch.brand.Some? then patch.brand else p.brand)
    ensures q.countryOfManufacture ==
      (if patch.countryOfManufacture.Some? then patch.countryOfManufacture else p.countryOfManufacture)
    ensures q.rating == (if patch.rating.Some? then patch.rating else p.rating)
    ensures q.stock == (if patch.stock.Some? then patch.stock else p.stock)
  {
    Product(
      p.id,
      Pick(patch.name, p.name),
      PickOptional(patch.description, p.description),
      Pick(patch.price, p.price),
      category,
      PickOptional(patch.brand, p.brand),
      PickOptional(patch.countryOfManufacture, p.countryOfManufacture),
      PickOptional(patch.rating, p.rating),
      PickOptional(patch.stock, p.stock),
      p.createdAt,
      Some(now))
  }

  /** The patch's category id cast to an ObjectId, when the patch sets it. */
  function CastCategory(patch: ProductPatch): (r: Result<Option<string>>)
    ensures r.Err? <==> patch.categoryId.Some? && !ObjectIds.IsValid(patch.categoryId.value)
    ensures r.Err? ==> r.error == Unhandled
    ensures r.Ok? ==> (r.value.Some? <==> patch.categoryId.Some?)
    ensures r.Ok? && r.value.Some? ==> r.value.value == ObjectIds.Canonical(patch.categoryId.value)
  {
    match patch.categoryId
    case None => Ok(None)
    case Some(c) =>
      var key :- ObjectIds.Parse(c);
      Ok(Some(key))
  }

  /** `update`: `findByIdAndUpdate(id, { $set: payload }, { new: true })`.
      Mongoose casts the id and the update before the query runs, so a
      malformed id or a malformed category id in the patch throws whether or
      not the product exists.  A missing product gives null and leaves the
      collection as it was; otherwise the first product with that id is
      replaced by the patched one, which is returned. */
  function Update(products: seq<Product>, id: string, patch: ProductPatch, now: int)
    : (r: Result<(seq<Product>, Option<Product>)>)
    ensures r.Err? <==>
      !ObjectIds.IsValid(id) || (patch.categoryId.Some? && !ObjectIds.IsValid(patch.categoryId.value))
    ensures r.Err? ==> r.error == Unhandled
    ensures r.Ok? && IndexOf(products, ObjectIds.Canonical(id)).None? ==> r.value == (products, None)
    ensures r.Ok? && IndexOf(products, ObjectIds.Canonical(id)).Some? ==>
      var i := IndexOf(products, ObjectIds.Canonical(id)).value;
      var category :=
        if patch.categoryId.Some? then ObjectIds.Canonical(patch.categoryId.value) else products[i].categoryId;
      var q := ApplyPatch(products[i], patch, category, now);
      r.value == (products[i := q], Some(q))
    ensures r.Ok? && r.value.1.None? ==>
      r.value.0 == products &&
      forall i :: 0 <= i < |products| ==> products[i].id != ObjectIds.Canonical(id)
    ensures r.Ok? && r.value.1.Some? ==>
      |r.value.0| == |products| &&
      exists i :: 0 <= i < |products| && products[i].id == ObjectIds.Canonical(id) &&
        r.value.0 == products[i := r.value.1.value] &&
        r.value.1.value.id == products[i].id
  {
    var key :- ObjectIds.Parse(id);
    var given :- CastCategory(patch);
    match IndexOf(products, key)
    case None => Ok((products, None))
    case Some(i) =>
      var category := if given.Some? then given.value else products[i].categoryId;
      var updated := ApplyPatch(products[i], patch, category, now);
      Ok((products[i := updated], Some(updated)))
  }
}

=== FILE: sorting.dfy ===
/** Sort stages.  The repositories turn a list of requested sort options
    into a JavaScript object mapping field names to 1 (ascending) or -1
    (descending), either with `reduce` over `{...acc, [field]: dir}` (orders,
    carts) or by assigning `sort[field] = dir` in a loop (products).  Both
    build the object by property assignment, so a field named twice keeps the
    position of its first mention and the direction of its last one.  The
    stage is modelled as the ordered list of its entries. */
module Sorting {
  import opened Common
  import Text

  datatype Direction = Ascending | Descending

  /** One entry of a sort stage. */
  datatype SortKey = SortKey(field: string, direction: Direction)

  /** One requested sort option: the field and the direction as given. */
  datatype SortOption = SortOption(field: string, order: string)

  function Fields(stage: seq<SortKey>): (r: seq<string>)
    ensures |r| == |stage|
    ensures forall i :: 0 <= i < |stage| ==> r[i] == stage[i].field
  {
    if |stage| == 0 then [] else Fields(stage[..|stage| - 1]) + [stage[|stage| - 1].field]
  }

  predicate DistinctFields(stage: seq<SortKey>) {
    forall i, j :: 0 <= i < j < |stage| ==> stage[i].field != stage[j].field
  }

  /** Property assignment on an object: an existing key keeps its position
      and takes the new value; a new key goes last. */
  function Assign(stage: seq<SortKey>, key: SortKey): (r: seq<SortKey>)
    ensures key.field in Fields(stage) ==> Fields(r) == Fields(stage)
    ensures key.field !in Fields(stage) ==> Fields(r) == Fields(stage) + [key.field]
    ensures DistinctFields(stage) ==> DistinctFields(r)
    ensures DistinctFields(stage) ==>
      forall i :: 0 <= i < |r| ==> if r[i].field == key.field then r[i] == key else r[i] == stage[i]
  {
    match FindIndex(stage, (k: SortKey) => k.field == key.field)
    case Some(i) =>
      assert Fields(stage[i := key]) == Fields(stage);
      stage[i := key]
    case None =>
      assert Fields(stage + [key]) == Fields(stage) + [key.field];
      stage + [key]
  }

  /** The stage built from the keys, assigned left to right. */
  function Build(keys: seq<SortKey>): seq<SortKey> {
    if |keys| == 0 then [] else Assign(Build(keys[..|keys| - 1]), keys[|keys| - 1])
  }

  /** The fields in order of first mention, without repeats. */
  function FirstMentions(fields: seq<string>): seq<string> {
    if |fields| == 0 then []
    else
      var init := fields[..|fields| - 1];
      if fields[|fields| - 1] in init then FirstMentions(init)
      else FirstMentions(init) + [fields[|fields| - 1]]
  }

  /** The direction of the last key naming `field`, if any does. */
  function LastDirection(keys: seq<SortKey>, field: string): Option<Direction> {
    if |keys| == 0 then None
    else if keys[|keys| - 1].field == field then Some(keys[|keys| - 1].direction)
    else LastDirection(keys[..|keys| - 1], field)
  }

  lemma {:induction false} FirstMentionsMembers(fields: seq<string>)
    ensures forall f :: f in FirstMentions(fields) <==> f in fields
  {
    if |fields| > 0 {
      var init := fields[..|fields| - 1];
      FirstMentionsMembers(init);
      assert fields == init + [fields[|fields| - 1]];
    }
  }

  /** The stage names each field once, in order of first mention. */
  lemma {:induction false} BuildFields(keys: seq<SortKey>)
    ensures Fields(Build(keys)) == FirstMentions(Fields(keys))
    ensures DistinctFields(Build(keys))
  {
    if |keys| > 0 {
      var init := keys[..|keys| - 1];
      BuildFields(init);
      assert Fields(keys)[..|keys| - 1] == Fields(init);
      FirstMentionsMembers(Fields(init));
    }
  }

  /** Each field of the stage carries the direction of the last key that
      names it. */
  lemma {:induction false} BuildDirections(keys: seq<SortKey>)
    ensures forall i :: 0 <= i < |Build(keys)| ==>
      LastDirection(keys, Build(keys)[i].field) == Some(Build(keys)[i].direction)
  {
    if |keys| > 0 {
      var init := keys[..|keys| - 1];
      BuildDirections(init);
      BuildFields(init);
    }
  }

  /** The order and cart repositories' mapping: field 'id' is the document
      key '_id'. */
  function DocumentField(field: string): (r: string)
    ensures field == "id" ==> r == "_id"
    ensures field != "id" ==> r == field
  {
    if field == "id" then "_id" else field
  }

  /** The order and cart repositories' direction: ascending when the order
      upper-cases to "ASC", descending for anything else. */
  function UpperCaseDirection(order: string): Direction {
    if Text.ToUpper(order) == "ASC" then Ascending else Descending
  }

  /** Ascending exactly for the eight spellings of "asc" in mixed case. */
  lemma UpperCaseDirectionAscending(order: string)
    ensures UpperCaseDirection(order) == Ascending <==>
      |order| == 3 && order[0] in "aA" && order[1] in "sS" && order[2] in "cC"
  {
    var u := Text.ToUpper(order);
    if UpperCaseDirection(order) == Ascending {
      assert u[0] == 'A' && u[1] == 'S' && u[2] == 'C';
    }
    if |order| == 3 && order[0] in "aA" && order[1] in "sS" && order[2] in "cC" {
      assert u == "ASC";
    }
  }

  /** The product repository's direction: descending only for exactly
      "desc", ascending for anything else. */
  function ProductDirection(order: string): Direction {
    if order == "desc" then Descending else Ascending
  }

  /** The keys the options ask for, before they are assigned into a stage:
      each option's field renamed and its order string turned into a
      direction. */
  function Keys(options: seq<SortOption>, rename: string -> string, dir: string -> Direction): (r: seq<SortKey>)
    ensures |r| == |options|
    ensures forall i :: 0 <= i < |options| ==>
      r[i] == SortKey(rename(options[i].field), dir(options[i].order))
  {
    if |options| == 0 then []
    else
      var last := options[|options| - 1];
      Keys(options[..|options| - 1], rename, dir) + [SortKey(rename(last.field), dir(last.order))]
  }

  /** The order string of the last option whose renamed field is `field`. */
  function LastOrder(options: seq<SortOption>, field: string, rename: string -> string): Option<string> {
    if |options| == 0 then None
    else if rename(options[|options| - 1].field) == field then Some(options[|options| - 1].order)
    else LastOrder(options[..|options| - 1], field, rename)
  }

  /** The stage built from the options: every field named once, in order of
      first mention, with the direction the last option naming it asked for. */
  lemma {:induction false} StageFromOptions(options: seq<SortOption>, rename: string -> string, dir: string -> Direction)
    ensures Fields(Build(Keys(options, rename, dir))) == FirstMentions(Fields(Keys(options, rename, dir)))
    ensures DistinctFields(Build(Keys(options, rename, dir)))
    ensures forall i :: 0 <= i < |Build(Keys(options, rename, dir))| ==>
      var e := Build(Keys(options, rename, dir))[i];
      LastOrder(options, e.field, rename).Some? && e.direction == dir(LastOrder(options, e.field, rename).value)
  {
    var keys := Keys(options, rename, dir);
    BuildFields(keys);
    BuildDirections(keys);
    forall field
      ensures LastDirection(keys, field) ==
        match LastOrder(options, field, rename)
        case None => None
        case Some(o) => Some(dir(o))
    {
      LastDirectionOfKeys(options, rename, dir, field);
    }
  }

  lemma {:induction false} LastDirectionOfKeys(options: seq<SortOption>, rename: string -> string, dir: string -> Direction, field: string)
    ensures LastDirection(Keys(options, rename, dir), field) ==
      match LastOrder(options, field, rename)
      case None => None
      case Some(o) => Some(dir(o))
  {
    if |options| > 0 {
      var keys := Keys(options, rename, dir);
      assert keys[..|keys| - 1] == Keys(options[..|options| - 1], rename, dir);
      LastDirectionOfKeys(options[..|options| - 1], rename, dir, field);
    }
  }

  function Identity(field: string): string {
    field
  }

  /** The sort stage of the order and cart queries (no options, no sort). */
  function OrderSortStage(options: seq<SortOption>): seq<SortKey> {
    Build(Keys(options, DocumentField, UpperCaseDirection))
  }

  /** The sort stage of the product query (no options, no sort). */
  function ProductSortStage(options: seq<SortOption>): seq<SortKey> {
    Build(Keys(options, Identity, ProductDirection))
  }

  /** In a product sort stage a field is descending exactly when the last
      option naming it asked for exactly "desc". */
  lemma ProductStageDirections(options: seq<SortOption>)
    ensures forall i :: 0 <= i < |ProductSortStage(options)| ==>
      var e := ProductSortStage(options)[i];
      LastOrder(options, e.field, Identity).Some? &&
      (e.direction == Descending <==> LastOrder(options, e.field, Identity).value == "desc")
  {
    StageFromOptions(options, Identity, ProductDirection);
  }

  /** In an order or cart sort stage a field is ascending exactly when the
      last option naming it asked for "asc" in any letter case. */
  lemma OrderStageDirections(options: seq<SortOption>)
    ensures forall i :: 0 <= i < |OrderSortStage(options)| ==>
      var e := OrderSortStage(options)[i];
      LastOrder(options, e.field, DocumentField).Some? &&
      (e.direction == Ascending <==> Text.ToUpper(LastOrder(options, e.field, DocumentField).value) == "ASC")
  {
    StageFromOptions(options, DocumentField, UpperCaseDirection);
  }
}

=== FILE: text.dfy ===
/** String helpers the core relies on: ASCII case mapping (what
    `toUpperCase` / `toLowerCase` do on the ASCII letters), the decimal
    rendering of integers that template literals produce, and joining and
    splitting on a one-character separator. */
module Text {

  predicate IsLowerLetter(c: char) {
    'a' <= c <= 'z'
  }

  predicate IsUpperLetter(c: char) {
    'A' <= c <= 'Z'
  }

  predicate IsDigit(c: char) {
    '0' <= c <= '9'
  }

  function UpperChar(c: char): (r: char)
    ensures !IsLowerLetter(r)
    ensures IsLowerLetter(c) ==> r as int == c as int - 32
    ensures !IsLowerLetter(c) ==> r == c
  {
    if IsLowerLetter(c) then (c as int - 32) as char else c
  }

  function LowerChar(c: char): (r: char)
    ensures !IsUpperLetter(r)
    ensures IsUpperLetter(c) ==> r as int == c as int + 32
    ensures !IsUpperLetter(c) ==> r == c
  {
    if IsUpperLetter(c) then (c as int + 32) as char else c
  }

  function ToUpper(s: string): (r: string)
    ensures |r| == |s|
    ensures forall i :: 0 <= i < |s| ==> r[i] == UpperChar(s[i])
  {
    if |s| == 0 then "" else [UpperChar(s[0])] + ToUpper(s[1..])
  }

  function ToLower(s: string): (r: string)
    ensures |r| == |s|
    ensures forall i :: 0 <= i < |s| ==> r[i] == LowerChar(s[i])
  {
    if |s| == 0 then "" else [LowerChar(s[0])] + ToLower(s[1..])
  }

  /** Upper-casing leaves no lower-case ASCII letter behind. */
  lemma ToUpperHasNoLowerCase(s: string)
    ensures forall i :: 0 <= i < |ToUpper(s)| ==> !IsLowerLetter(ToUpper(s)[i])
  {
  }

  /** Upper-casing distributes over concatenation. */
  lemma ToUpperAppend(a: string, b: string)
    ensures ToUpper(a + b) == ToUpper(a) + ToUpper(b)
  {
    var l, r := ToUpper(a + b), ToUpper(a) + ToUpper(b);
    assert |l| == |r|;
    forall i | 0 <= i < |l|
      ensures l[i] == r[i]
    {
      if i < |a| {
        assert (a + b)[i] == a[i];
      } else {
        assert (a + b)[i] == b[i - |a|];
      }
    }
  }

  function DigitChar(d: nat): (c: char)
    requires d < 10
    ensures IsDigit(c)
    ensures c as int - '0' as int == d
  {
    ('0' as int + d) as char
  }

  function DigitValue(c: char): (d: nat)
    requires IsDigit(c)
    ensures d < 10
    ensures DigitChar(d) == c
  {
    c as int - '0' as int
  }

  /** Decimal rendering of a natural number, as `String(n)` gives it. */
  function NatToString(n: nat): (r: string)
    ensures |r| >= 1
    ensures forall i :: 0 <= i < |r| ==> IsDigit(r[i])
    decreases n
  {
    if n < 10 then [DigitChar(n)] else NatToString(n / 10) + [DigitChar(n % 10)]
  }

  /** Decimal rendering of an integer: a minus sign, then the digits. */
  function IntToString(n: int): (r: string)
    ensures |r| >= 1
    ensures forall i :: 0 <= i < |r| ==> IsDigit(r[i]) || r[i] == '-'
  {
    if n < 0 then "-" + NatToString(-n) else NatToString(n)
  }

  /** Reads a non-empty run of decimal digits. */
  function ParseNat(s: string): (n: nat)
    requires forall i :: 0 <= i < |s| ==> IsDigit(s[i])
  {
    if |s| == 0 then 0 else 10 * ParseNat(s[..|s| - 1]) + DigitValue(s[|s| - 1])
  }

  /** Reading back the decimal rendering gives the number again. */
  lemma {:induction false} ParseNatToString(n: nat)
    ensures ParseNat(NatToString(n)) == n
    decreases n
  {
    var s := NatToString(n);
    if n >= 10 {
      assert s[..|s| - 1] == NatToString(n / 10);
      ParseNatToString(n / 10);
    }
  }

  /** `parts.join([sep])`. */
  function Join(parts: seq<string>, sep: char): string {
    if |parts| == 0 then ""
    else if |parts| == 1 then parts[0]
    else parts[0] + [sep] + Join(parts[1..], sep)
  }

  /** `s.split(sep)` for a one-character separator: the maximal runs between
      separators, so an empty string splits into one empty part. */
  function Split(s: string, sep: char): (r: seq<string>)
    ensures |r| >= 1
    decreases |s|
  {
    if |s| == 0 then [""]
    else
      var rest := Split(s[1..], sep);
      if s[0] == sep then [""] + rest
      else [[s[0]] + rest[0]] + rest[1..]
  }

  lemma {:induction false} SplitWithoutSeparator(a: string, sep: char)
    requires sep !in a
    ensures Split(a, sep) == [a]
    decreases |a|
  {
    if |a| > 0 {
      SplitWithoutSeparator(a[1..], sep);
      assert [a[0]] + a[1..] == a;
    }
  }

  lemma {:induction false} SplitAtFirstSeparator(a: string, b: string, sep: char)
    requires sep !in a
    ensures Split(a + [sep] + b, sep) == [a] + Split(b, sep)
    decreases |a|
  {
    var s := a + [sep] + b;
    if |a| == 0 {
      assert s[0] == sep;
      assert s[1..] == b;
    } else {
      assert s[0] == a[0];
      assert s[1..] == a[1..] + [sep] + b;
      SplitAtFirstSeparator(a[1..], b, sep);
      assert [a[0]] + a[1..] == a;
    }
  }

  /** Splitting a join of separator-free parts gives the parts back. */
  lemma {:induction false} SplitJoin(parts: seq<string>, sep: char)
    requires |parts| >= 1
    requires forall i :: 0 <= i < |parts| ==> sep !in parts[i]
    ensures Split(Join(parts, sep), sep) == parts
  {
    if |parts| == 1 {
      SplitWithoutSeparator(parts[0], sep);
    } else {
      SplitJoin(parts[1..], sep);
      SplitAtFirstSeparator(parts[0], Join(parts[1..], sep), sep);
      assert [parts[0]] + parts[1..] == parts;
    }
  }
}
